=== FILE: README.md ===
# jmdict-couch: the JMdict reader, in Dafny

jmdict-couch reads the JMdict Japanese–English dictionary (one large XML file) and turns
every `<entry>` element into a record. Each record has a sequence number (`ent_seq`), its
written forms (`k_ele`), its readings (`r_ele`) and its senses (`sense`). This project
models that reader as pure functions over the stream of events an XML pull reader
produces. It proves what the reader returns, which errors it raises, and when it prints a
warning.

Modules, one per part of `src/main.rs`:

- `Wrappers`, `Text`: the `Option` and `Result` types. Also Rust's `str::trim`, a decimal
  `u32::from_str`, and the `u8` range.
- `Events`: the reader's events, warnings and errors. It also holds `Run`, the read loop
  that `parse_k_ele`, `parse_r_ele` and `parse_sense` share: each of them is one step
  function for `Run` plus a check when the element closes. Finally it has the emitters
  that write records back out as events.
- `Records`: the `Entry`, `KanjiEntry`, `ReadingEntry`, `Sense` and `CrossReference`
  records.
- `Entity`: `parse_single_entity`, which decodes `&name;` codes such as `&adj-i;`.
- `CrossRef`: `parse_cross_ref` and its pattern `^([^・]+)(・([^・]+))?(・(\d+))?$`.
- `KanjiElement`, `ReadingElement`, `SenseElement`: `parse_k_ele`, `parse_r_ele` and
  `parse_sense`.
- `EntryElement`: `parse_entry`.
- `Document`: `get_entries`.

Panics are kept apart from ordinary errors. An `assert!` or `unwrap()` that would abort
the program becomes `Failure(Panic(reason))`. An `ensure!`, `bail!` or `?` becomes a
plain `Failure`. Warnings are collected in order instead of printed.

Each parser has a partner. Emitters write a record back out as canonical JMdict markup.
Round-trip lemmas prove that the parser reads every well-formed record back unchanged,
with no warning, and stops just past its closing tag. Every error path is stated for
arbitrary inputs, under the condition that raises it. Each step function states its
errors for every state and event. The closing checks are stated for every final state.
Lemmas lift the errors inside `entry` and `sense` to arbitrary event sequences. Examples
include a nested `ent_seq` at any point, an entry with no `r_ele` before its own closing
tag whatever follows it, and undecodable text in a `sense` leaf after any earlier
children. Worked examples pin down specific behaviours:

- `食う・1` puts the `1` in the reading, not in the sense index.
- A full-width digit sense index panics.
- The source's own unit test for `parse_sense` holds.

## Model

| member | source | states |
|---|---|---|
| Text.TrimFixedIff | src/main.rs:292-295 | `trim()` leaves a key unchanged exactly when it is empty or neither starts nor ends with Unicode white space |
| Text.ParseU32 | src/main.rs:218-219 | `u32::from_str` accepts exactly an optional `+` and at least one ASCII digit whose value is below 2^32, and returns that value |
| Text.ParseU32OfDecimal | src/main.rs:218-219 | every `u32` written in decimal parses back to itself |
| Text.ParseU32TooLarge | src/main.rs:218-219 | a decimal number of 2^32 or more is rejected |
| Entity.DecodeEntity | src/main.rs:506-521 | success returns a name whose `&name;` form is exactly the raw text; failure is a malformed-entity error at the position |
| Entity.DecodeEntityLiteral | src/main.rs:506-521 | every `&name;` with no `&` or `;` inside decodes to `name` |
| Entity.DecodeEntityIff | src/main.rs:510-516 | decoding succeeds if and only if the raw text is `&`, a name free of `&` and `;`, then `;` |
| Entity.DecodeEntityExamples | src/main.rs:506-521 | `&adj-i;` gives `adj-i`; `&bad;extra;` and undelimited text are errors; `&;` gives the empty name |
| CrossRef.MatchCrossRef | src/main.rs:524-529 | a match's three captures recompose the input, and a sense index is only ever captured together with a reading |
| CrossRef.MatchComplete | src/main.rs:526 | every well-formed capture triple is matched, and the captures found are the ones the regex prefers |
| CrossRef.MatchLanguage | src/main.rs:526 | the pattern matches a string if and only if some well-formed capture triple composes to it |
| CrossRef.DecodeCrossRef | src/main.rs:523-547 | a non-match is a malformed-cross-reference error carrying the input and position; a match succeeds if and only if it has no index or an ASCII index of at most 255, and then carries the target, the reading and the index's decimal value; otherwise it panics, with the overflow panic for an ASCII index |
| CrossRef.DecodeRender | src/main.rs:530-540 | every well-formed cross-reference written as `target・reading・index` decodes back to itself |
| CrossRef.TwoPartsGiveReading | src/main.rs:526-536 | `a・b` always puts `b` in the reading, even when `b` is all digits |
| CrossRef.RejectsOutsideGrammar | src/main.rs:541-545 | text that no capture triple composes to is rejected with the input in the error |
| CrossRef.NonAsciiIndexPanics | src/main.rs:534 | an index of Unicode decimal digits that are not all ASCII matches the pattern but panics in `u8::from_str(..).unwrap()` |
| CrossRef.IndexOverflowPanics | src/main.rs:534 | an ASCII index above 255 matches the pattern but panics in `u8::from_str(..).unwrap()` |
| CrossRef.IndexInRange | src/main.rs:534-539 | an ASCII index of at most 255, leading zeros allowed, becomes the sense index with its decimal value |
| CrossRef.ExampleLeadingZeros | src/main.rs:534 | `食べる・たべる・007` gives sense index 7 |
| CrossRef.ExampleIndexOverflow | src/main.rs:534 | `食べる・たべる・256` panics on the overflow |
| CrossRef.ExampleFullwidthIndex | src/main.rs:534 | `A・B・２` panics on the full-width `２` |
| CrossRef.ExampleThreeParts | src/main.rs:523-547 | `食べる・たべる・2` gives target, reading and sense index 2 |
| CrossRef.ExampleOnePart | src/main.rs:523-547 | `食べる` gives a bare target |
| CrossRef.ExampleEmptyTarget | src/main.rs:541-545 | `・2` has an empty target and is rejected |
| CrossRef.ExampleDigitReading | src/main.rs:526-536 | `食う・1` gives reading `1` and no sense index |
| KanjiElement.KanjiStep | src/main.rs:265-288 | each event only appends to the lists; a known child tag opens a leaf and changes nothing else; text in `keb` replaces the key, text in `ke_inf` appends its decoded entity or fails with the entity error, text in `ke_pri` appends; undecodable `keb`/`ke_pri` text is an error; an end tag closes the open leaf; an unknown child or text outside a leaf adds exactly one warning and changes nothing else |
| KanjiElement.CloseKanji | src/main.rs:292-306 | an element closes if and only if its key is non-empty and trimmed; an untrimmed key panics before the emptiness check |
| KanjiElement.ParseKanji | src/main.rs:251-307 | on success the reader stands just past `</k_ele>` and the key is non-empty and trimmed |
| KanjiElement.ParseKanjiClose | src/main.rs:292-306 | the read loop's final state decides the result: the record with its warnings, an empty-key error at the close, or the untrimmed-key panic |
| KanjiElement.ParseKanjiEvents | src/main.rs:251-307 | canonical `k_ele` markup reads back as its record, or as the error or panic its key calls for |
| KanjiElement.ParseKanjiRoundTrip | src/main.rs:251-307 | a well-formed `k_ele` reads back unchanged, with no warning |
| KanjiElement.UnknownChildWarnsOnce | src/main.rs:270 | an unknown child element before the body gives exactly one warning, naming the tag and its position, and the same record |
| KanjiElement.StrayTextWarnsOnce | src/main.rs:280 | text outside any leaf gives exactly one unexpected-text warning and the same record |
| ReadingElement.ReadingStep | src/main.rs:326-352 | each event only appends, and `re_nokanji` raises the flag and nothing else; a known leaf tag opens that leaf; text in `reb` replaces the key, text in `re_restr`/`re_pri` appends, text in `re_inf` appends its decoded entity or fails with the entity error; undecodable leaf text other than `re_inf` panics; unknown children and stray text warn once |
| ReadingElement.CloseReading | src/main.rs:356-372 | an element closes if and only if its kana key is non-empty and trimmed; an untrimmed key panics first |
| ReadingElement.ParseReading | src/main.rs:309-373 | on success the reader stands just past `</r_ele>` and the key is non-empty and trimmed |
| ReadingElement.ParseReadingClose | src/main.rs:356-372 | the read loop's final state decides the result, as for `k_ele` |
| ReadingElement.ParseReadingEvents | src/main.rs:309-373 | canonical `r_ele` markup reads back as its record, or as the error or panic its key calls for |
| ReadingElement.ParseReadingRoundTrip | src/main.rs:309-373 | a well-formed `r_ele` reads back unchanged, with no warning |
| ReadingElement.UnknownChildWarnsOnce | src/main.rs:333 | an unknown child element gives exactly one warning and the same record |
| SenseElement.GlossLanguage | src/main.rs:400-416 | a gloss start tag keeps the sense's language, or adopts its first `xml:lang`; a non-UTF-8 value or a different language is an error |
| SenseElement.GlossLanguageAccepts | src/main.rs:402-416 | the attributes are accepted if and only if every `xml:lang` on them equals the language held afterwards |
| SenseElement.AgreesIff | src/main.rs:406-413 | a run of glosses passes the language check if and only if every language written equals the first one held |
| SenseElement.SenseStart | src/main.rs:395-420 | a start tag changes only the open leaf and the language; a language once set stays; an unknown child changes nothing |
| SenseElement.SenseText | src/main.rs:425-442 | text changes only the open leaf's list: `stagk`, `stagr` and `gloss` append the decoded text and panic when there is none; `pos` appends the entity's name if and only if it decodes, else the entity error; `xref` panics on undecodable text, else appends the decoded cross-reference if and only if it decodes, else passes its error on; text outside a leaf changes nothing; every cross-reference taken in is well-formed |
| SenseElement.SenseStep | src/main.rs:393-451 | every event only appends and keeps the language once set; text is routed as for `SenseText`; an end tag closes the leaf; no event warns |
| SenseElement.ParseSense | src/main.rs:375-461 | on success the reader stands just past `</sense>`, with no warning and only well-formed cross-references |
| SenseElement.ParseSenseRoundTrip | src/main.rs:375-461 | a well-formed `sense` reads back unchanged |
| SenseElement.ParseGlossLanguages | src/main.rs:400-416 | glosses tagged with languages read back with the first language if they agree, and fail with the inconsistent-language error if not |
| SenseElement.GlossLanguageExamples | src/main.rs:400-416 | two `eng` glosses give language `eng`; an `eng` gloss then a `fre` gloss is an error |
| SenseElement.UnknownChildIgnored | src/main.rs:418-419 | an unknown child and its text are ignored silently |
| SenseElement.LeafTextFails | src/main.rs:425-439 | after any children that leave the sense open, a leaf whose text the step refuses fails the whole sense with that error, whatever follows |
| SenseElement.GlossStartFails | src/main.rs:400-416 | after any children that leave the sense open, a `gloss` start tag whose language check fails fails the whole sense with that error |
| SenseElement.UndecodableLeafPanics | src/main.rs:426-439 | undecodable text inside `stagk`, `stagr`, `xref` or `gloss` panics at the `unwrap`, wherever in the sense it occurs |
| SenseElement.PartOfSpeechEntityFails | src/main.rs:432-434 | text inside `pos` that is not an entity code fails the sense with the entity error at the text's position |
| SenseElement.CrossRefFails | src/main.rs:435-438 | decoded `xref` text the cross-reference decoder refuses fails the sense with the decoder's error or panic |
| SenseElement.TestParseSense | src/main.rs:463-483 | the unit test's `sense`, with two `stagk` and two `gloss` children among indentation text, reads back as exactly those lists and no language |
| EntryElement.EntSeqText | src/main.rs:216-220 | text inside `ent_seq` becomes the number if and only if it decodes and parses as a `u32`; otherwise it is the decode error or the number error |
| EntryElement.CloseEntry | src/main.rs:232-248 | an entry closes if and only if it has a non-zero number and at least one reading; a missing number is reported first |
| EntryElement.ParseEntry | src/main.rs:179-249 | on success the reader stands just past `</entry>`, and the entry has a non-zero number, at least one reading and only checked children |
| EntryElement.ChildFailureAborts | src/main.rs:199-201 | a child whose parser fails is the entry's failure, with the child's error |
| EntryElement.ParseEntryChildren | src/main.rs:199-201 | canonical children are collected in document order, each list in the order it was written |
| EntryElement.ParseEntryEvents | src/main.rs:179-249 | canonical entry markup reads back as its entry, or as the missing-number or no-reading error at the close |
| EntryElement.ParseEntryRoundTrip | src/main.rs:179-249 | a well-formed entry reads back unchanged, with no warning |
| EntryElement.MissingEntSeq | src/main.rs:232-236 | an entry without `ent_seq` fails with the missing-number error at its close |
| EntryElement.EntSeqRules | src/main.rs:191-220 | a nested `ent_seq` and an unmatched `</ent_seq>` are errors at their positions; text inside `ent_seq` replaces the number or fails; text outside it is ignored |
| EntryElement.OtherEventRules | src/main.rs:202-227 | an unknown child warns once; other end tags and other events are passed over; `</entry>` stops; a reader error fails at its position |
| EntryElement.EntryWithoutReadingFails | src/main.rs:237-241 | an entry with no `r_ele` start tag before its own closing tag fails, whatever else it holds and whatever follows it, with the no-reading error at its closing tag when it has a number |
| EntryElement.EntryWithoutNumberFails | src/main.rs:232-236 | an entry with no `ent_seq` start tag before its own closing tag fails, whatever follows it, with the missing-number error at its closing tag |
| EntryElement.NumberOnlyEntryFails | src/main.rs:237-241 | an entry holding only its number fails with the no-reading error at its closing tag, whatever entries follow it |
| EntryElement.LoopExtends | src/main.rs:199-202 | the entry loop only ever appends to the children and warnings it holds |
| EntryElement.NestedEntSeqExample | src/main.rs:191-197 | `<ent_seq><ent_seq>` fails at the second tag |
| EntryElement.MismatchedEntSeqExample | src/main.rs:206-212 | a second `</ent_seq>` fails at its position |
| EntryElement.EntSeqOutOfRange | src/main.rs:218-219 | a number of 2^32 or more in `ent_seq` fails with the number error |
| EntryElement.LastTextWins | src/main.rs:216-220 | of two texts inside one `ent_seq`, the second sets the number |
| EntryElement.UnknownChildWarnsOnce | src/main.rs:202 | an unknown child of `entry` gives exactly one warning and the same entry |
| Document.DocLoop | src/main.rs:157-176 | the entries only grow, in document order, and every entry added is checked |
| Document.GetEntries | src/main.rs:148-177 | every entry returned has a non-zero number, at least one reading and only checked children |
| Document.SkipRun | src/main.rs:159-172 | start tags other than `entry`, end tags, text and other events change nothing |
| Document.StepRules | src/main.rs:159-171 | `Eof` stops with the entries so far; a reader error fails at its position; an entry that fails is the file's failure; an entry that succeeds is appended |
| Document.GetEntriesRoundTrip | src/main.rs:148-177 | a file of well-formed entries reads back as exactly those entries, in order, with no warning |
| Document.FirstFailureIsFinal | src/main.rs:161 | after well-formed entries, the first entry that fails is the result, and the entries read before it are dropped |
| Document.ExampleEndToEnd | src/main.rs:148-177 | the worked example (entry 12345, 食べる/たべる, one verb sense with `食う・1` and two English glosses) reads back as exactly that entry |

## Left out

- The command line, `main`, file opening and writing the result are left out. The reader
  works on a finite event sequence given as a parameter.
- The XML reader is left out: tokenising, escaping, UTF-8 decoding, and the
  `trim_text`, `check_end_names` and `expand_empty_elements` settings. An event carries
  its escaped text and its decoded text, or `None` where decoding fails. It also carries
  its attributes, already split into key and value. An attribute the reader cannot parse
  is `MalformedAttribute`, which the `gloss` loop skips as the source does.
- `buffer_position()` is a byte offset. The model uses the event's index plus one, the
  number of events read so far.
- Running out of events inside `k_ele`, `r_ele`, `sense` or `entry`: the source does not
  stop. It ignores `Eof` there (src/main.rs:287, 351, 448, 227) and reads `Eof` forever.
  The model returns `Truncated(element)` instead of looping. At the top level, the end of
  the sequence counts as `Eof`, which ends `get_entries`.
- Warnings are returned as data, in order, instead of printed (src/main.rs:549-576). The
  non-UTF-8 form of a tag name in a warning is not modelled, because tag names are
  strings here.
- The warnings of an element that then fails are dropped. The source would already have
  printed them.
- `InfoVec` and `PriorityVec` are small-vector types. They are modelled as sequences.
- The `Sense` fields that are commented out in the source are not modelled.
- Regex internals are left out. The cross-reference pattern is modelled as the language
  it matches plus the leftmost-first choice of captures. `\d` uses the Unicode 15.0
  decimal-digit table.
- CrossRef.DecodeCrossRef: when the sense index is both non-ASCII and too large, the
  model reports the non-ASCII panic. Both inputs panic in the source, but only the panic
  message differs.
- SenseElement.TestParseSense: it states the test's outcome for the model's six-field
  `Sense`. The test as written builds a `Sense` without `part_of_speech` and
  `cross_refs`, so it would not compile against the struct it tests.
- Cross-references and codes are kept as the strings the source keeps. No lookup against
  other entries is modelled.

=== FILE: crossref.dfy ===
/** The cross-reference decoder: the text of an `xref` leaf has the shape
    `TARGET(・READING)?(・INDEX)?`, matched by the anchored pattern
    `^([^・]+)(・([^・]+))?(・(\d+))?$` with leftmost-first (backtracking) semantics. */
module CrossRef {
  import opened Wrappers
  import opened Text
  import opened Events
  import opened Records

  /** KATAKANA MIDDLE DOT, the separator. */
  const Dot: char := '\U{30FB}'

  /** `n` lies in the run of ten digits that starts at `start`. */
  predicate InDigitRun(n: int, start: int) {
    start <= n < start + 10
  }

  /** `\d`: a character of Unicode general category Nd (Unicode 15.0), which the pattern's
      `\d` matches by default: ASCII, then the other runs of ten (Arabic-Indic, Devanagari,
      ..., fullwidth at U+FF10, ..., segmented at U+1FBF0), and the mathematical digits
      U+1D7CE to U+1D7FF. */
  predicate IsDecimalDigit(c: char) {
    var n := c as int;
    || IsAsciiDigit(c)
    || InDigitRun(n, 0x660) || InDigitRun(n, 0x6F0) || InDigitRun(n, 0x7C0) || InDigitRun(n, 0x966) || InDigitRun(n, 0x9E6) || InDigitRun(n, 0xA66)
    || InDigitRun(n, 0xAE6) || InDigitRun(n, 0xB66) || InDigitRun(n, 0xBE6) || InDigitRun(n, 0xC66) || InDigitRun(n, 0xCE6) || InDigitRun(n, 0xD66)
    || InDigitRun(n, 0xDE6) || InDigitRun(n, 0xE50) || InDigitRun(n, 0xED0) || InDigitRun(n, 0xF20) || InDigitRun(n, 0x1040) || InDigitRun(n, 0x1090)
    || InDigitRun(n, 0x17E0) || InDigitRun(n, 0x1810) || InDigitRun(n, 0x1946) || InDigitRun(n, 0x19D0) || InDigitRun(n, 0x1A80) || InDigitRun(n, 0x1A90)
    || InDigitRun(n, 0x1B50) || InDigitRun(n, 0x1BB0) || InDigitRun(n, 0x1C40) || InDigitRun(n, 0x1C50) || InDigitRun(n, 0xA620) || InDigitRun(n, 0xA8D0)
    || InDigitRun(n, 0xA900) || InDigitRun(n, 0xA9D0) || InDigitRun(n, 0xA9F0) || InDigitRun(n, 0xAA50) || InDigitRun(n, 0xABF0) || InDigitRun(n, 0xFF10)
    || InDigitRun(n, 0x104A0) || InDigitRun(n, 0x10D30) || InDigitRun(n, 0x11066) || InDigitRun(n, 0x110F0) || InDigitRun(n, 0x11136) || InDigitRun(n, 0x111D0)
    || InDigitRun(n, 0x112F0) || InDigitRun(n, 0x11450) || InDigitRun(n, 0x114D0) || InDigitRun(n, 0x11650) || InDigitRun(n, 0x116C0) || InDigitRun(n, 0x11730)
    || InDigitRun(n, 0x118E0) || InDigitRun(n, 0x11950) || InDigitRun(n, 0x11C50) || InDigitRun(n, 0x11D50) || InDigitRun(n, 0x11DA0) || InDigitRun(n, 0x11F50)
    || InDigitRun(n, 0x16A60) || InDigitRun(n, 0x16AC0) || InDigitRun(n, 0x16B50) || InDigitRun(n, 0x1E140) || InDigitRun(n, 0x1E2F0) || InDigitRun(n, 0x1E4F0)
    || InDigitRun(n, 0x1E950) || InDigitRun(n, 0x1FBF0)
    || (0x1D7CE <= n <= 0x1D7FF)
  }

  predicate AllDecimalDigits(s: string) {
    forall k :: 0 <= k < |s| ==> IsDecimalDigit(s[k])
  }

  /** The three capture groups of the pattern (groups 1, 3 and 5). */
  datatype Captures = Captures(target: string, reading: Option<string>, index: Option<string>)

  /** A non-empty run without the separator: `[^・]+`. */
  predicate IsPart(s: string) {
    |s| > 0 && Dot !in s
  }

  /** Captures the pattern can produce: `[^・]+` for the target and the reading, `\d+`
      for the index. */
  predicate WellFormedCaptures(c: Captures) {
    && IsPart(c.target)
    && (c.reading.Some? ==> IsPart(c.reading.value))
    && (c.index.Some? ==> |c.index.value| > 0 && AllDecimalDigits(c.index.value))
  }

  /** The text the captures spell out. */
  function Compose(c: Captures): (r: string)
    ensures c.target <= r
  {
    c.target
    + (if c.reading.Some? then [Dot] + c.reading.value else [])
    + (if c.index.Some? then [Dot] + c.index.value else [])
  }

  /** The parse the pattern prefers for a text spelled by `c`: a lone second part is always
      taken by the optional reading group, which comes first, even when it is all digits. */
  function Preferred(c: Captures): (r: Captures)
    ensures Compose(r) == Compose(c) && r.target == c.target
    ensures r.index.Some? ==> r.reading.Some?
  {
    if c.reading.None? && c.index.Some? then Captures(c.target, c.index, None) else c
  }

  lemma DigitsArePart(d: string)
    requires |d| > 0 && AllDecimalDigits(d)
    ensures IsPart(d)
  {
    assert forall k :: 0 <= k < |d| ==> d[k] != Dot;
  }

  lemma ComposeTwo(t: string, r: string)
    ensures Compose(Captures(t, Some(r), None)) == t + [Dot] + r
  {
  }

  lemma ComposeThree(t: string, r: string, d: string)
    ensures Compose(Captures(t, Some(r), Some(d))) == t + [Dot] + (r + [Dot] + d)
  {
  }

  /** `s` is cut around its element at `a`. */
  lemma CutAt(s: string, a: nat)
    requires a < |s|
    ensures s == s[..a] + [s[a]] + s[a + 1..]
  {
  }

  /** The pattern match: the captures, or `None` when the text does not match. */
  function MatchCrossRef(s: string): (r: Option<Captures>)
    ensures r.Some? ==> WellFormedCaptures(r.value) && Compose(r.value) == s
    ensures r.Some? && r.value.index.Some? ==> r.value.reading.Some?
  {
    match IndexOf(s, Dot)
    case None =>
      if |s| > 0 then Some(Captures(s, None, None)) else None
    case Some(a) =>
      var target := s[..a];
      var rest := s[a + 1..];
      CutAt(s, a);
      match IndexOf(rest, Dot)
      case None =>
        if |target| > 0 && |rest| > 0 then
          ComposeTwo(target, rest);
          Some(Captures(target, Some(rest), None))
        else None
      case Some(b) =>
        var reading := rest[..b];
        var index := rest[b + 1..];
        CutAt(rest, b);
        if |target| > 0 && |reading| > 0 && |index| > 0 && AllDecimalDigits(index) then
          DigitsArePart(index);
          ComposeThree(target, reading, index);
          Some(Captures(target, Some(reading), Some(index)))
        else None
  }

  lemma MatchTwo(t: string, r: string)
    requires IsPart(t) && IsPart(r)
    ensures MatchCrossRef(t + [Dot] + r) == Some(Captures(t, Some(r), None))
  {
    var s := t + [Dot] + r;
    IndexOfJoin(t, Dot, r);
    assert s[..|t|] == t && s[|t| + 1..] == r;
  }

  lemma MatchThree(t: string, r: string, d: string)
    requires IsPart(t) && IsPart(r) && |d| > 0 && AllDecimalDigits(d)
    ensures MatchCrossRef(t + [Dot] + (r + [Dot] + d)) == Some(Captures(t, Some(r), Some(d)))
  {
    DigitsArePart(d);
    var rest := r + [Dot] + d;
    var s := t + [Dot] + rest;
    IndexOfJoin(t, Dot, rest);
    assert s[..|t|] == t && s[|t| + 1..] == rest;
    IndexOfJoin(r, Dot, d);
    assert rest[..|r|] == r && rest[|r| + 1..] == d;
  }

  /** Every text the pattern's grammar spells is matched, with the preferred captures. */
  lemma MatchComplete(c: Captures)
    requires WellFormedCaptures(c)
    ensures MatchCrossRef(Compose(c)) == Some(Preferred(c))
  {
    var t := c.target;
    match c
    case Captures(_, None, None) =>
      assert Compose(c) == t;
    case Captures(_, Some(r), None) =>
      ComposeTwo(t, r);
      MatchTwo(t, r);
    case Captures(_, None, Some(d)) =>
      DigitsArePart(d);
      assert Compose(c) == t + [Dot] + d;
      MatchTwo(t, d);
    case Captures(_, Some(r), Some(d)) =>
      ComposeThree(t, r, d);
      MatchThree(t, r, d);
  }

  /** The pattern matches exactly the texts its grammar spells. */
  lemma MatchLanguage(s: string)
    ensures MatchCrossRef(s).Some? <==> exists c :: WellFormedCaptures(c) && Compose(c) == s
  {
    if exists c :: WellFormedCaptures(c) && Compose(c) == s {
      var c :| WellFormedCaptures(c) && Compose(c) == s;
      MatchComplete(c);
    }
  }

  /** A cross-reference the decoder can produce: the leftmost-first preference means a sense
      index never comes without a reading. */
  predicate WellFormedRef(x: CrossReference) {
    && IsPart(x.kanjiOrReading)
    && (x.reading.Some? ==> IsPart(x.reading.value))
    && (x.senseIndex.Some? ==> x.reading.Some?)
  }

  /** The `xref` text of a cross-reference, its sense index written in canonical decimal. */
  function Render(x: CrossReference): (r: string)
    ensures x.kanjiOrReading <= r
  {
    Compose(Captures(x.kanjiOrReading, x.reading, if x.senseIndex.Some? then Some(DecimalString(x.senseIndex.value)) else None))
  }

  /** Decodes the (unescaped) text of an `xref` leaf.  A text outside the grammar is an
      error carrying the position and the text; an index `u8::from_str` rejects (a digit
      outside ASCII, or a value above 255) is unwrapped by the program: a panic. */
  function DecodeCrossRef(input: string, pos: nat): (r: Result<CrossReference, ParseError>)
    ensures r.Success? ==> WellFormedRef(r.value)
    ensures r.Success? && r.value.senseIndex.None? ==> Render(r.value) == input
    ensures MatchCrossRef(input).None? ==> r == Failure(MalformedCrossRef(pos, input))
    ensures MatchCrossRef(input).Some? && r.Failure? ==> r.error.Panic?
    ensures MatchCrossRef(input).Some? ==>
      var c := MatchCrossRef(input).value;
      && (r.Success? <==> c.index.None? || (AllAsciiDigits(c.index.value) && DecimalValue(c.index.value) <= 255))
      && (r.Success? ==> r.value.kanjiOrReading == c.target && r.value.reading == c.reading)
      && (r.Success? ==> (r.value.senseIndex.Some? <==> c.index.Some?))
      && (r.Success? && c.index.Some? ==> r.value.senseIndex.value as int == DecimalValue(c.index.value))
      && (r.Failure? && c.index.Some? && AllAsciiDigits(c.index.value) ==> r.error == Panic(SenseIndexOverflow(c.index.value)))
  {
    match MatchCrossRef(input)
    case None => Failure(MalformedCrossRef(pos, input))
    case Some(c) =>
      if c.index.Some? && !AllAsciiDigits(c.index.value) then
        Failure(Panic(SenseIndexNotAscii(c.index.value)))
      else if c.index.Some? && DecimalValue(c.index.value) > 255 then
        Failure(Panic(SenseIndexOverflow(c.index.value)))
      else
        Success(CrossReference(c.target, c.reading, if c.index.Some? then Some(DecimalValue(c.index.value)) else None))
  }

  /** Rendering a well-formed cross-reference and decoding it gives it back. */
  lemma DecodeRender(x: CrossReference, pos: nat)
    requires WellFormedRef(x)
    ensures DecodeCrossRef(Render(x), pos) == Success(x)
  {
    var c := Captures(x.kanjiOrReading, x.reading, if x.senseIndex.Some? then Some(DecimalString(x.senseIndex.value)) else None);
    MatchComplete(c);
  }

  /** A two-part text `A・B` always puts `B` in the reading, never in the sense index, even
      when `B` is all digits. */
  lemma TwoPartsGiveReading(a: string, b: string, pos: nat)
    requires IsPart(a) && IsPart(b)
    ensures DecodeCrossRef(a + [Dot] + b, pos) == Success(CrossReference(a, Some(b), None))
  {
    var c := Captures(a, Some(b), None);
    assert Compose(c) == a + [Dot] + b;
    MatchComplete(c);
  }

  /** Any text outside the grammar is rejected with the position and the text itself. */
  lemma RejectsOutsideGrammar(s: string, pos: nat)
    requires forall c :: WellFormedCaptures(c) ==> Compose(c) != s
    ensures DecodeCrossRef(s, pos) == Failure(MalformedCrossRef(pos, s))
  {
    MatchLanguage(s);
  }

  /** An index of digits outside ASCII (fullwidth, Arabic-Indic, ...) passes the pattern,
      whose `\d` is Unicode-aware, and then fails `u8::from_str`: a panic. */
  lemma NonAsciiIndexPanics(t: string, r: string, d: string, pos: nat)
    requires IsPart(t) && IsPart(r) && |d| > 0 && AllDecimalDigits(d) && !AllAsciiDigits(d)
    ensures DecodeCrossRef(t + [Dot] + (r + [Dot] + d), pos) == Failure(Panic(SenseIndexNotAscii(d)))
  {
    MatchThree(t, r, d);
  }

  /** An ASCII index above 255 passes the pattern and then overflows `u8::from_str`: a
      panic. */
  lemma IndexOverflowPanics(t: string, r: string, d: string, pos: nat)
    requires IsPart(t) && IsPart(r) && |d| > 0 && AllAsciiDigits(d) && DecimalValue(d) > 255
    ensures DecodeCrossRef(t + [Dot] + (r + [Dot] + d), pos) == Failure(Panic(SenseIndexOverflow(d)))
  {
    assert AllDecimalDigits(d);
    MatchThree(t, r, d);
  }

  /** An ASCII index of at most 255, leading zeros and all, becomes the sense index. */
  lemma IndexInRange(t: string, r: string, d: string, pos: nat)
    requires IsPart(t) && IsPart(r) && |d| > 0 && AllAsciiDigits(d) && DecimalValue(d) <= 255
    ensures DecodeCrossRef(t + [Dot] + (r + [Dot] + d), pos) == Success(CrossReference(t, Some(r), Some(DecimalValue(d) as u8)))
  {
    assert AllDecimalDigits(d);
    MatchThree(t, r, d);
  }

  /** `食べる・たべる・007` is sense 7: leading zeros are allowed. */
  lemma ExampleLeadingZeros(pos: nat)
    ensures DecodeCrossRef("食べる・たべる・007", pos) == Success(CrossReference("食べる", Some("たべる"), Some(7)))
  {
    hide DecodeCrossRef, MatchCrossRef;
    assert "食べる・たべる・007" == "食べる" + [Dot] + ("たべる" + [Dot] + "007");
    assert IsPart("食べる") && IsPart("たべる");
    assert "007"[..2] == "00" && "00"[..1] == "0" && "0"[..0] == "";
    assert DecimalValue("0") == 0;
    assert DecimalValue("00") == 0;
    assert DecimalValue("007") == 7;
    IndexInRange("食べる", "たべる", "007", pos);
  }

  /** `食べる・たべる・256` does not fit in a byte. */
  lemma ExampleIndexOverflow(pos: nat)
    ensures DecodeCrossRef("食べる・たべる・256", pos) == Failure(Panic(SenseIndexOverflow("256")))
  {
    assert "食べる・たべる・256" == "食べる" + [Dot] + ("たべる" + [Dot] + "256");
    assert IsPart("食べる") && IsPart("たべる");
    assert "256"[..2] == "25" && "25"[..1] == "2" && "2"[..0] == "";
    IndexOverflowPanics("食べる", "たべる", "256", pos);
  }

  lemma ExampleFullwidthIndex(pos: nat)
    ensures DecodeCrossRef("A・B・２", pos) == Failure(Panic(SenseIndexNotAscii("２")))
  {
    var d := "２";
    assert "A・B・２" == "A" + [Dot] + ("B" + [Dot] + d);
    assert IsPart("A") && IsPart("B");
    assert IsDecimalDigit(d[0]) && !IsAsciiDigit(d[0]);
    NonAsciiIndexPanics("A", "B", d, pos);
  }

  /** The worked examples: three parts, one part, an empty target, and a two-part text
      whose second part is all digits. */
  lemma ExampleThreeParts(pos: nat)
    ensures DecodeCrossRef("食べる・たべる・2", pos) == Success(CrossReference("食べる", Some("たべる"), Some(2)))
  {
    var t, r, d := "食べる", "たべる", "2";
    assert "食べる・たべる・2" == t + [Dot] + (r + [Dot] + d);
    assert IsPart(t) && IsPart(r);
    assert AllAsciiDigits(d) && d[..0] == [];
    assert DecimalValue(d) == 2;
    MatchThree(t, r, d);
  }

  lemma ExampleOnePart(pos: nat)
    ensures DecodeCrossRef("食べる", pos) == Success(CrossReference("食べる", None, None))
  {
    assert Dot !in "食べる";
  }

  lemma ExampleEmptyTarget(pos: nat)
    ensures DecodeCrossRef("・2", pos) == Failure(MalformedCrossRef(pos, "・2"))
  {
    assert IndexOf("・2", Dot) == Some(0);
  }

  lemma ExampleDigitReading(pos: nat)
    ensures DecodeCrossRef("食う・1", pos) == Success(CrossReference("食う", Some("1"), None))
  {
    assert "食う・1" == "食う" + [Dot] + "1";
    assert IsPart("食う") && IsPart("1");
    TwoPartsGiveReading("食う", "1", pos);
  }
}

=== FILE: document.dfy ===
/** The driver over a whole dictionary file: every `<entry>` start tag hands the reader to
    the entry assembler; everything else outside an entry is passed over. */
module Document {
  import opened Wrappers
  import opened Events
  import opened Records
  import CrossRef
  import EntryElement
  import KanjiElement
  import ReadingElement
  import SenseElement

  /** The entries read so far, in document order, and the warnings their assemblers
      reported. */
  datatype Dictionary = Dictionary(entries: seq<Entry>, warnings: seq<Warning>)

  /** The loop from index `i`: the end of the events or `Eof` stops it, a reader error
      fails it at its position, and an entry that fails fails the whole file. */
  function DocLoop(evs: seq<Event>, i: nat, acc: Dictionary): (r: Result<Dictionary, ParseError>)
    ensures r.Success? ==> acc.entries <= r.value.entries && acc.warnings <= r.value.warnings
    ensures r.Success? ==> forall k | |acc.entries| <= k < |r.value.entries| :: EntryElement.CheckedEntry(r.value.entries[k])
    decreases |evs| - i
  {
    if i >= |evs| then Success(acc)
    else
      match evs[i]
      case Start(name, _) =>
        if name == "entry" then
          match EntryElement.ParseEntry(evs, i + 1)
          case Failure(err) => Failure(err)
          case Success(p) => DocLoop(evs, p.next, Dictionary(acc.entries + [p.value], acc.warnings + p.warnings))
        else DocLoop(evs, i + 1, acc)
      case Eof => Success(acc)
      case ReaderError(message) => Failure(XmlError(i + 1, message))
      case _ => DocLoop(evs, i + 1, acc)
  }

  /** Every entry of the file, or the first error. */
  function GetEntries(evs: seq<Event>): (r: Result<Dictionary, ParseError>)
    ensures r.Success? ==> forall e | e in r.value.entries :: EntryElement.CheckedEntry(e)
  {
    DocLoop(evs, 0, Dictionary([], []))
  }

  /** An event the driver passes over: anything but an `<entry>` start tag, `Eof` or a
      reader error. */
  predicate Skipped(ev: Event) {
    (ev.Start? && ev.name != "entry") || ev.End? || ev.Text? || ev.Other?
  }

  /** A run of passed-over events changes nothing. */
  lemma {:induction false} SkipRun(evs: seq<Event>, i: nat, k: nat, acc: Dictionary)
    requires i <= k <= |evs|
    requires forall j | i <= j < k :: Skipped(evs[j])
    ensures DocLoop(evs, i, acc) == DocLoop(evs, k, acc)
    decreases k - i
  {
    hide EntryElement.ParseEntry;
    if i < k {
      assert Skipped(evs[i]);
      assert DocLoop(evs, i, acc) == DocLoop(evs, i + 1, acc);
      SkipRun(evs, i + 1, k, acc);
    }
  }

  /** The driver's single steps, whatever follows: `Eof` stops it with what it has, a
      reader error fails it at its position, and an entry whose assembler fails is the
      file's error. */
  lemma StepRules(evs: seq<Event>, i: nat, acc: Dictionary)
    requires i < |evs|
    ensures evs[i] == Eof ==> DocLoop(evs, i, acc) == Success(acc)
    ensures evs[i].ReaderError? ==> DocLoop(evs, i, acc) == Failure(XmlError(i + 1, evs[i].message))
    ensures evs[i].Start? && evs[i].name == "entry" && EntryElement.ParseEntry(evs, i + 1).Failure? ==>
      DocLoop(evs, i, acc) == Failure(EntryElement.ParseEntry(evs, i + 1).error)
    ensures evs[i].Start? && evs[i].name == "entry" && EntryElement.ParseEntry(evs, i + 1).Success? ==>
      var p := EntryElement.ParseEntry(evs, i + 1).value;
      DocLoop(evs, i, acc) == DocLoop(evs, p.next, Dictionary(acc.entries + [p.value], acc.warnings + p.warnings))
  {
    hide EntryElement.ParseEntry;
  }

  // ---------------------------------------------------------------------------
  // Canonical markup
  // ---------------------------------------------------------------------------

  /** One `<entry>` element per record, in order. */
  function EntriesEvents(es: seq<Entry>): (r: seq<Event>)
    ensures r == [] <==> es == []
    ensures es != [] ==> r[0] == Start("entry", [])
  {
    if |es| == 0 then [] else [Start("entry", [])] + EntryElement.EntryEvents(es[0]) + EntriesEvents(es[1..])
  }

  /** A whole file: the root element around the entries, then the end of input. */
  function DocumentEvents(es: seq<Entry>): (r: seq<Event>)
    ensures |r| == |EntriesEvents(es)| + 3 && r[0] == Start("JMdict", []) && r[|r| - 1] == Eof
  {
    [Start("JMdict", [])] + EntriesEvents(es) + [End("JMdict"), Eof]
  }

  /** A well-formed entry, once its start tag is read, reads back and leaves the reader
      just past its closing tag. */
  lemma EntryReadBack(evs: seq<Event>, i: nat, e: Entry)
    requires At(evs, i + 1, EntryElement.EntryEvents(e)) && EntryElement.WellFormedEntry(e)
    ensures EntryElement.ParseEntry(evs, i + 1) == Success(Parsed(e, i + 1 + |EntryElement.EntryEvents(e)|, []))
  {
    hide *;
    EntryElement.ParseEntryRoundTrip(evs, i + 1, e);
  }

  /** The first of a run of entries, then the rest. */
  lemma EntriesHead(evs: seq<Event>, i: nat, es: seq<Entry>)
    requires |es| > 0 && At(evs, i, EntriesEvents(es))
    ensures evs[i] == Start("entry", [])
    ensures At(evs, i + 1, EntryElement.EntryEvents(es[0]))
    ensures At(evs, i + 1 + |EntryElement.EntryEvents(es[0])|, EntriesEvents(es[1..]))
    ensures |EntriesEvents(es)| == 1 + |EntryElement.EntryEvents(es[0])| + |EntriesEvents(es[1..])|
  {
    hide EntryElement.EntryEvents, At;
    var head := EntryElement.EntryEvents(es[0]);
    AtSplit(evs, i, [Start("entry", [])] + head, EntriesEvents(es[1..]));
    AtSplit(evs, i, [Start("entry", [])], head);
    AtHead(evs, i, [Start("entry", [])]);
  }

  /** Well-formed entries written out one after the other are read back in order, with no
      warning. */
  lemma {:induction false} ReadEntries(evs: seq<Event>, i: nat, es: seq<Entry>, acc: Dictionary)
    requires At(evs, i, EntriesEvents(es))
    requires forall e | e in es :: EntryElement.WellFormedEntry(e)
    ensures DocLoop(evs, i, acc) == DocLoop(evs, i + |EntriesEvents(es)|, Dictionary(acc.entries + es, acc.warnings))
    decreases |es|
  {
    hide EntryElement.ParseEntry, EntryElement.EntryEvents, At;
    if |es| == 0 {
      assert acc.entries + es == acc.entries;
    } else {
      EntriesHead(evs, i, es);
      EntryReadBack(evs, i, es[0]);
      var next := i + 1 + |EntryElement.EntryEvents(es[0])|;
      var after := Dictionary(acc.entries + [es[0]], acc.warnings);
      StepRules(evs, i, acc);
      assert acc.warnings + [] == acc.warnings;
      assert DocLoop(evs, i, acc) == DocLoop(evs, next, after);
      assert forall e | e in es[1..] :: e in es;
      ReadEntries(evs, next, es[1..], after);
      AppendCons(acc.entries, es);
    }
  }

  /** The round trip: a file of well-formed entries is read back, entries in document
      order, with no warning. */
  lemma GetEntriesRoundTrip(es: seq<Entry>)
    requires forall e | e in es :: EntryElement.WellFormedEntry(e)
    ensures GetEntries(DocumentEvents(es)) == Success(Dictionary(es, []))
  {
    hide EntryElement.ParseEntry, EntryElement.EntryEvents;
    var evs := DocumentEvents(es);
    var body := EntriesEvents(es);
    var n := |body|;
    assert |evs| == n + 3;
    assert evs[0] == Start("JMdict", []) && evs[n + 1] == End("JMdict") && evs[n + 2] == Eof;
    AtWithin([Start("JMdict", [])], body, [End("JMdict"), Eof]);
    assert DocLoop(evs, 0, Dictionary([], [])) == DocLoop(evs, 1, Dictionary([], []));
    ReadEntries(evs, 1, es, Dictionary([], []));
    assert [] + es == es;
    assert DocLoop(evs, n + 1, Dictionary(es, [])) == DocLoop(evs, n + 2, Dictionary(es, []));
  }

  /** Well-formed entries, then an entry whose assembler fails: the file fails with that
      entry's error, and nothing read before it is returned. */
  lemma FirstFailureIsFinal(evs: seq<Event>, i: nat, es: seq<Entry>, acc: Dictionary, attrs: seq<Attribute>)
    requires At(evs, i, EntriesEvents(es) + [Start("entry", attrs)])
    requires forall e | e in es :: EntryElement.WellFormedEntry(e)
    requires EntryElement.ParseEntry(evs, i + |EntriesEvents(es)| + 1).Failure?
    ensures DocLoop(evs, i, acc) == Failure(EntryElement.ParseEntry(evs, i + |EntriesEvents(es)| + 1).error)
  {
    hide *;
    AtSplit(evs, i, EntriesEvents(es), [Start("entry", attrs)]);
    AtHead(evs, i + |EntriesEvents(es)|, [Start("entry", attrs)]);
    ReadEntries(evs, i, es, acc);
    StepRules(evs, i + |EntriesEvents(es)|, Dictionary(acc.entries + es, acc.warnings));
  }

  // ---------------------------------------------------------------------------
  // End to end
  // ---------------------------------------------------------------------------

  /** The worked example: one entry numbered 12345 with the headword 食べる (`ichi1`), the
      reading たべる and one verb sense (`v1`) with the cross-reference text `食う・1` and two
      English glosses.  The file reads back as exactly that entry, with no warning; the
      `1` of the cross-reference lands in the reading, as the pattern prefers. */
  lemma ExampleEndToEnd()
    ensures var x := CrossReference("食う", Some("1"), None);
      var e := Entry(12345,
        [KanjiEntry("食べる", [], ["ichi1"])],
        [ReadingEntry("たべる", false, [], [], [])],
        [Sense([], [], ["v1"], [x], ["to eat", "to consume"], Some("eng"))]);
      && CrossRef.Render(x) == "食う・1"
      && GetEntries(DocumentEvents([e])) == Success(Dictionary([e], []))
  {
    hide *;
    var x := CrossReference("食う", Some("1"), None);
    var e := Entry(12345,
      [KanjiEntry("食べる", [], ["ichi1"])],
      [ReadingEntry("たべる", false, [], [], [])],
      [Sense([], [], ["v1"], [x], ["to eat", "to consume"], Some("eng"))]);
    ExampleRender();
    ExampleWellFormed();
    assert forall y | y in [e] :: y == e;
    GetEntriesRoundTrip([e]);
  }

  lemma ExampleRender()
    ensures CrossRef.Render(CrossReference("食う", Some("1"), None)) == "食う・1"
  {
    assert CrossRef.Compose(CrossRef.Captures("食う", Some("1"), None)) == "食う" + [CrossRef.Dot] + "1";
  }

  lemma ExampleWellFormed()
    ensures EntryElement.WellFormedEntry(Entry(12345,
      [KanjiEntry("食べる", [], ["ichi1"])],
      [ReadingEntry("たべる", false, [], [], [])],
      [Sense([], [], ["v1"], [CrossReference("食う", Some("1"), None)], ["to eat", "to consume"], Some("eng"))]))
  {
    assert KanjiElement.WellFormedKanji(KanjiEntry("食べる", [], ["ichi1"]));
    assert ReadingElement.WellFormedReading(ReadingEntry("たべる", false, [], [], []));
    assert CrossRef.IsPart("食う") && CrossRef.IsPart("1");
  }
}

=== FILE: entity.dfy ===
/** The entity-literal decoder: JMdict spells category codes as custom entity references
    `&name;` (XML 1.0 section 4.1, production [68] EntityRef), and the parser strips the
    delimiters without resolving the entity.  Only the delimiters are checked, not the
    Name production. */
module Entity {
  import opened Wrappers
  import opened Events

  /** A code that can stand between the delimiters: it holds neither `&` nor `;`. */
  predicate IsEntityName(name: string) {
    '&' !in name && ';' !in name
  }

  /** The literal `&name;`. */
  function EntityLiteral(name: string): string {
    "&" + name + ";"
  }

  /** Decodes the raw (still escaped) text of a category leaf.  It succeeds exactly on the
      literals `&name;` of names without `&` or `;`, and returns that name. */
  function DecodeEntity(raw: string, pos: nat): (r: Result<string, ParseError>)
    ensures r.Success? ==> raw == EntityLiteral(r.value) && IsEntityName(r.value)
    ensures r.Failure? ==> r.error == MalformedEntity(pos)
  {
    if |raw| == 0 || raw[0] != '&' || raw[|raw| - 1] != ';' || '&' in raw[1..] || ';' in raw[..|raw| - 1] then
      Failure(MalformedEntity(pos))
    else
      var name := raw[1..|raw| - 1];
      assert name <= raw[1..] && name == raw[..|raw| - 1][1..];
      assert raw == EntityLiteral(name);
      Success(name)
  }

  /** Every literal `&name;` decodes to its name. */
  lemma DecodeEntityLiteral(name: string, pos: nat)
    requires IsEntityName(name)
    ensures DecodeEntity(EntityLiteral(name), pos) == Success(name)
  {
    var raw := EntityLiteral(name);
    assert raw[1..] == name + ";";
    assert raw[..|raw| - 1] == "&" + name;
    assert raw[1..|raw| - 1] == name;
  }

  /** Decoding succeeds exactly on the literals of entity names. */
  lemma DecodeEntityIff(raw: string, pos: nat)
    ensures DecodeEntity(raw, pos).Success? <==> exists name :: IsEntityName(name) && raw == EntityLiteral(name)
  {
    if exists name :: IsEntityName(name) && raw == EntityLiteral(name) {
      var name :| IsEntityName(name) && raw == EntityLiteral(name);
      DecodeEntityLiteral(name, pos);
    }
  }

  /** One `<tag>&name;</tag>` per code, in order.  The reader cannot unescape a custom
      entity, so the decoded text is absent. */
  function EntityLeaves(tag: string, names: seq<string>): (r: seq<Event>)
    ensures |r| == 3 * |names|
  {
    if |names| == 0 then []
    else Leaf(tag, [], EntityLiteral(names[0]), None) + EntityLeaves(tag, names[1..])
  }

  predicate AllEntityNames(names: seq<string>) {
    forall k :: 0 <= k < |names| ==> IsEntityName(names[k])
  }

  /** The worked examples: `&adj-i;` gives `adj-i`; a second `;` or missing delimiters fail. */
  lemma DecodeEntityExamples(pos: nat)
    ensures DecodeEntity("&adj-i;", pos) == Success("adj-i")
    ensures DecodeEntity("&bad;extra;", pos) == Failure(MalformedEntity(pos))
    ensures DecodeEntity("no-delims", pos) == Failure(MalformedEntity(pos))
    ensures DecodeEntity("&;", pos) == Success("")
  {
    assert EntityLiteral("adj-i") == "&adj-i;";
    DecodeEntityLiteral("adj-i", pos);
    assert "&bad;extra;"[..10][4] == ';';
    assert EntityLiteral("") == "&;";
    DecodeEntityLiteral("", pos);
  }
}

=== FILE: entry.dfy ===
/** The `entry` assembler: the `ent_seq` number and the `k_ele`, `r_ele` and `sense`
    children, each handed to its own assembler. */
module EntryElement {
  import opened Wrappers
  import opened Text
  import opened Events
  import opened Records
  import KanjiElement
  import ReadingElement
  import SenseElement

  /** What has been read of an entry so far; `inEntSeq` is the flag that an `<ent_seq>` is
      open. */
  datatype EntryState = EntryState(
    id: u32,
    inEntSeq: bool,
    kanji: seq<KanjiEntry>,
    readings: seq<ReadingEntry>,
    senses: seq<Sense>,
    warnings: seq<Warning>)

  const Fresh: EntryState := EntryState(0, false, [], [], [], [])

  /** The child elements `entry` knows. */
  predicate IsEntryChild(name: string) {
    name == "ent_seq" || name == "k_ele" || name == "r_ele" || name == "sense"
  }

  /** What the close-time checks of the children guarantee of every record read so far. */
  predicate ChildrenChecked(st: EntryState) {
    && (forall k | k in st.kanji :: IsKey(k.kanji))
    && (forall e | e in st.readings :: IsKey(e.kana))
    && (forall s | s in st.senses :: SenseElement.AllWellFormedRefs(s.crossRefs))
  }

  /** The text of an open `<ent_seq>`: `u32::from_str` of the decoded text, each text
      replacing the number read before it. */
  function EntSeqText(st: EntryState, decoded: Option<string>): (r: Result<EntryState, ParseError>)
    ensures r.Success? <==> decoded.Some? && ParseU32(decoded.value).Some?
    ensures r.Success? ==> r.value == st.(id := ParseU32(decoded.value).value)
    ensures r.Failure? ==> r.error == if decoded.None? then Undecodable else BadEntSeq(decoded.value)
  {
    if decoded.None? then Failure(Undecodable)
    else
      match ParseU32(decoded.value)
      case None => Failure(BadEntSeq(decoded.value))
      case Some(v) => Success(st.(id := v))
  }

  /** The read loop of `entry` from index `i`: on success, the state at `</entry>` and the
      index just past it.  The position of the event at `i` is `i + 1`. */
  function EntryLoop(evs: seq<Event>, i: nat, st: EntryState): (r: Result<(EntryState, nat), ParseError>)
    decreases |evs| - i, 1
    ensures r.Success? ==> i < r.value.1 <= |evs|
  {
    if i >= |evs| then Failure(Truncated("entry"))
    else
      var pos := i + 1;
      match evs[i]
      case Start(name, _) =>
        if name == "ent_seq" then
          if st.inEntSeq then Failure(NestedEntSeq(pos)) else EntryLoop(evs, pos, st.(inEntSeq := true))
        else EntryChild(evs, i, st, name)
      case End(name) =>
        if name == "entry" then Success((st, pos))
        else if name == "ent_seq" then
          if !st.inEntSeq then Failure(MismatchedEntSeq(pos)) else EntryLoop(evs, pos, st.(inEntSeq := false))
        else EntryLoop(evs, pos, st)
      case Text(_, decoded) =>
        if !st.inEntSeq then EntryLoop(evs, pos, st)
        else
          (match EntSeqText(st, decoded)
           case Failure(e) => Failure(e)
           case Success(s) => EntryLoop(evs, pos, s))
      case Eof => Failure(Truncated("entry"))
      case ReaderError(m) => Failure(XmlError(pos, m))
      case Other => EntryLoop(evs, pos, st)
  }

  /** A child start tag other than `ent_seq` at index `i`: `k_ele`, `r_ele` and `sense` are
      read by their own assemblers from just past the tag and the loop goes on after them;
      any other tag draws a warning and the loop reads on inside it. */
  function EntryChild(evs: seq<Event>, i: nat, st: EntryState, name: string): (r: Result<(EntryState, nat), ParseError>)
    requires i < |evs|
    decreases |evs| - i, 0
    ensures r.Success? ==> i < r.value.1 <= |evs|
  {
    if name == "k_ele" then
      match KanjiElement.ParseKanji(evs, i + 1)
      case Failure(e) => Failure(e)
      case Success(p) => EntryLoop(evs, p.next, st.(kanji := st.kanji + [p.value], warnings := st.warnings + p.warnings))
    else if name == "r_ele" then
      match ReadingElement.ParseReading(evs, i + 1)
      case Failure(e) => Failure(e)
      case Success(p) => EntryLoop(evs, p.next, st.(readings := st.readings + [p.value], warnings := st.warnings + p.warnings))
    else if name == "sense" then
      match SenseElement.ParseSense(evs, i + 1)
      case Failure(e) => Failure(e)
      case Success(p) => EntryLoop(evs, p.next, st.(senses := st.senses + [p.value], warnings := st.warnings + p.warnings))
    else
      EntryLoop(evs, i + 1, st.(warnings := st.warnings + [UnknownTag("entry", name, i + 1)]))
  }

  /** The loop stops at the entry's own closing tag. */
  lemma {:induction false} LoopEndsAtClose(evs: seq<Event>, i: nat, st: EntryState)
    ensures EntryLoop(evs, i, st).Success? ==> evs[EntryLoop(evs, i, st).value.1 - 1] == End("entry")
    decreases |evs| - i, 1
  {
    hide KanjiElement.ParseKanji, ReadingElement.ParseReading, SenseElement.ParseSense;
    if i < |evs| {
      var pos := i + 1;
      match evs[i]
      case Start(name, _) =>
        if name == "ent_seq" {
          LoopEndsAtClose(evs, pos, st.(inEntSeq := true));
        } else {
          ChildEndsAtClose(evs, i, st, name);
        }
      case End(name) =>
        if name != "entry" {
          LoopEndsAtClose(evs, pos, st.(inEntSeq := if name == "ent_seq" then false else st.inEntSeq));
        }
      case Text(_, decoded) =>
        if !st.inEntSeq {
          LoopEndsAtClose(evs, pos, st);
        } else if EntSeqText(st, decoded).Success? {
          LoopEndsAtClose(evs, pos, EntSeqText(st, decoded).value);
        }
      case Other => LoopEndsAtClose(evs, pos, st);
      case _ =>
    }
  }

  lemma {:induction false} ChildEndsAtClose(evs: seq<Event>, i: nat, st: EntryState, name: string)
    requires i < |evs|
    ensures EntryChild(evs, i, st, name).Success? ==> evs[EntryChild(evs, i, st, name).value.1 - 1] == End("entry")
    decreases |evs| - i, 0
  {
    hide KanjiElement.ParseKanji, ReadingElement.ParseReading, SenseElement.ParseSense;
    if name == "k_ele" {
      match KanjiElement.ParseKanji(evs, i + 1)
      case Success(p) =>
        var s := st.(kanji := st.kanji + [p.value], warnings := st.warnings + p.warnings);
        assert EntryChild(evs, i, st, name) == EntryLoop(evs, p.next, s);
        LoopEndsAtClose(evs, p.next, s);
      case Failure(_) =>
    } else if name == "r_ele" {
      match ReadingElement.ParseReading(evs, i + 1)
      case Success(p) =>
        var s := st.(readings := st.readings + [p.value], warnings := st.warnings + p.warnings);
        assert EntryChild(evs, i, st, name) == EntryLoop(evs, p.next, s);
        LoopEndsAtClose(evs, p.next, s);
      case Failure(_) =>
    } else if name == "sense" {
      match SenseElement.ParseSense(evs, i + 1)
      case Success(p) =>
        var s := st.(senses := st.senses + [p.value], warnings := st.warnings + p.warnings);
        assert EntryChild(evs, i, st, name) == EntryLoop(evs, p.next, s);
        LoopEndsAtClose(evs, p.next, s);
      case Failure(_) =>
    } else {
      LoopEndsAtClose(evs, i + 1, st.(warnings := st.warnings + [UnknownTag("entry", name, i + 1)]));
    }
  }

  /** Every record the loop collects passed its assembler's close-time checks. */
  lemma {:induction false} LoopKeepsChecked(evs: seq<Event>, i: nat, st: EntryState)
    requires ChildrenChecked(st)
    ensures EntryLoop(evs, i, st).Success? ==> ChildrenChecked(EntryLoop(evs, i, st).value.0)
    decreases |evs| - i, 1
  {
    hide KanjiElement.ParseKanji, ReadingElement.ParseReading, SenseElement.ParseSense;
    if i < |evs| {
      var pos := i + 1;
      match evs[i]
      case Start(name, _) =>
        if name == "ent_seq" {
          LoopKeepsChecked(evs, pos, st.(inEntSeq := true));
        } else {
          ChildKeepsChecked(evs, i, st, name);
        }
      case End(name) =>
        if name != "entry" {
          LoopKeepsChecked(evs, pos, st.(inEntSeq := if name == "ent_seq" then false else st.inEntSeq));
        }
      case Text(_, decoded) =>
        if !st.inEntSeq {
          LoopKeepsChecked(evs, pos, st);
        } else if EntSeqText(st, decoded).Success? {
          LoopKeepsChecked(evs, pos, EntSeqText(st, decoded).value);
        }
      case Other => LoopKeepsChecked(evs, pos, st);
      case _ =>
    }
  }

  lemma {:induction false} ChildKeepsChecked(evs: seq<Event>, i: nat, st: EntryState, name: string)
    requires i < |evs| && ChildrenChecked(st)
    ensures EntryChild(evs, i, st, name).Success? ==> ChildrenChecked(EntryChild(evs, i, st, name).value.0)
    decreases |evs| - i, 0
  {
    hide KanjiElement.ParseKanji, ReadingElement.ParseReading, SenseElement.ParseSense;
    if name == "k_ele" {
      match KanjiElement.ParseKanji(evs, i + 1)
      case Success(p) =>
        var s := st.(kanji := st.kanji + [p.value], warnings := st.warnings + p.warnings);
        assert EntryChild(evs, i, st, name) == EntryLoop(evs, p.next, s);
        assert ChildrenChecked(s);
        LoopKeepsChecked(evs, p.next, s);
      case Failure(_) =>
    } else if name == "r_ele" {
      match ReadingElement.ParseReading(evs, i + 1)
      case Success(p) =>
        var s := st.(readings := st.readings + [p.value], warnings := st.warnings + p.warnings);
        assert EntryChild(evs, i, st, name) == EntryLoop(evs, p.next, s);
        assert ChildrenChecked(s);
        LoopKeepsChecked(evs, p.next, s);
      case Failure(_) =>
    } else if name == "sense" {
      match SenseElement.ParseSense(evs, i + 1)
      case Success(p) =>
        var s := st.(senses := st.senses + [p.value], warnings := st.warnings + p.warnings);
        assert EntryChild(evs, i, st, name) == EntryLoop(evs, p.next, s);
        assert ChildrenChecked(s);
        LoopKeepsChecked(evs, p.next, s);
      case Failure(_) =>
    } else {
      LoopKeepsChecked(evs, i + 1, st.(warnings := st.warnings + [UnknownTag("entry", name, i + 1)]));
    }
  }

  /** The checks after `</entry>`, both at the position of the closing tag: an entry needs
      a nonzero number and at least one reading. */
  function CloseEntry(st: EntryState, pos: nat): (r: Result<Entry, ParseError>)
    ensures r.Success? <==> st.id != 0 && |st.readings| > 0
    ensures r.Success? ==> r.value == Entry(st.id, st.kanji, st.readings, st.senses)
    ensures r.Failure? ==> r.error == if st.id == 0 then IdNotFound(pos) else NoReadingEntries(pos)
  {
    if st.id == 0 then Failure(IdNotFound(pos))
    else if |st.readings| == 0 then Failure(NoReadingEntries(pos))
    else Success(Entry(st.id, st.kanji, st.readings, st.senses))
  }

  /** A record every entry the assembler returns satisfies. */
  predicate CheckedEntry(e: Entry) {
    && e.id != 0
    && |e.readingEntries| > 0
    && (forall k | k in e.kanjiEntries :: IsKey(k.kanji))
    && (forall r | r in e.readingEntries :: IsKey(r.kana))
    && (forall s | s in e.senses :: SenseElement.AllWellFormedRefs(s.crossRefs))
  }

  /** Assembles an `entry` whose start tag was the event before index `i`. */
  function ParseEntry(evs: seq<Event>, i: nat): (r: Result<Parsed<Entry>, ParseError>)
    ensures r.Success? ==> i < r.value.next <= |evs| && evs[r.value.next - 1] == End("entry")
    ensures r.Success? ==> CheckedEntry(r.value.value)
  {
    LoopKeepsChecked(evs, i, Fresh);
    LoopEndsAtClose(evs, i, Fresh);
    var done :- EntryLoop(evs, i, Fresh);
    var e :- CloseEntry(done.0, done.1);
    Success(Parsed(e, done.1, done.0.warnings))
  }

  // ---------------------------------------------------------------------------
  // Single events
  // ---------------------------------------------------------------------------

  /** A failing child assembler ends the entry with its error. */
  lemma ChildFailureAborts(evs: seq<Event>, i: nat, st: EntryState, attrs: seq<Attribute>)
    requires i < |evs| && (evs[i] == Start("k_ele", attrs) || evs[i] == Start("r_ele", attrs) || evs[i] == Start("sense", attrs))
    requires evs[i].name == "k_ele" ==> KanjiElement.ParseKanji(evs, i + 1).Failure?
    requires evs[i].name == "r_ele" ==> ReadingElement.ParseReading(evs, i + 1).Failure?
    requires evs[i].name == "sense" ==> SenseElement.ParseSense(evs, i + 1).Failure?
    ensures EntryLoop(evs, i, st) == Failure(
      if evs[i].name == "k_ele" then KanjiElement.ParseKanji(evs, i + 1).error
      else if evs[i].name == "r_ele" then ReadingElement.ParseReading(evs, i + 1).error
      else SenseElement.ParseSense(evs, i + 1).error)
  {
  }

  // ---------------------------------------------------------------------------
  // Canonical markup
  // ---------------------------------------------------------------------------

  /** `<ent_seq>n</ent_seq>`, the number in canonical decimal. */
  function EntSeqEvents(id: u32): seq<Event> {
    Leaf("ent_seq", [], DecimalString(id), Some(DecimalString(id)))
  }

  /** One `<k_ele>` per record, in order. */
  function KanjiChildren(ks: seq<KanjiEntry>): seq<Event>
    decreases |ks|
  {
    if |ks| == 0 then []
    else [Start("k_ele", [])] + (KanjiElement.KanjiEvents(ks[0]) + KanjiChildren(ks[1..]))
  }

  /** One `<r_ele>` per record, in order. */
  function ReadingChildren(rs: seq<ReadingEntry>): seq<Event>
    decreases |rs|
  {
    if |rs| == 0 then []
    else [Start("r_ele", [])] + (ReadingElement.ReadingEvents(rs[0]) + ReadingChildren(rs[1..]))
  }

  /** One `<sense>` per record, in order. */
  function SenseChildren(ss: seq<Sense>): seq<Event>
    decreases |ss|
  {
    if |ss| == 0 then []
    else [Start("sense", [])] + (SenseElement.SenseEvents(ss[0]) + SenseChildren(ss[1..]))
  }

  /** The children after `ent_seq`, in schema order, and the closing tag. */
  function ChildrenEvents(e: Entry): seq<Event> {
    KanjiChildren(e.kanjiEntries) + (ReadingChildren(e.readingEntries) + (SenseChildren(e.senses) + [End("entry")]))
  }

  /** An `entry` after its start tag. */
  function EntryEvents(e: Entry): seq<Event> {
    EntSeqEvents(e.id) + ChildrenEvents(e)
  }

  /** Records whose markup their assemblers read back. */
  predicate WellFormedChildren(e: Entry) {
    && (forall k | k in e.kanjiEntries :: KanjiElement.WellFormedKanji(k))
    && (forall r | r in e.readingEntries :: ReadingElement.WellFormedReading(r))
    && (forall s | s in e.senses :: SenseElement.WellFormedSense(s))
  }

  /** An entry the assembler returns unchanged: a nonzero number, at least one reading,
      and children whose markup reads back. */
  predicate WellFormedEntry(e: Entry) {
    e.id != 0 && |e.readingEntries| > 0 && WellFormedChildren(e)
  }

  // ---------------------------------------------------------------------------
  // The loop over canonical markup
  // ---------------------------------------------------------------------------

  /** A `k_ele` its assembler reads is appended, with its warnings. */
  lemma KanjiStepOf(evs: seq<Event>, i: nat, st: EntryState, p: Parsed<KanjiEntry>)
    requires i < |evs| && evs[i] == Start("k_ele", []) && KanjiElement.ParseKanji(evs, i + 1) == Success(p)
    ensures EntryLoop(evs, i, st) == EntryLoop(evs, p.next, st.(kanji := st.kanji + [p.value], warnings := st.warnings + p.warnings))
  {
    hide KanjiElement.ParseKanji, ReadingElement.ParseReading, SenseElement.ParseSense;
    assert EntryLoop(evs, i, st) == EntryChild(evs, i, st, "k_ele");
  }

  /** A `k_ele` start tag, the child's markup, then the rest. */
  lemma SplitKanjiChild(evs: seq<Event>, i: nat, x: KanjiEntry, tail: seq<Event>)
    requires At(evs, i, [Start("k_ele", [])] + (KanjiElement.KanjiEvents(x) + tail))
    ensures i < |evs| && evs[i] == Start("k_ele", [])
    ensures At(evs, i + 1, KanjiElement.KanjiEvents(x)) && At(evs, i + 1 + |KanjiElement.KanjiEvents(x)|, tail)
  {
    hide *;
    var body := KanjiElement.KanjiEvents(x);
    AtHead(evs, i, [Start("k_ele", [])] + (body + tail));
    assert ([Start("k_ele", [])] + (body + tail))[1..] == body + tail;
    AtSplit(evs, i + 1, body, tail);
  }

  /** The markup of a `k_ele` just past index `i` reads back as its record. */
  lemma KanjiReadBack(evs: seq<Event>, i: nat, x: KanjiEntry)
    requires At(evs, i + 1, KanjiElement.KanjiEvents(x)) && KanjiElement.WellFormedKanji(x)
    ensures KanjiElement.ParseKanji(evs, i + 1) == Success(Parsed(x, i + 1 + |KanjiElement.KanjiEvents(x)|, []))
  {
    hide *;
    KanjiElement.ParseKanjiRoundTrip(evs, i + 1, x);
  }

  /** A `k_ele` child in canonical markup is read back by its assembler. */
  lemma KanjiChildParsed(evs: seq<Event>, i: nat, x: KanjiEntry, tail: seq<Event>)
    requires At(evs, i, [Start("k_ele", [])] + (KanjiElement.KanjiEvents(x) + tail)) && KanjiElement.WellFormedKanji(x)
    ensures i < |evs| && evs[i] == Start("k_ele", [])
    ensures KanjiElement.ParseKanji(evs, i + 1) == Success(Parsed(x, i + 1 + |KanjiElement.KanjiEvents(x)|, []))
    ensures At(evs, i + 1 + |KanjiElement.KanjiEvents(x)|, tail)
  {
    hide *;
    SplitKanjiChild(evs, i, x, tail);
    KanjiReadBack(evs, i, x);
  }

  /** From index `i` to `end`, each record of `ks` is a `k_ele` its assembler reads
      without a warning, one after the other. */
  predicate KanjisParsed(evs: seq<Event>, i: nat, ks: seq<KanjiEntry>, end: nat)
    decreases |ks|
  {
    if |ks| == 0 then end == i
    else
      && i < |evs| && evs[i] == Start("k_ele", [])
      && KanjiElement.ParseKanji(evs, i + 1).Success?
      && KanjiElement.ParseKanji(evs, i + 1).value.value == ks[0]
      && KanjiElement.ParseKanji(evs, i + 1).value.warnings == []
      && KanjisParsed(evs, KanjiElement.ParseKanji(evs, i + 1).value.next, ks[1..], end)
  }

  /** From index `i` to `end` lies the canonical markup of `ks`, each record well formed. */
  predicate KanjisAt(evs: seq<Event>, i: nat, ks: seq<KanjiEntry>, end: nat) {
    && At(evs, i, KanjiChildren(ks))
    && (forall x | x in ks :: KanjiElement.WellFormedKanji(x))
    && end == i + |KanjiChildren(ks)|
  }

  /** The first `k_ele` of canonical markup is read back, and the rest follows it. */
  lemma KanjisAtHead(evs: seq<Event>, i: nat, ks: seq<KanjiEntry>, end: nat)
    requires |ks| > 0 && KanjisAt(evs, i, ks, end)
    ensures i < |evs| && evs[i] == Start("k_ele", [])
    ensures KanjiElement.ParseKanji(evs, i + 1) == Success(Parsed(ks[0], i + 1 + |KanjiElement.KanjiEvents(ks[0])|, []))
    ensures KanjisAt(evs, i + 1 + |KanjiElement.KanjiEvents(ks[0])|, ks[1..], end)
  {
    hide KanjiElement.ParseKanji, ReadingElement.ParseReading, SenseElement.ParseSense, KanjiElement.KanjiEvents, ReadingElement.ReadingEvents, SenseElement.SenseEvents, At, KanjiElement.WellFormedKanji, KanjiChildren;
    KanjiChildrenCons(ks);
    KanjiChildParsed(evs, i, ks[0], KanjiChildren(ks[1..]));
  }

  /** The markup of the first record, then that of the rest; the rest are well-formed too. */
  lemma KanjiChildrenCons(ks: seq<KanjiEntry>)
    requires |ks| > 0 && forall x | x in ks :: KanjiElement.WellFormedKanji(x)
    ensures KanjiChildren(ks) == [Start("k_ele", [])] + (KanjiElement.KanjiEvents(ks[0]) + KanjiChildren(ks[1..]))
    ensures KanjiElement.WellFormedKanji(ks[0]) && forall x | x in ks[1..] :: KanjiElement.WellFormedKanji(x)
  {
    hide KanjiElement.ParseKanji, ReadingElement.ParseReading, SenseElement.ParseSense, KanjiElement.KanjiEvents, ReadingElement.ReadingEvents, SenseElement.SenseEvents, At, KanjiElement.WellFormedKanji;
    assert ks[0] in ks;
    assert forall x | x in ks[1..] :: x in ks;
  }

  lemma KanjisParsedCons(evs: seq<Event>, i: nat, ks: seq<KanjiEntry>, j: nat, end: nat)
    requires |ks| > 0 && i < |evs| && evs[i] == Start("k_ele", [])
    requires KanjiElement.ParseKanji(evs, i + 1) == Success(Parsed(ks[0], j, []))
    requires KanjisParsed(evs, j, ks[1..], end)
    ensures KanjisParsed(evs, i, ks, end)
  {
    hide KanjiElement.ParseKanji, ReadingElement.ParseReading, SenseElement.ParseSense, KanjiElement.KanjiEvents, ReadingElement.ReadingEvents, SenseElement.SenseEvents;
  }

  lemma {:induction false} KanjisParsedOf(evs: seq<Event>, i: nat, ks: seq<KanjiEntry>, end: nat)
    requires KanjisAt(evs, i, ks, end)
    ensures KanjisParsed(evs, i, ks, end)
    decreases |ks|
  {
    hide KanjiElement.ParseKanji, ReadingElement.ParseReading, SenseElement.ParseSense, KanjiElement.KanjiEvents, ReadingElement.ReadingEvents, SenseElement.SenseEvents, At;
    if |ks| == 0 {
      assert KanjiChildren(ks) == [];
    } else {
      var j := i + 1 + |KanjiElement.KanjiEvents(ks[0])|;
      KanjisAtHead(evs, i, ks, end);
      KanjisParsedOf(evs, j, ks[1..], end);
      KanjisParsedCons(evs, i, ks, j, end);
    }
  }

  /** The `k_ele` children are read into the written forms, in order. */
  lemma {:induction false} LoopKanjiChildren(evs: seq<Event>, i: nat, st: EntryState, ks: seq<KanjiEntry>, end: nat)
    requires KanjisParsed(evs, i, ks, end)
    ensures EntryLoop(evs, i, st) == EntryLoop(evs, end, st.(kanji := st.kanji + ks))
    decreases |ks|
  {
    hide KanjiElement.ParseKanji, ReadingElement.ParseReading, SenseElement.ParseSense, KanjiElement.KanjiEvents, ReadingElement.ReadingEvents, SenseElement.SenseEvents;
    if |ks| == 0 {
      assert st.(kanji := st.kanji + ks) == st;
    } else {
      var p := KanjiElement.ParseKanji(evs, i + 1).value;
      var s1 := st.(kanji := st.kanji + [p.value], warnings := st.warnings + p.warnings);
      KanjiStepOf(evs, i, st, p);
      assert s1 == st.(kanji := st.kanji + [ks[0]]);
      LoopKanjiChildren(evs, p.next, s1, ks[1..], end);
      AppendCons(st.kanji, ks);
    }
  }

  /** A `r_ele` its assembler reads is appended, with its warnings. */
  lemma ReadingStepOf(evs: seq<Event>, i: nat, st: EntryState, p: Parsed<ReadingEntry>)
    requires i < |evs| && evs[i] == Start("r_ele", []) && ReadingElement.ParseReading(evs, i + 1) == Success(p)
    ensures EntryLoop(evs, i, st) == EntryLoop(evs, p.next, st.(readings := st.readings + [p.value], warnings := st.warnings + p.warnings))
  {
    hide KanjiElement.ParseKanji, ReadingElement.ParseReading, SenseElement.ParseSense;
    assert EntryLoop(evs, i, st) == EntryChild(evs, i, st, "r_ele");
  }

  /** A `r_ele` start tag, the child's markup, then the rest. */
  lemma SplitReadingChild(evs: seq<Event>, i: nat, x: ReadingEntry, tail: seq<Event>)
    requires At(evs, i, [Start("r_ele", [])] + (ReadingElement.ReadingEvents(x) + tail))
    ensures i < |evs| && evs[i] == Start("r_ele", [])
    ensures At(evs, i + 1, ReadingElement.ReadingEvents(x)) && At(evs, i + 1 + |ReadingElement.ReadingEvents(x)|, tail)
  {
    hide *;
    var body := ReadingElement.ReadingEvents(x);
    AtHead(evs, i, [Start("r_ele", [])] + (body + tail));
    assert ([Start("r_ele", [])] + (body + tail))[1..] == body + tail;
    AtSplit(evs, i + 1, body, tail);
  }

  /** The markup of a `r_ele` just past index `i` reads back as its record. */
  lemma ReadingReadBack(evs: seq<Event>, i: nat, x: ReadingEntry)
    requires At(evs, i + 1, ReadingElement.ReadingEvents(x)) && ReadingElement.WellFormedReading(x)
    ensures ReadingElement.ParseReading(evs, i + 1) == Success(Parsed(x, i + 1 + |ReadingElement.ReadingEvents(x)|, []))
  {
    hide *;
    ReadingElement.ParseReadingRoundTrip(evs, i + 1, x);
  }

  /** A `r_ele` child in canonical markup is read back by its assembler. */
  lemma ReadingChildParsed(evs: seq<Event>, i: nat, x: ReadingEntry, tail: seq<Event>)
    requires At(evs, i, [Start("r_ele", [])] + (ReadingElement.ReadingEvents(x) + tail)) && ReadingElement.WellFormedReading(x)
    ensures i < |evs| && evs[i] == Start("r_ele", [])
    ensures ReadingElement.ParseReading(evs, i + 1) == Success(Parsed(x, i + 1 + |ReadingElement.ReadingEvents(x)|, []))
    ensures At(evs, i + 1 + |ReadingElement.ReadingEvents(x)|, tail)
  {
    hide *;
    SplitReadingChild(evs, i, x, tail);
    ReadingReadBack(evs, i, x);
  }

  /** From index `i` to `end`, each record of `rs` is a `r_ele` its assembler reads
      without a warning, one after the other. */
  predicate ReadingsParsed(evs: seq<Event>, i: nat, rs: seq<ReadingEntry>, end: nat)
    decreases |rs|
  {
    if |rs| == 0 then end == i
    else
      && i < |evs| && evs[i] == Start("r_ele", [])
      && ReadingElement.ParseReading(evs, i + 1).Success?
      && ReadingElement.ParseReading(evs, i + 1).value.value == rs[0]
      && ReadingElement.ParseReading(evs, i + 1).value.warnings == []
      && ReadingsParsed(evs, ReadingElement.ParseReading(evs, i + 1).value.next, rs[1..], end)
  }

  /** From index `i` to `end` lies the canonical markup of `rs`, each record well formed. */
  predicate ReadingsAt(evs: seq<Event>, i: nat, rs: seq<ReadingEntry>, end: nat) {
    && At(evs, i, ReadingChildren(rs))
    && (forall x | x in rs :: ReadingElement.WellFormedReading(x))
    && end == i + |ReadingChildren(rs)|
  }

  /** The first `r_ele` of canonical markup is read back, and the rest follows it. */
  lemma ReadingsAtHead(evs: seq<Event>, i: nat, rs: seq<ReadingEntry>, end: nat)
    requires |rs| > 0 && ReadingsAt(evs, i, rs, end)
    ensures i < |evs| && evs[i] == Start("r_ele", [])
    ensures ReadingElement.ParseReading(evs, i + 1) == Success(Parsed(rs[0], i + 1 + |ReadingElement.ReadingEvents(rs[0])|, []))
    ensures ReadingsAt(evs, i + 1 + |ReadingElement.ReadingEvents(rs[0])|, rs[1..], end)
  {
    hide KanjiElement.ParseKanji, ReadingElement.ParseReading, SenseElement.ParseSense, KanjiElement.KanjiEvents, ReadingElement.ReadingEvents, SenseElement.SenseEvents, At, ReadingElement.WellFormedReading, ReadingChildren;
    ReadingChildrenCons(rs);
    ReadingChildParsed(evs, i, rs[0], ReadingChildren(rs[1..]));
  }

  /** The markup of the first record, then that of the rest; the rest are well-formed too. */
  lemma ReadingChildrenCons(rs: seq<ReadingEntry>)
    requires |rs| > 0 && forall x | x in rs :: ReadingElement.WellFormedReading(x)
    ensures ReadingChildren(rs) == [Start("r_ele", [])] + (ReadingElement.ReadingEvents(rs[0]) + ReadingChildren(rs[1..]))
    ensures ReadingElement.WellFormedReading(rs[0]) && forall x | x in rs[1..] :: ReadingElement.WellFormedReading(x)
  {
    hide KanjiElement.ParseKanji, ReadingElement.ParseReading, SenseElement.ParseSense, KanjiElement.KanjiEvents, ReadingElement.ReadingEvents, SenseElement.SenseEvents, At, ReadingElement.WellFormedReading;
    assert rs[0] in rs;
    assert forall x | x in rs[1..] :: x in rs;
  }

  lemma ReadingsParsedCons(evs: seq<Event>, i: nat, rs: seq<ReadingEntry>, j: nat, end: nat)
    requires |rs| > 0 && i < |evs| && evs[i] == Start("r_ele", [])
    requires ReadingElement.ParseReading(evs, i + 1) == Success(Parsed(rs[0], j, []))
    requires ReadingsParsed(evs, j, rs[1..], end)
    ensures ReadingsParsed(evs, i, rs, end)
  {
    hide KanjiElement.ParseKanji, ReadingElement.ParseReading, SenseElement.ParseSense, KanjiElement.KanjiEvents, ReadingElement.ReadingEvents, SenseElement.SenseEvents;
  }

  lemma {:induction false} ReadingsParsedOf(evs: seq<Event>, i: nat, rs: seq<ReadingEntry>, end: nat)
    requires ReadingsAt(evs, i, rs, end)
    ensures ReadingsParsed(evs, i, rs, end)
    decreases |rs|
  {
    hide KanjiElement.ParseKanji, ReadingElement.ParseReading, SenseElement.ParseSense, KanjiElement.KanjiEvents, ReadingElement.ReadingEvents, SenseElement.SenseEvents, At;
    if |rs| == 0 {
      assert ReadingChildren(rs) == [];
    } else {
      var j := i + 1 + |ReadingElement.ReadingEvents(rs[0])|;
      ReadingsAtHead(evs, i, rs, end);
      ReadingsParsedOf(evs, j, rs[1..], end);
      ReadingsParsedCons(evs, i, rs, j, end);
    }
  }

  /** The `r_ele` children are read into the readings, in order. */
  lemma {:induction false} LoopReadingChildren(evs: seq<Event>, i: nat, st: EntryState, rs: seq<ReadingEntry>, end: nat)
    requires ReadingsParsed(evs, i, rs, end)
    ensures EntryLoop(evs, i, st) == EntryLoop(evs, end, st.(readings := st.readings + rs))
    decreases |rs|
  {
    hide KanjiElement.ParseKanji, ReadingElement.ParseReading, SenseElement.ParseSense, KanjiElement.KanjiEvents, ReadingElement.ReadingEvents, SenseElement.SenseEvents;
    if |rs| == 0 {
      assert st.(readings := st.readings + rs) == st;
    } else {
      var p := ReadingElement.ParseReading(evs, i + 1).value;
      var s1 := st.(readings := st.readings + [p.value], warnings := st.warnings + p.warnings);
      ReadingStepOf(evs, i, st, p);
      assert s1 == st.(readings := st.readings + [rs[0]]);
      LoopReadingChildren(evs, p.next, s1, rs[1..], end);
      AppendCons(st.readings, rs);
    }
  }

  /** A `sense` its assembler reads is appended, with its warnings. */
  lemma SenseStepOf(evs: seq<Event>, i: nat, st: EntryState, p: Parsed<Sense>)
    requires i < |evs| && evs[i] == Start("sense", []) && SenseElement.ParseSense(evs, i + 1) == Success(p)
    ensures EntryLoop(evs, i, st) == EntryLoop(evs, p.next, st.(senses := st.senses + [p.value], warnings := st.warnings + p.warnings))
  {
    hide KanjiElement.ParseKanji, ReadingElement.ParseReading, SenseElement.ParseSense;
    assert EntryLoop(evs, i, st) == EntryChild(evs, i, st, "sense");
  }

  /** A `sense` start tag, the child's markup, then the rest. */
  lemma SplitSenseChild(evs: seq<Event>, i: nat, x: Sense, tail: seq<Event>)
    requires At(evs, i, [Start("sense", [])] + (SenseElement.SenseEvents(x) + tail))
    ensures i < |evs| && evs[i] == Start("sense", [])
    ensures At(evs, i + 1, SenseElement.SenseEvents(x)) && At(evs, i + 1 + |SenseElement.SenseEvents(x)|, tail)
  {
    hide *;
    var body := SenseElement.SenseEvents(x);
    AtHead(evs, i, [Start("sense", [])] + (body + tail));
    assert ([Start("sense", [])] + (body + tail))[1..] == body + tail;
    AtSplit(evs, i + 1, body, tail);
  }

  /** The markup of a `sense` just past index `i` reads back as its record. */
  lemma SenseReadBack(evs: seq<Event>, i: nat, x: Sense)
    requires At(evs, i + 1, SenseElement.SenseEvents(x)) && SenseElement.WellFormedSense(x)
    ensures SenseElement.ParseSense(evs, i + 1) == Success(Parsed(x, i + 1 + |SenseElement.SenseEvents(x)|, []))
  {
    hide *;
    SenseElement.ParseSenseRoundTrip(evs, i + 1, x);
  }

  /** A `sense` child in canonical markup is read back by its assembler. */
  lemma SenseChildParsed(evs: seq<Event>, i: nat, x: Sense, tail: seq<Event>)
    requires At(evs, i, [Start("sense", [])] + (SenseElement.SenseEvents(x) + tail)) && SenseElement.WellFormedSense(x)
    ensures i < |evs| && evs[i] == Start("sense", [])
    ensures SenseElement.ParseSense(evs, i + 1) == Success(Parsed(x, i + 1 + |SenseElement.SenseEvents(x)|, []))
    ensures At(evs, i + 1 + |SenseElement.SenseEvents(x)|, tail)
  {
    hide *;
    SplitSenseChild(evs, i, x, tail);
    SenseReadBack(evs, i, x);
  }

  /** From index `i` to `end`, each record of `ss` is a `sense` its assembler reads
      without a warning, one after the other. */
  predicate SensesParsed(evs: seq<Event>, i: nat, ss: seq<Sense>, end: nat)
    decreases |ss|
  {
    if |ss| == 0 then end == i
    else
      && i < |evs| && evs[i] == Start("sense", [])
      && SenseElement.ParseSense(evs, i + 1).Success?
      && SenseElement.ParseSense(evs, i + 1).value.value == ss[0]
      && SenseElement.ParseSense(evs, i + 1).value.warnings == []
      && SensesParsed(evs, SenseElement.ParseSense(evs, i + 1).value.next, ss[1..], end)
  }

  /** From index `i` to `end` lies the canonical markup of `ss`, each record well formed. */
  predicate SensesAt(evs: seq<Event>, i: nat, ss: seq<Sense>, end: nat) {
    && At(evs, i, SenseChildren(ss))
    && (forall x | x in ss :: SenseElement.WellFormedSense(x))
    && end == i + |SenseChildren(ss)|
  }

  /** The first `sense` of canonical markup is read back, and the rest follows it. */
  lemma SensesAtHead(evs: seq<Event>, i: nat, ss: seq<Sense>, end: nat)
    requires |ss| > 0 && SensesAt(evs, i, ss, end)
    ensures i < |evs| && evs[i] == Start("sense", [])
    ensures SenseElement.ParseSense(evs, i + 1) == Success(Parsed(ss[0], i + 1 + |SenseElement.SenseEvents(ss[0])|, []))
    ensures SensesAt(evs, i + 1 + |SenseElement.SenseEvents(ss[0])|, ss[1..], end)
  {
    hide KanjiElement.ParseKanji, ReadingElement.ParseReading, SenseElement.ParseSense, KanjiElement.KanjiEvents, ReadingElement.ReadingEvents, SenseElement.SenseEvents, At, SenseElement.WellFormedSense, SenseChildren;
    SenseChildrenCons(ss);
    SenseChildParsed(evs, i, ss[0], SenseChildren(ss[1..]));
  }

  /** The markup of the first record, then that of the rest; the rest are well-formed too. */
  lemma SenseChildrenCons(ss: seq<Sense>)
    requires |ss| > 0 && forall x | x in ss :: SenseElement.WellFormedSense(x)
    ensures SenseChildren(ss) == [Start("sense", [])] + (SenseElement.SenseEvents(ss[0]) + SenseChildren(ss[1..]))
    ensures SenseElement.WellFormedSense(ss[0]) && forall x | x in ss[1..] :: SenseElement.WellFormedSense(x)
  {
    hide KanjiElement.ParseKanji, ReadingElement.ParseReading, SenseElement.ParseSense, KanjiElement.KanjiEvents, ReadingElement.ReadingEvents, SenseElement.SenseEvents, At, SenseElement.WellFormedSense;
    assert ss[0] in ss;
    assert forall x | x in ss[1..] :: x in ss;
  }

  lemma SensesParsedCons(evs: seq<Event>, i: nat, ss: seq<Sense>, j: nat, end: nat)
    requires |ss| > 0 && i < |evs| && evs[i] == Start("sense", [])
    requires SenseElement.ParseSense(evs, i + 1) == Success(Parsed(ss[0], j, []))
    requires SensesParsed(evs, j, ss[1..], end)
    ensures SensesParsed(evs, i, ss, end)
  {
    hide KanjiElement.ParseKanji, ReadingElement.ParseReading, SenseElement.ParseSense, KanjiElement.KanjiEvents, ReadingElement.ReadingEvents, SenseElement.SenseEvents;
  }

  lemma {:induction false} SensesParsedOf(evs: seq<Event>, i: nat, ss: seq<Sense>, end: nat)
    requires SensesAt(evs, i, ss, end)
    ensures SensesParsed(evs, i, ss, end)
    decreases |ss|
  {
    hide KanjiElement.ParseKanji, ReadingElement.ParseReading, SenseElement.ParseSense, KanjiElement.KanjiEvents, ReadingElement.ReadingEvents, SenseElement.SenseEvents, At;
    if |ss| == 0 {
      assert SenseChildren(ss) == [];
    } else {
      var j := i + 1 + |SenseElement.SenseEvents(ss[0])|;
      SensesAtHead(evs, i, ss, end);
      SensesParsedOf(evs, j, ss[1..], end);
      SensesParsedCons(evs, i, ss, j, end);
    }
  }

  /** The `sense` children are read into the senses, in order. */
  lemma {:induction false} LoopSenseChildren(evs: seq<Event>, i: nat, st: EntryState, ss: seq<Sense>, end: nat)
    requires SensesParsed(evs, i, ss, end)
    ensures EntryLoop(evs, i, st) == EntryLoop(evs, end, st.(senses := st.senses + ss))
    decreases |ss|
  {
    hide KanjiElement.ParseKanji, ReadingElement.ParseReading, SenseElement.ParseSense, KanjiElement.KanjiEvents, ReadingElement.ReadingEvents, SenseElement.SenseEvents;
    if |ss| == 0 {
      assert st.(senses := st.senses + ss) == st;
    } else {
      var p := SenseElement.ParseSense(evs, i + 1).value;
      var s1 := st.(senses := st.senses + [p.value], warnings := st.warnings + p.warnings);
      SenseStepOf(evs, i, st, p);
      assert s1 == st.(senses := st.senses + [ss[0]]);
      LoopSenseChildren(evs, p.next, s1, ss[1..], end);
      AppendCons(st.senses, ss);
    }
  }

  // ---------------------------------------------------------------------------
  // A whole entry
  // ---------------------------------------------------------------------------

  /** `<ent_seq>n</ent_seq>` outside an open `ent_seq` sets the number and closes it again. */
  lemma LoopEntSeq(evs: seq<Event>, i: nat, st: EntryState, id: u32)
    requires At(evs, i, EntSeqEvents(id)) && !st.inEntSeq
    ensures EntryLoop(evs, i, st) == EntryLoop(evs, i + 3, st.(id := id))
  {
    hide KanjiElement.ParseKanji, ReadingElement.ParseReading, SenseElement.ParseSense;
    var t := DecimalString(id);
    AtHead(evs, i, EntSeqEvents(id));
    AtHead(evs, i + 1, [Text(t, Some(t)), End("ent_seq")]);
    AtHead(evs, i + 2, [End("ent_seq")]);
    ParseU32OfDecimal(id);
    var s1 := st.(inEntSeq := true);
    var s2 := s1.(id := id);
    assert EntSeqText(s1, Some(t)) == Success(s2);
    assert EntryLoop(evs, i + 2, s2) == EntryLoop(evs, i + 3, s2.(inEntSeq := false));
    assert s2.(inEntSeq := false) == st.(id := id);
  }

  /** The three child lists of canonical markup lie one after the other, then `</entry>`. */
  lemma ChildrenAt(evs: seq<Event>, i: nat, e: Entry)
    requires At(evs, i, ChildrenEvents(e)) && WellFormedChildren(e)
    ensures var e1 := i + |KanjiChildren(e.kanjiEntries)|;
      var e2 := e1 + |ReadingChildren(e.readingEntries)|;
      var e3 := e2 + |SenseChildren(e.senses)|;
      && KanjisAt(evs, i, e.kanjiEntries, e1)
      && ReadingsAt(evs, e1, e.readingEntries, e2)
      && SensesAt(evs, e2, e.senses, e3)
      && e3 < |evs| && evs[e3] == End("entry")
      && e3 + 1 == i + |ChildrenEvents(e)|
  {
    hide KanjiElement.ParseKanji, ReadingElement.ParseReading, SenseElement.ParseSense, KanjiElement.KanjiEvents, ReadingElement.ReadingEvents, SenseElement.SenseEvents, KanjiChildren, ReadingChildren, SenseChildren, At;
    var kc := KanjiChildren(e.kanjiEntries);
    var rc := ReadingChildren(e.readingEntries);
    var sc := SenseChildren(e.senses);
    AtSplit(evs, i, kc, rc + (sc + [End("entry")]));
    AtSplit(evs, i + |kc|, rc, sc + [End("entry")]);
    AtSplit(evs, i + |kc| + |rc|, sc, [End("entry")]);
    AtHead(evs, i + |kc| + |rc| + |sc|, [End("entry")]);
  }

  /** Each child list of canonical markup is read back by its assembler. */
  lemma ChildrenParsed(evs: seq<Event>, i: nat, e: Entry)
    requires At(evs, i, ChildrenEvents(e)) && WellFormedChildren(e)
    ensures var e1 := i + |KanjiChildren(e.kanjiEntries)|;
      var e2 := e1 + |ReadingChildren(e.readingEntries)|;
      var e3 := e2 + |SenseChildren(e.senses)|;
      && KanjisParsed(evs, i, e.kanjiEntries, e1)
      && ReadingsParsed(evs, e1, e.readingEntries, e2)
      && SensesParsed(evs, e2, e.senses, e3)
      && e3 < |evs| && evs[e3] == End("entry")
      && e3 + 1 == i + |ChildrenEvents(e)|
  {
    hide *;
    var e1 := i + |KanjiChildren(e.kanjiEntries)|;
    var e2 := e1 + |ReadingChildren(e.readingEntries)|;
    var e3 := e2 + |SenseChildren(e.senses)|;
    ChildrenAt(evs, i, e);
    KanjisParsedOf(evs, i, e.kanjiEntries, e1);
    ReadingsParsedOf(evs, e1, e.readingEntries, e2);
    SensesParsedOf(evs, e2, e.senses, e3);
  }

  /** Senses read back, then `</entry>`. */
  lemma LoopSensesThenClose(evs: seq<Event>, i: nat, st: EntryState, ss: seq<Sense>, end: nat)
    requires SensesParsed(evs, i, ss, end) && end < |evs| && evs[end] == End("entry")
    ensures EntryLoop(evs, i, st) == Success((st.(senses := st.senses + ss), end + 1))
  {
    hide KanjiElement.ParseKanji, ReadingElement.ParseReading, SenseElement.ParseSense, KanjiElement.KanjiEvents, ReadingElement.ReadingEvents, SenseElement.SenseEvents;
    var fin := st.(senses := st.senses + ss);
    LoopSenseChildren(evs, i, st, ss, end);
    assert EntryLoop(evs, end, fin) == Success((fin, end + 1));
  }

  /** Readings and senses read back, then `</entry>`. */
  lemma LoopReadingsThenRest(evs: seq<Event>, i: nat, st: EntryState, rs: seq<ReadingEntry>, ss: seq<Sense>, mid: nat, end: nat)
    requires ReadingsParsed(evs, i, rs, mid) && SensesParsed(evs, mid, ss, end) && end < |evs| && evs[end] == End("entry")
    ensures EntryLoop(evs, i, st) == Success((st.(readings := st.readings + rs, senses := st.senses + ss), end + 1))
  {
    hide *;
    var s1 := st.(readings := st.readings + rs);
    LoopReadingChildren(evs, i, st, rs, mid);
    LoopSensesThenClose(evs, mid, s1, ss, end);
    assert s1.(senses := s1.senses + ss) == st.(readings := st.readings + rs, senses := st.senses + ss);
  }

  /** The children of canonical markup are appended to the state in document order, and the
      loop ends just past `</entry>`. */
  lemma LoopChildren(evs: seq<Event>, i: nat, st: EntryState, e: Entry)
    requires At(evs, i, ChildrenEvents(e)) && WellFormedChildren(e)
    ensures EntryLoop(evs, i, st) == Success((
      st.(kanji := st.kanji + e.kanjiEntries, readings := st.readings + e.readingEntries, senses := st.senses + e.senses),
      i + |ChildrenEvents(e)|))
  {
    hide *;
    var e1 := i + |KanjiChildren(e.kanjiEntries)|;
    var e2 := e1 + |ReadingChildren(e.readingEntries)|;
    var e3 := e2 + |SenseChildren(e.senses)|;
    var s1 := st.(kanji := st.kanji + e.kanjiEntries);
    ChildrenParsed(evs, i, e);
    LoopKanjiChildren(evs, i, st, e.kanjiEntries, e1);
    LoopReadingsThenRest(evs, e1, s1, e.readingEntries, e.senses, e2, e3);
    assert s1.(readings := s1.readings + e.readingEntries, senses := s1.senses + e.senses)
      == st.(kanji := st.kanji + e.kanjiEntries, readings := st.readings + e.readingEntries, senses := st.senses + e.senses);
  }

  /** The assembler reads canonical markup back: the number and the children as written,
      unless the number is zero (`IdNotFound`) or there is no reading (`NoReadingEntries`,
      whatever the number of written forms and senses), both at the position of `</entry>`. */
  lemma ParseEntryEvents(evs: seq<Event>, i: nat, e: Entry)
    requires At(evs, i, EntryEvents(e)) && WellFormedChildren(e)
    ensures var end := i + |EntryEvents(e)|;
      ParseEntry(evs, i) ==
        if e.id == 0 then Failure(IdNotFound(end))
        else if |e.readingEntries| == 0 then Failure(NoReadingEntries(end))
        else Success(Parsed(e, end, []))
  {
    hide KanjiElement.ParseKanji, ReadingElement.ParseReading, SenseElement.ParseSense, KanjiElement.KanjiEvents, ReadingElement.ReadingEvents, SenseElement.SenseEvents, KanjiChildren, ReadingChildren, SenseChildren, At;
    AtSplit(evs, i, EntSeqEvents(e.id), ChildrenEvents(e));
    LoopEntSeq(evs, i, Fresh, e.id);
    LoopChildren(evs, i + 3, Fresh.(id := e.id), e);
    var fin := Fresh.(id := e.id);
    assert fin.(kanji := fin.kanji + e.kanjiEntries, readings := fin.readings + e.readingEntries, senses := fin.senses + e.senses)
      == EntryState(e.id, false, e.kanjiEntries, e.readingEntries, e.senses, []);
  }

  /** The round trip: a well-formed entry survives being written out and read back. */
  lemma ParseEntryRoundTrip(evs: seq<Event>, i: nat, e: Entry)
    requires At(evs, i, EntryEvents(e)) && WellFormedEntry(e)
    ensures ParseEntry(evs, i) == Success(Parsed(e, i + |EntryEvents(e)|, []))
  {
    ParseEntryEvents(evs, i, e);
  }

  /** A well-formed entry with a number of its own: the markup read back, under that number. */
  lemma ParseEntryChildren(evs: seq<Event>, i: nat, st: EntryState, e: Entry)
    requires At(evs, i, ChildrenEvents(e)) && WellFormedChildren(e)
    requires st.kanji == [] && st.readings == [] && st.senses == []
    ensures EntryLoop(evs, i, st) == Success((
      EntryState(st.id, st.inEntSeq, e.kanjiEntries, e.readingEntries, e.senses, st.warnings), i + |ChildrenEvents(e)|))
  {
    hide *;
    LoopChildren(evs, i, st, e);
    assert st.(kanji := st.kanji + e.kanjiEntries, readings := st.readings + e.readingEntries, senses := st.senses + e.senses)
      == EntryState(st.id, st.inEntSeq, e.kanjiEntries, e.readingEntries, e.senses, st.warnings);
  }

  /** Without `ent_seq` the number stays zero: the entry fails with `IdNotFound` at its
      closing tag. */
  lemma MissingEntSeq(evs: seq<Event>, i: nat, e: Entry)
    requires At(evs, i, ChildrenEvents(e)) && WellFormedChildren(e)
    ensures ParseEntry(evs, i) == Failure(IdNotFound(i + |ChildrenEvents(e)|))
  {
    hide KanjiElement.ParseKanji, ReadingElement.ParseReading, SenseElement.ParseSense, KanjiElement.KanjiEvents, ReadingElement.ReadingEvents, SenseElement.SenseEvents, KanjiChildren, ReadingChildren, SenseChildren, At;
    ParseEntryChildren(evs, i, Fresh, e);
  }

  // ---------------------------------------------------------------------------
  // Every input
  // ---------------------------------------------------------------------------

  /** The rules for `ent_seq`, whatever the state and the rest of the events: an `ent_seq`
      opened inside an open one is an error at the position of the second; a closing tag
      without an open one is an error at its position; a text inside an open one replaces
      the number, or fails when it is not a `u32` or cannot be decoded; a text outside one
      is ignored without a warning. */
  lemma EntSeqRules(evs: seq<Event>, i: nat, st: EntryState)
    requires i < |evs|
    ensures evs[i].Start? && evs[i].name == "ent_seq" ==>
      EntryLoop(evs, i, st) == if st.inEntSeq then Failure(NestedEntSeq(i + 1)) else EntryLoop(evs, i + 1, st.(inEntSeq := true))
    ensures evs[i] == End("ent_seq") ==>
      EntryLoop(evs, i, st) == if st.inEntSeq then EntryLoop(evs, i + 1, st.(inEntSeq := false)) else Failure(MismatchedEntSeq(i + 1))
    ensures evs[i].Text? && st.inEntSeq && evs[i].decoded.Some? && ParseU32(evs[i].decoded.value).Some? ==>
      EntryLoop(evs, i, st) == EntryLoop(evs, i + 1, st.(id := ParseU32(evs[i].decoded.value).value))
    ensures evs[i].Text? && st.inEntSeq && evs[i].decoded.Some? && ParseU32(evs[i].decoded.value).None? ==>
      EntryLoop(evs, i, st) == Failure(BadEntSeq(evs[i].decoded.value))
    ensures evs[i].Text? && st.inEntSeq && evs[i].decoded.None? ==> EntryLoop(evs, i, st) == Failure(Undecodable)
    ensures evs[i].Text? && !st.inEntSeq ==> EntryLoop(evs, i, st) == EntryLoop(evs, i + 1, st)
  {
    hide KanjiElement.ParseKanji, ReadingElement.ParseReading, SenseElement.ParseSense;
  }

  /** An unknown child start tag draws exactly one warning, at its position, and the loop
      reads on inside it; other closing tags and the rest of the events are passed over. */
  lemma OtherEventRules(evs: seq<Event>, i: nat, st: EntryState)
    requires i < |evs|
    ensures evs[i].Start? && !IsEntryChild(evs[i].name) ==>
      EntryLoop(evs, i, st) == EntryLoop(evs, i + 1, st.(warnings := st.warnings + [UnknownTag("entry", evs[i].name, i + 1)]))
    ensures evs[i].End? && evs[i].name != "entry" && evs[i].name != "ent_seq" ==> EntryLoop(evs, i, st) == EntryLoop(evs, i + 1, st)
    ensures evs[i] == End("entry") ==> EntryLoop(evs, i, st) == Success((st, i + 1))
    ensures evs[i] == Other ==> EntryLoop(evs, i, st) == EntryLoop(evs, i + 1, st)
    ensures evs[i] == Eof ==> EntryLoop(evs, i, st) == Failure(Truncated("entry"))
    ensures evs[i].ReaderError? ==> EntryLoop(evs, i, st) == Failure(XmlError(i + 1, evs[i].message))
  {
    hide KanjiElement.ParseKanji, ReadingElement.ParseReading, SenseElement.ParseSense;
    if evs[i].Start? && !IsEntryChild(evs[i].name) {
      assert EntryLoop(evs, i, st) == EntryChild(evs, i, st, evs[i].name);
    }
  }

  /** No start tag named `tag` among the events from index `i` up to, not including, `k`. */
  predicate NoStartTag(evs: seq<Event>, i: nat, k: nat, tag: string) {
    forall j | i <= j < k && j < |evs| :: !(evs[j].Start? && evs[j].name == tag)
  }

  /** Without an `r_ele` start tag before index `k`, a loop that stops by `k` adds no
      reading. */
  lemma {:induction false} LoopKeepsReadings(evs: seq<Event>, i: nat, k: nat, st: EntryState)
    requires NoStartTag(evs, i, k, "r_ele")
    ensures EntryLoop(evs, i, st).Success? && EntryLoop(evs, i, st).value.1 <= k ==> EntryLoop(evs, i, st).value.0.readings == st.readings
    decreases |evs| - i, 1
  {
    hide KanjiElement.ParseKanji, ReadingElement.ParseReading, SenseElement.ParseSense;
    if i < |evs| {
      var pos := i + 1;
      match evs[i]
      case Start(name, _) =>
        if name == "ent_seq" {
          LoopKeepsReadings(evs, pos, k, st.(inEntSeq := true));
        } else {
          ChildKeepsReadings(evs, i, k, st, name);
        }
      case End(name) =>
        if name != "entry" {
          LoopKeepsReadings(evs, pos, k, st.(inEntSeq := if name == "ent_seq" then false else st.inEntSeq));
        }
      case Text(_, decoded) =>
        if !st.inEntSeq {
          LoopKeepsReadings(evs, pos, k, st);
        } else if EntSeqText(st, decoded).Success? {
          LoopKeepsReadings(evs, pos, k, EntSeqText(st, decoded).value);
        }
      case Other => LoopKeepsReadings(evs, pos, k, st);
      case _ =>
    }
  }

  lemma {:induction false} ChildKeepsReadings(evs: seq<Event>, i: nat, k: nat, st: EntryState, name: string)
    requires i < |evs| && evs[i].Start? && evs[i].name == name && NoStartTag(evs, i, k, "r_ele")
    ensures EntryChild(evs, i, st, name).Success? && EntryChild(evs, i, st, name).value.1 <= k ==>
      EntryChild(evs, i, st, name).value.0.readings == st.readings
    decreases |evs| - i, 0
  {
    hide KanjiElement.ParseKanji, ReadingElement.ParseReading, SenseElement.ParseSense;
    if name == "k_ele" {
      match KanjiElement.ParseKanji(evs, i + 1)
      case Success(p) =>
        var s := st.(kanji := st.kanji + [p.value], warnings := st.warnings + p.warnings);
        assert EntryChild(evs, i, st, name) == EntryLoop(evs, p.next, s);
        LoopKeepsReadings(evs, p.next, k, s);
      case Failure(_) =>
    } else if name == "sense" {
      match SenseElement.ParseSense(evs, i + 1)
      case Success(p) =>
        var s := st.(senses := st.senses + [p.value], warnings := st.warnings + p.warnings);
        assert EntryChild(evs, i, st, name) == EntryLoop(evs, p.next, s);
        LoopKeepsReadings(evs, p.next, k, s);
      case Failure(_) =>
    } else if name != "r_ele" {
      LoopKeepsReadings(evs, i + 1, k, st.(warnings := st.warnings + [UnknownTag("entry", name, i + 1)]));
    }
  }

  /** An entry with no `r_ele` start tag before its closing tag fails, whatever its written
      forms and senses and whatever follows it: with `NoReadingEntries` at its closing tag
      once it has a number. */
  lemma EntryWithoutReadingFails(evs: seq<Event>, i: nat)
    requires EntryLoop(evs, i, Fresh).Success? ==> NoStartTag(evs, i, EntryLoop(evs, i, Fresh).value.1, "r_ele")
    ensures ParseEntry(evs, i).Failure?
    ensures EntryLoop(evs, i, Fresh).Success? && EntryLoop(evs, i, Fresh).value.0.id != 0 ==>
      ParseEntry(evs, i) == Failure(NoReadingEntries(EntryLoop(evs, i, Fresh).value.1))
  {
    hide KanjiElement.ParseKanji, ReadingElement.ParseReading, SenseElement.ParseSense;
    if EntryLoop(evs, i, Fresh).Success? {
      LoopKeepsReadings(evs, i, EntryLoop(evs, i, Fresh).value.1, Fresh);
    }
  }

  /** Without an `ent_seq` start tag before index `k`, a loop that stops by `k` never sets
      the number. */
  lemma {:induction false} LoopKeepsNumber(evs: seq<Event>, i: nat, k: nat, st: EntryState)
    requires NoStartTag(evs, i, k, "ent_seq") && !st.inEntSeq
    ensures EntryLoop(evs, i, st).Success? && EntryLoop(evs, i, st).value.1 <= k ==> EntryLoop(evs, i, st).value.0.id == st.id
    decreases |evs| - i, 1
  {
    hide KanjiElement.ParseKanji, ReadingElement.ParseReading, SenseElement.ParseSense;
    if i < |evs| {
      var pos := i + 1;
      match evs[i]
      case Start(name, _) =>
        ChildKeepsNumber(evs, i, k, st, name);
      case End(name) =>
        if name != "entry" && name != "ent_seq" {
          LoopKeepsNumber(evs, pos, k, st);
        }
      case Text(_, _) => LoopKeepsNumber(evs, pos, k, st);
      case Other => LoopKeepsNumber(evs, pos, k, st);
      case _ =>
    }
  }

  lemma {:induction false} ChildKeepsNumber(evs: seq<Event>, i: nat, k: nat, st: EntryState, name: string)
    requires i < |evs| && evs[i].Start? && evs[i].name == name && NoStartTag(evs, i, k, "ent_seq") && !st.inEntSeq
    ensures name != "ent_seq" && EntryChild(evs, i, st, name).Success? && EntryChild(evs, i, st, name).value.1 <= k ==>
      EntryChild(evs, i, st, name).value.0.id == st.id
    decreases |evs| - i, 0
  {
    hide KanjiElement.ParseKanji, ReadingElement.ParseReading, SenseElement.ParseSense;
    if name == "k_ele" {
      match KanjiElement.ParseKanji(evs, i + 1)
      case Success(p) =>
        var s := st.(kanji := st.kanji + [p.value], warnings := st.warnings + p.warnings);
        assert EntryChild(evs, i, st, name) == EntryLoop(evs, p.next, s);
        LoopKeepsNumber(evs, p.next, k, s);
      case Failure(_) =>
    } else if name == "r_ele" {
      match ReadingElement.ParseReading(evs, i + 1)
      case Success(p) =>
        var s := st.(readings := st.readings + [p.value], warnings := st.warnings + p.warnings);
        assert EntryChild(evs, i, st, name) == EntryLoop(evs, p.next, s);
        LoopKeepsNumber(evs, p.next, k, s);
      case Failure(_) =>
    } else if name == "sense" {
      match SenseElement.ParseSense(evs, i + 1)
      case Success(p) =>
        var s := st.(senses := st.senses + [p.value], warnings := st.warnings + p.warnings);
        assert EntryChild(evs, i, st, name) == EntryLoop(evs, p.next, s);
        LoopKeepsNumber(evs, p.next, k, s);
      case Failure(_) =>
    } else if name != "ent_seq" {
      LoopKeepsNumber(evs, i + 1, k, st.(warnings := st.warnings + [UnknownTag("entry", name, i + 1)]));
    }
  }

  /** An entry with no `ent_seq` start tag before its closing tag fails, whatever follows
      it: with `IdNotFound` at its closing tag once the loop reaches it. */
  lemma EntryWithoutNumberFails(evs: seq<Event>, i: nat)
    requires EntryLoop(evs, i, Fresh).Success? ==> NoStartTag(evs, i, EntryLoop(evs, i, Fresh).value.1, "ent_seq")
    ensures ParseEntry(evs, i).Failure?
    ensures EntryLoop(evs, i, Fresh).Success? ==> ParseEntry(evs, i) == Failure(IdNotFound(EntryLoop(evs, i, Fresh).value.1))
  {
    hide KanjiElement.ParseKanji, ReadingElement.ParseReading, SenseElement.ParseSense;
    if EntryLoop(evs, i, Fresh).Success? {
      LoopKeepsNumber(evs, i, EntryLoop(evs, i, Fresh).value.1, Fresh);
    }
  }

  /** An entry holding only its number fails with `NoReadingEntries` at its closing tag,
      whatever follows it: a later entry's readings are not its own. */
  lemma NumberOnlyEntryFails(evs: seq<Event>, i: nat, id: u32)
    requires id != 0 && At(evs, i, EntSeqEvents(id) + [End("entry")])
    ensures ParseEntry(evs, i) == Failure(NoReadingEntries(i + 4))
  {
    hide KanjiElement.ParseKanji, ReadingElement.ParseReading, SenseElement.ParseSense;
    AtSplit(evs, i, EntSeqEvents(id), [End("entry")]);
    AtHead(evs, i + 3, [End("entry")]);
    LoopEntSeq(evs, i, Fresh, id);
    OtherEventRules(evs, i + 3, Fresh.(id := id));
  }

  /** The loop only appends: what was read before stays, in order, ahead of what follows. */
  lemma {:induction false} LoopExtends(evs: seq<Event>, i: nat, st: EntryState)
    ensures EntryLoop(evs, i, st).Success? ==>
      var fin := EntryLoop(evs, i, st).value.0;
      && st.kanji <= fin.kanji && st.readings <= fin.readings && st.senses <= fin.senses
      && st.warnings <= fin.warnings
    decreases |evs| - i, 1
  {
    hide KanjiElement.ParseKanji, ReadingElement.ParseReading, SenseElement.ParseSense;
    if i < |evs| {
      var pos := i + 1;
      match evs[i]
      case Start(name, _) =>
        if name == "ent_seq" {
          LoopExtends(evs, pos, st.(inEntSeq := true));
        } else {
          ChildExtends(evs, i, st, name);
        }
      case End(name) =>
        if name != "entry" {
          LoopExtends(evs, pos, st.(inEntSeq := if name == "ent_seq" then false else st.inEntSeq));
        }
      case Text(_, decoded) =>
        if !st.inEntSeq {
          LoopExtends(evs, pos, st);
        } else if EntSeqText(st, decoded).Success? {
          LoopExtends(evs, pos, EntSeqText(st, decoded).value);
        }
      case Other => LoopExtends(evs, pos, st);
      case _ =>
    }
  }

  lemma {:induction false} ChildExtends(evs: seq<Event>, i: nat, st: EntryState, name: string)
    requires i < |evs|
    ensures EntryChild(evs, i, st, name).Success? ==>
      var fin := EntryChild(evs, i, st, name).value.0;
      && st.kanji <= fin.kanji && st.readings <= fin.readings && st.senses <= fin.senses
      && st.warnings <= fin.warnings
    decreases |evs| - i, 0
  {
    hide KanjiElement.ParseKanji, ReadingElement.ParseReading, SenseElement.ParseSense;
    if name == "k_ele" {
      match KanjiElement.ParseKanji(evs, i + 1)
      case Success(p) =>
        var s := st.(kanji := st.kanji + [p.value], warnings := st.warnings + p.warnings);
        assert EntryChild(evs, i, st, name) == EntryLoop(evs, p.next, s);
        LoopExtends(evs, p.next, s);
      case Failure(_) =>
    } else if name == "r_ele" {
      match ReadingElement.ParseReading(evs, i + 1)
      case Success(p) =>
        var s := st.(readings := st.readings + [p.value], warnings := st.warnings + p.warnings);
        assert EntryChild(evs, i, st, name) == EntryLoop(evs, p.next, s);
        LoopExtends(evs, p.next, s);
      case Failure(_) =>
    } else if name == "sense" {
      match SenseElement.ParseSense(evs, i + 1)
      case Success(p) =>
        var s := st.(senses := st.senses + [p.value], warnings := st.warnings + p.warnings);
        assert EntryChild(evs, i, st, name) == EntryLoop(evs, p.next, s);
        LoopExtends(evs, p.next, s);
      case Failure(_) =>
    } else {
      LoopExtends(evs, i + 1, st.(warnings := st.warnings + [UnknownTag("entry", name, i + 1)]));
    }
  }

  // ---------------------------------------------------------------------------
  // Examples
  // ---------------------------------------------------------------------------

  /** `<ent_seq><ent_seq>`: the second is nested, an error at its position. */
  lemma NestedEntSeqExample(evs: seq<Event>, i: nat)
    requires At(evs, i, [Start("ent_seq", []), Start("ent_seq", [])])
    ensures ParseEntry(evs, i) == Failure(NestedEntSeq(i + 2))
  {
    hide KanjiElement.ParseKanji, ReadingElement.ParseReading, SenseElement.ParseSense;
    AtHead(evs, i, [Start("ent_seq", []), Start("ent_seq", [])]);
    AtHead(evs, i + 1, [Start("ent_seq", [])]);
    EntSeqRules(evs, i, Fresh);
    EntSeqRules(evs, i + 1, Fresh.(inEntSeq := true));
    assert EntryLoop(evs, i, Fresh) == Failure(NestedEntSeq(i + 2));
  }

  /** `<ent_seq>n</ent_seq></ent_seq>`: the second closing tag is mismatched. */
  lemma MismatchedEntSeqExample(evs: seq<Event>, i: nat, id: u32)
    requires At(evs, i, EntSeqEvents(id) + [End("ent_seq")])
    ensures ParseEntry(evs, i) == Failure(MismatchedEntSeq(i + 4))
  {
    hide KanjiElement.ParseKanji, ReadingElement.ParseReading, SenseElement.ParseSense;
    AtSplit(evs, i, EntSeqEvents(id), [End("ent_seq")]);
    AtHead(evs, i + 3, [End("ent_seq")]);
    LoopEntSeq(evs, i, Fresh, id);
  }

  /** A number of more than 32 bits is an error carrying the text. */
  lemma EntSeqOutOfRange(evs: seq<Event>, i: nat, n: nat)
    requires n >= 0x1_0000_0000
    requires At(evs, i, [Start("ent_seq", []), Text(DecimalString(n), Some(DecimalString(n)))])
    ensures ParseEntry(evs, i) == Failure(BadEntSeq(DecimalString(n)))
  {
    hide KanjiElement.ParseKanji, ReadingElement.ParseReading, SenseElement.ParseSense;
    var t := DecimalString(n);
    AtHead(evs, i, [Start("ent_seq", []), Text(t, Some(t))]);
    AtHead(evs, i + 1, [Text(t, Some(t))]);
    ParseU32TooLarge(n);
    EntSeqRules(evs, i, Fresh);
    EntSeqRules(evs, i + 1, Fresh.(inEntSeq := true));
    assert EntryLoop(evs, i, Fresh) == Failure(BadEntSeq(t));
  }

  /** `<ent_seq>a<!-- -->b</ent_seq>`: the last text wins. */
  lemma LastTextWins(evs: seq<Event>, i: nat, st: EntryState, a: string, b: string)
    requires !st.inEntSeq && ParseU32(a).Some? && ParseU32(b).Some?
    requires At(evs, i, [Start("ent_seq", []), Text(a, Some(a)), Other, Text(b, Some(b)), End("ent_seq")])
    ensures EntryLoop(evs, i, st) == EntryLoop(evs, i + 5, st.(id := ParseU32(b).value))
  {
    hide KanjiElement.ParseKanji, ReadingElement.ParseReading, SenseElement.ParseSense;
    var c := [Start("ent_seq", []), Text(a, Some(a)), Other, Text(b, Some(b)), End("ent_seq")];
    AtHead(evs, i, c);
    AtHead(evs, i + 1, c[1..]);
    AtHead(evs, i + 2, c[2..]);
    AtHead(evs, i + 3, c[3..]);
    AtHead(evs, i + 4, c[4..]);
    var s1 := st.(inEntSeq := true);
    var s2 := s1.(id := ParseU32(a).value);
    var s3 := s1.(id := ParseU32(b).value);
    assert EntryLoop(evs, i, st) == EntryLoop(evs, i + 1, s1);
    assert EntryLoop(evs, i + 1, s1) == EntryLoop(evs, i + 2, s2);
    assert EntryLoop(evs, i + 2, s2) == EntryLoop(evs, i + 3, s2);
    assert EntryLoop(evs, i + 3, s2) == EntryLoop(evs, i + 4, s3);
    assert s3.(inEntSeq := false) == st.(id := ParseU32(b).value);
  }

  /** An unknown child before a well-formed entry: one warning, at its position, and the
      entry read back. */
  lemma UnknownChildWarnsOnce(evs: seq<Event>, i: nat, e: Entry, tag: string, attrs: seq<Attribute>)
    requires !IsEntryChild(tag) && tag != "entry" && WellFormedEntry(e)
    requires At(evs, i, [Start(tag, attrs), End(tag)] + EntryEvents(e))
    ensures ParseEntry(evs, i) == Success(Parsed(e, i + 2 + |EntryEvents(e)|, [UnknownTag("entry", tag, i + 1)]))
  {
    hide KanjiElement.ParseKanji, ReadingElement.ParseReading, SenseElement.ParseSense, KanjiElement.KanjiEvents, ReadingElement.ReadingEvents, SenseElement.SenseEvents, KanjiChildren, ReadingChildren, SenseChildren, At;
    var w := [UnknownTag("entry", tag, i + 1)];
    var warned := Fresh.(warnings := w);
    AtSplit(evs, i, [Start(tag, attrs), End(tag)], EntryEvents(e));
    AtHead(evs, i, [Start(tag, attrs), End(tag)]);
    AtHead(evs, i + 1, [End(tag)]);
    AtSplit(evs, i + 2, EntSeqEvents(e.id), ChildrenEvents(e));
    OtherEventRules(evs, i, Fresh);
    OtherEventRules(evs, i + 1, warned);
    LoopEntSeq(evs, i + 2, warned, e.id);
    ParseEntryChildren(evs, i + 5, warned.(id := e.id), e);
    var fin := EntryState(e.id, false, e.kanjiEntries, e.readingEntries, e.senses, w);
    var end := i + 2 + |EntryEvents(e)|;
    assert evs[i] == Start(tag, attrs) && evs[i + 1] == End(tag);
    assert Fresh.(warnings := Fresh.warnings + w) == warned;
    assert EntryLoop(evs, i, Fresh) == EntryLoop(evs, i + 1, warned);
    assert EntryLoop(evs, i + 1, warned) == EntryLoop(evs, i + 2, warned);
    assert EntryLoop(evs, i + 2, warned) == Success((fin, end));
    assert CloseEntry(fin, end) == Success(e);
  }
}

=== FILE: events.dfy ===
/** The reader's event stream, the outcomes the parser reports, and the driver loop every
    leaf-level element assembler shares.

    A document is a finite `seq<Event>`; a parser holds an index into it.  The position of
    an event is its index plus one: the number of events the reader has consumed when the
    event is handled.  It stands for the reader's byte offset in every diagnostic. */
module Events {
  import opened Wrappers

  /** One attribute of a start tag; `value` is `None` when its bytes are not UTF-8.  An
      attribute the reader could not parse at all is `MalformedAttribute`. */
  datatype Attribute = Attribute(key: string, value: Option<string>) | MalformedAttribute

  /** A reader event.  `raw` is the escaped text as it stands in the document; `decoded`
      is the reader's unescaped and decoded text, `None` when that step fails.  `Other`
      covers comments, CDATA, declarations, processing instructions and doctypes, which no
      loop of the parser looks at. */
  datatype Event =
    | Start(name: string, attributes: seq<Attribute>)
    | End(name: string)
    | Text(raw: string, decoded: Option<string>)
    | Other
    | Eof
    | ReaderError(message: string)

  /** A non-fatal diagnostic; `parent` names the element being assembled. */
  datatype Warning =
    | UnknownTag(parent: string, tag: string, pos: nat)
    | UnexpectedText(parent: string, text: Option<string>, pos: nat)

  /** Why the program would panic rather than return an error. */
  datatype PanicReason =
    | UntrimmedKanjiKey
    | UntrimmedKanaKey
    | UndecodableText
    | SenseIndexOverflow(digits: string)
    | SenseIndexNotAscii(digits: string)

  datatype ParseError =
    | XmlError(pos: nat, message: string)
    | Undecodable
    | MalformedEntity(pos: nat)
    | MalformedCrossRef(pos: nat, input: string)
    | NestedEntSeq(pos: nat)
    | MismatchedEntSeq(pos: nat)
    | BadEntSeq(text: string)
    | IdNotFound(pos: nat)
    | NoReadingEntries(pos: nat)
    | EmptyKanjiKey(pos: nat)
    | EmptyKanaKey(pos: nat)
    | InconsistentGlossLanguage
    | AttributeNotUtf8
    | Panic(reason: PanicReason)
      /** The events ran out inside `element`; the program would loop forever here. */
    | Truncated(element: string)

  /** A record assembled from the events before index `next`, with the warnings raised on
      the way. */
  datatype Parsed<T> = Parsed(value: T, next: nat, warnings: seq<Warning>)

  /** What one event does to an element being assembled. */
  datatype Transition<S> = Continue(state: S) | Closed | Abort(error: ParseError)

  /** One event of the element closed by `close`: end of input and reader errors abort,
      the closing tag closes, and everything else goes to the element's own `step`. */
  function Dispatch<S>(close: string, step: (S, Event, nat) -> Result<S, ParseError>, st: S, ev: Event, pos: nat): (t: Transition<S>)
    ensures ev.Eof? ==> t == Abort(Truncated(close))
    ensures ev.ReaderError? ==> t == Abort(XmlError(pos, ev.message))
    ensures t.Closed? <==> ev == End(close)
  {
    match ev
    case Eof => Abort(Truncated(close))
    case ReaderError(m) => Abort(XmlError(pos, m))
    case _ =>
      if ev == End(close) then Closed
      else
        match step(st, ev, pos)
        case Success(s) => Continue(s)
        case Failure(e) => Abort(e)
  }

  /** The read loop of a leaf-level assembler, from index `i` in state `st`: on success,
      the state at the closing tag and the index just past it. */
  function Run<S>(close: string, step: (S, Event, nat) -> Result<S, ParseError>, evs: seq<Event>, i: nat, st: S): (r: Result<(S, nat), ParseError>)
    decreases |evs| - i
    ensures r.Success? ==> i < r.value.1 <= |evs| && evs[r.value.1 - 1] == End(close)
  {
    if i >= |evs| then Failure(Truncated(close))
    else
      match Dispatch(close, step, st, evs[i], i + 1)
      case Continue(s) => Run(close, step, evs, i + 1, s)
      case Closed => Success((st, i + 1))
      case Abort(e) => Failure(e)
  }

  /** The effect of a run of events that does not close the element. */
  function Feed<S>(close: string, step: (S, Event, nat) -> Result<S, ParseError>, st: S, chunk: seq<Event>, pos: nat): Transition<S>
    decreases |chunk|
  {
    if |chunk| == 0 then Continue(st)
    else
      match Dispatch(close, step, st, chunk[0], pos)
      case Continue(s) => Feed(close, step, s, chunk[1..], pos + 1)
      case t => t
  }

  /** `chunk` occurs in `evs` starting at index `i`. */
  predicate At(evs: seq<Event>, i: nat, chunk: seq<Event>)
    decreases |chunk|
  {
    if |chunk| == 0 then i <= |evs|
    else i < |evs| && evs[i] == chunk[0] && At(evs, i + 1, chunk[1..])
  }

  lemma {:induction false} AtSplit(evs: seq<Event>, i: nat, a: seq<Event>, b: seq<Event>)
    requires At(evs, i, a + b)
    ensures At(evs, i, a) && At(evs, i + |a|, b)
    decreases |a|
  {
    if |a| == 0 {
      assert a + b == b;
      AtBound(evs, i, b);
    } else {
      assert (a + b)[0] == a[0];
      assert (a + b)[1..] == a[1..] + b;
      AtSplit(evs, i + 1, a[1..], b);
    }
  }

  /** A chunk occurs in any sequence built around it, just past what precedes it. */
  lemma {:induction false} AtWithin(pre: seq<Event>, chunk: seq<Event>, post: seq<Event>)
    ensures At(pre + chunk + post, |pre|, chunk)
    decreases |chunk|
  {
    if |chunk| > 0 {
      assert (pre + chunk + post)[|pre|] == chunk[0];
      assert pre + chunk + post == (pre + [chunk[0]]) + chunk[1..] + post;
      AtWithin(pre + [chunk[0]], chunk[1..], post);
    }
  }

  /** A chunk that occurs in `evs` ends within it. */
  lemma {:induction false} AtBound(evs: seq<Event>, i: nat, chunk: seq<Event>)
    requires At(evs, i, chunk)
    ensures i + |chunk| <= |evs|
    decreases |chunk|
  {
    if |chunk| > 0 {
      AtBound(evs, i + 1, chunk[1..]);
    }
  }

  lemma AtHead(evs: seq<Event>, i: nat, chunk: seq<Event>)
    requires At(evs, i, chunk) && |chunk| > 0
    ensures evs[i] == chunk[0] && At(evs, i + 1, chunk[1..])
  {
  }

  /** Appending the head of a sequence and then its tail appends the whole of it. */
  lemma AppendCons<T>(a: seq<T>, xs: seq<T>)
    requires |xs| > 0
    ensures (a + [xs[0]]) + xs[1..] == a + xs
  {
    assert xs == [xs[0]] + xs[1..];
  }

  /** Feeding `a + b` is feeding `a`, then `b` from where `a` left off. */
  lemma {:induction false} FeedAppend<S>(close: string, step: (S, Event, nat) -> Result<S, ParseError>, st: S, a: seq<Event>, b: seq<Event>, pos: nat)
    ensures Feed(close, step, st, a + b, pos) ==
      match Feed(close, step, st, a, pos)
      case Continue(s) => Feed(close, step, s, b, pos + |a|)
      case t => t
    decreases |a|
  {
    if |a| > 0 {
      assert (a + b)[0] == a[0];
      assert (a + b)[1..] == a[1..] + b;
      match Dispatch(close, step, st, a[0], pos)
      case Continue(s) => FeedAppend(close, step, s, a[1..], b, pos + 1);
      case _ =>
    } else {
      assert a + b == b;
    }
  }

  /** A run of events that leaves the element open can be skipped over in the read loop. */
  lemma {:induction false} RunFeed<S>(close: string, step: (S, Event, nat) -> Result<S, ParseError>, evs: seq<Event>, i: nat, st: S, chunk: seq<Event>)
    requires At(evs, i, chunk)
    ensures Feed(close, step, st, chunk, i + 1).Continue? ==>
      Run(close, step, evs, i, st) == Run(close, step, evs, i + |chunk|, Feed(close, step, st, chunk, i + 1).state)
    ensures Feed(close, step, st, chunk, i + 1).Abort? ==>
      Run(close, step, evs, i, st) == Failure(Feed(close, step, st, chunk, i + 1).error)
    decreases |chunk|
  {
    if |chunk| > 0 {
      AtHead(evs, i, chunk);
      match Dispatch(close, step, st, chunk[0], i + 1)
      case Continue(s) => RunFeed(close, step, evs, i + 1, s, chunk[1..]);
      case _ =>
    }
  }

  /** A run that leaves the element open, followed by its end tag, closes the element. */
  lemma RunClosesAfter<S>(close: string, step: (S, Event, nat) -> Result<S, ParseError>, evs: seq<Event>, i: nat, st: S, chunk: seq<Event>, fin: S)
    requires At(evs, i, chunk + [End(close)])
    requires Feed(close, step, st, chunk, i + 1) == Continue(fin)
    ensures Run(close, step, evs, i, st) == Success((fin, i + |chunk| + 1))
  {
    AtSplit(evs, i, chunk, [End(close)]);
    RunFeed(close, step, evs, i, st, chunk);
    AtHead(evs, i + |chunk|, [End(close)]);
  }

  /** Two runs that each leave the element open, one after the other. */
  lemma FeedThen<S>(close: string, step: (S, Event, nat) -> Result<S, ParseError>, st: S, a: seq<Event>, b: seq<Event>, pos: nat, s1: S, s2: S)
    requires Feed(close, step, st, a, pos) == Continue(s1)
    requires Feed(close, step, s1, b, pos + |a|) == Continue(s2)
    ensures Feed(close, step, st, a + b, pos) == Continue(s2)
  {
    FeedAppend(close, step, st, a, b, pos);
  }

  /** One event that continues the element. */
  lemma FeedOne<S>(close: string, step: (S, Event, nat) -> Result<S, ParseError>, st: S, a: Event, pos: nat, s1: S)
    requires Dispatch(close, step, st, a, pos) == Continue(s1)
    ensures Feed(close, step, st, [a], pos) == Continue(s1)
  {
    assert [a][1..] == [];
  }

  /** Three runs that each leave the element open, one after the other. */
  lemma FeedThen3<S>(close: string, step: (S, Event, nat) -> Result<S, ParseError>, st: S, a: seq<Event>, b: seq<Event>, c: seq<Event>, pos: nat, s1: S, s2: S, s3: S)
    requires Feed(close, step, st, a, pos) == Continue(s1)
    requires Feed(close, step, s1, b, pos + |a|) == Continue(s2)
    requires Feed(close, step, s2, c, pos + |a| + |b|) == Continue(s3)
    ensures Feed(close, step, st, a + (b + c), pos) == Continue(s3)
  {
    FeedThen(close, step, s1, b, c, pos + |a|, s2, s3);
    FeedThen(close, step, st, a, b + c, pos, s1, s3);
  }

  /** A leaf whose three events each continue the element, then a run that does too. */
  lemma FeedLeafThen<S>(close: string, step: (S, Event, nat) -> Result<S, ParseError>, st: S, a: Event, b: Event, c: Event, rest: seq<Event>, pos: nat, s1: S, s2: S, s3: S, fin: S)
    requires Dispatch(close, step, st, a, pos) == Continue(s1)
    requires Dispatch(close, step, s1, b, pos + 1) == Continue(s2)
    requires Dispatch(close, step, s2, c, pos + 2) == Continue(s3)
    requires Feed(close, step, s3, rest, pos + 3) == Continue(fin)
    ensures Feed(close, step, st, [a, b, c] + rest, pos) == Continue(fin)
  {
    FeedThree(close, step, st, a, b, c, pos, s1, s2, s3);
    FeedThen(close, step, st, [a, b, c], rest, pos, s3, fin);
  }

  /** A leaf whose three events each continue the element: what follows decides. */
  lemma FeedLeafAny<S>(close: string, step: (S, Event, nat) -> Result<S, ParseError>, st: S, a: Event, b: Event, c: Event, rest: seq<Event>, pos: nat, s1: S, s2: S, s3: S)
    requires Dispatch(close, step, st, a, pos) == Continue(s1)
    requires Dispatch(close, step, s1, b, pos + 1) == Continue(s2)
    requires Dispatch(close, step, s2, c, pos + 2) == Continue(s3)
    ensures Feed(close, step, st, [a, b, c] + rest, pos) == Feed(close, step, s3, rest, pos + 3)
  {
    FeedThree(close, step, st, a, b, c, pos, s1, s2, s3);
    FeedAppend(close, step, st, [a, b, c], rest, pos);
  }

  /** A leaf whose start tag aborts the element aborts everything fed after it. */
  lemma FeedAbortsLeaf<S>(close: string, step: (S, Event, nat) -> Result<S, ParseError>, st: S, a: Event, b: Event, c: Event, rest: seq<Event>, pos: nat, e: ParseError)
    requires Dispatch(close, step, st, a, pos) == Abort(e)
    ensures Feed(close, step, st, [a, b, c] + rest, pos) == Abort(e)
  {
    assert ([a, b, c] + rest)[0] == a;
  }

  /** A run that aborts the element makes the read loop fail with the same error. */
  lemma RunAbortsIn<S>(close: string, step: (S, Event, nat) -> Result<S, ParseError>, evs: seq<Event>, i: nat, st: S, chunk: seq<Event>, rest: seq<Event>, e: ParseError)
    requires At(evs, i, chunk + rest)
    requires Feed(close, step, st, chunk, i + 1) == Abort(e)
    ensures Run(close, step, evs, i, st) == Failure(e)
  {
    AtSplit(evs, i, chunk, rest);
    RunFeed(close, step, evs, i, st, chunk);
  }

  /** Two runs that leave the element open, then its end tag: the element closes. */
  lemma RunClosesAfterTwo<S>(close: string, step: (S, Event, nat) -> Result<S, ParseError>, evs: seq<Event>, i: nat, st: S, a: seq<Event>, b: seq<Event>, s1: S, fin: S)
    requires At(evs, i, a + (b + [End(close)]))
    requires Feed(close, step, st, a, i + 1) == Continue(s1)
    requires Feed(close, step, s1, b, i + |a| + 1) == Continue(fin)
    ensures Run(close, step, evs, i, st) == Success((fin, i + |a| + |b| + 1))
  {
    AtSplit(evs, i, a, b + [End(close)]);
    RunSkipThenClose(close, step, evs, i, st, a, b, s1, fin);
  }

  lemma RunSkipThenClose<S>(close: string, step: (S, Event, nat) -> Result<S, ParseError>, evs: seq<Event>, i: nat, st: S, a: seq<Event>, b: seq<Event>, s1: S, fin: S)
    requires At(evs, i, a) && At(evs, i + |a|, b + [End(close)])
    requires Feed(close, step, st, a, i + 1) == Continue(s1)
    requires Feed(close, step, s1, b, i + |a| + 1) == Continue(fin)
    ensures Run(close, step, evs, i, st) == Success((fin, i + |a| + |b| + 1))
  {
    RunFeed(close, step, evs, i, st, a);
    RunClosesAfter(close, step, evs, i + |a|, s1, b, fin);
  }

  /** Three events that each continue the element. */
  lemma FeedThree<S>(close: string, step: (S, Event, nat) -> Result<S, ParseError>, st: S, a: Event, b: Event, c: Event, pos: nat, s1: S, s2: S, s3: S)
    requires Dispatch(close, step, st, a, pos) == Continue(s1)
    requires Dispatch(close, step, s1, b, pos + 1) == Continue(s2)
    requires Dispatch(close, step, s2, c, pos + 2) == Continue(s3)
    ensures Feed(close, step, st, [a, b, c], pos) == Continue(s3)
  {
    assert [c][1..] == [];
    assert Feed(close, step, s2, [c], pos + 2) == Continue(s3);
    assert [b, c][1..] == [c];
    assert Feed(close, step, s1, [b, c], pos + 1) == Continue(s3);
    assert [a, b, c][1..] == [b, c];
  }

  /** Two events that each continue the element. */
  lemma FeedTwo<S>(close: string, step: (S, Event, nat) -> Result<S, ParseError>, st: S, a: Event, b: Event, pos: nat, s1: S, s2: S)
    requires Dispatch(close, step, st, a, pos) == Continue(s1)
    requires Dispatch(close, step, s1, b, pos + 1) == Continue(s2)
    ensures Feed(close, step, st, [a, b], pos) == Continue(s2)
  {
    assert [b][1..] == [];
    assert Feed(close, step, s1, [b], pos + 1) == Continue(s2);
    assert [a, b][1..] == [b];
  }

  // ---------------------------------------------------------------------------
  // Canonical markup, as the JMdict file spells it
  // ---------------------------------------------------------------------------

  /** `<tag attrs>text</tag>`. */
  function Leaf(tag: string, attrs: seq<Attribute>, raw: string, decoded: Option<string>): (r: seq<Event>)
    ensures |r| == 3
  {
    [Start(tag, attrs), Text(raw, decoded), End(tag)]
  }

  /** One `<tag>text</tag>` per string, in order, each text needing no escaping. */
  function TextLeaves(tag: string, texts: seq<string>): (r: seq<Event>)
    ensures |r| == 3 * |texts|
  {
    if |texts| == 0 then []
    else Leaf(tag, [], texts[0], Some(texts[0])) + TextLeaves(tag, texts[1..])
  }
}

=== FILE: kanji.dfy ===
/** The `k_ele` assembler: one written form of an entry. */
module KanjiElement {
  import opened Wrappers
  import opened Text
  import opened Events
  import opened Entity
  import opened Records

  /** The leaf element whose text is being read. */
  datatype KanjiLeaf = Keb | KeInf | KePri

  datatype KanjiState = KanjiState(
    leaf: Option<KanjiLeaf>,
    kanji: string,
    info: seq<string>,
    priority: seq<string>,
    warnings: seq<Warning>)

  const Fresh: KanjiState := KanjiState(None, "", [], [], [])

  /** The child elements `k_ele` knows. */
  predicate IsKanjiChild(name: string) {
    name == "keb" || name == "ke_inf" || name == "ke_pri"
  }

  /** The recorded fields, leaving out the open leaf and the warnings. */
  function Fields(st: KanjiState): (r: (string, seq<string>, seq<string>)) {
    (st.kanji, st.info, st.priority)
  }

  /** The transition table of `k_ele`.  Lists only grow at their ends and warnings are only
      appended; an unknown child tag, or text outside any leaf, adds exactly one warning and
      changes no field; any end tag other than `</k_ele>` closes the open leaf. */
  function KanjiStep(st: KanjiState, ev: Event, pos: nat): (r: Result<KanjiState, ParseError>)
    ensures r.Success? ==> st.info <= r.value.info && st.priority <= r.value.priority && st.warnings <= r.value.warnings
    ensures r.Success? && ev.End? ==> r.value.leaf.None? && Fields(r.value) == Fields(st)
    ensures ev.Start? && !IsKanjiChild(ev.name) ==>
      r.Success? && Fields(r.value) == Fields(st) && r.value.leaf == st.leaf && |r.value.warnings| == |st.warnings| + 1
    ensures ev.Text? && st.leaf.None? ==>
      r.Success? && Fields(r.value) == Fields(st) && r.value.leaf == st.leaf && |r.value.warnings| == |st.warnings| + 1
    ensures ev.Start? && IsKanjiChild(ev.name) ==>
      r.Success? && r.value.leaf.Some? && Fields(r.value) == Fields(st) && r.value.warnings == st.warnings
    // Text inside a leaf goes to that leaf's field alone: `keb` replaces the key, the
    // others append; the open leaf and the warnings stay as they were.
    ensures ev.Text? && st.leaf == Some(Keb) ==>
      r == if ev.decoded.None? then Failure(Undecodable) else Success(st.(kanji := ev.decoded.value))
    ensures ev.Text? && st.leaf == Some(KeInf) ==>
      && (r.Success? <==> DecodeEntity(ev.raw, pos).Success?)
      && (r.Success? ==> r.value == st.(info := st.info + [DecodeEntity(ev.raw, pos).value]))
      && (r.Failure? ==> r.error == MalformedEntity(pos))
    ensures ev.Text? && st.leaf == Some(KePri) ==>
      r == if ev.decoded.None? then Failure(Undecodable) else Success(st.(priority := st.priority + [ev.decoded.value]))
  {
    match ev
    case Start(name, _) =>
      if name == "keb" then Success(st.(leaf := Some(Keb)))
      else if name == "ke_inf" then Success(st.(leaf := Some(KeInf)))
      else if name == "ke_pri" then Success(st.(leaf := Some(KePri)))
      else Success(st.(warnings := st.warnings + [UnknownTag("k_ele", name, pos)]))
    case End(_) => Success(st.(leaf := None))
    case Text(raw, decoded) =>
      (match st.leaf
       case Some(Keb) =>
         if decoded.None? then Failure(Undecodable) else Success(st.(kanji := decoded.value))
       case Some(KeInf) =>
         var name :- DecodeEntity(raw, pos);
         Success(st.(info := st.info + [name]))
       case Some(KePri) =>
         if decoded.None? then Failure(Undecodable) else Success(st.(priority := st.priority + [decoded.value]))
       case None => Success(st.(warnings := st.warnings + [UnexpectedText("k_ele", decoded, pos)])))
    case _ => Success(st)
  }

  /** The checks at `</k_ele>`: a key with whitespace at either end fails the `assert!` (a
      panic); an empty key is an error at the position of the closing tag. */
  function CloseKanji(st: KanjiState, pos: nat): (r: Result<KanjiEntry, ParseError>)
    ensures r.Success? <==> IsKey(st.kanji)
    ensures r.Success? ==> r.value == KanjiEntry(st.kanji, st.info, st.priority)
    ensures r.Failure? ==> r.error == (if |st.kanji| == 0 then EmptyKanjiKey(pos) else Panic(UntrimmedKanjiKey))
  {
    TrimFixedIff(st.kanji);
    if Trim(st.kanji) != st.kanji then Failure(Panic(UntrimmedKanjiKey))
    else if |st.kanji| == 0 then Failure(EmptyKanjiKey(pos))
    else Success(KanjiEntry(st.kanji, st.info, st.priority))
  }

  /** Assembles a `k_ele` whose start tag was the event before index `i`. */
  function ParseKanji(evs: seq<Event>, i: nat): (r: Result<Parsed<KanjiEntry>, ParseError>)
    ensures r.Success? ==> i < r.value.next <= |evs| && evs[r.value.next - 1] == End("k_ele")
    ensures r.Success? ==> IsKey(r.value.value.kanji)
  {
    var done :- Run("k_ele", KanjiStep, evs, i, Fresh);
    var k :- CloseKanji(done.0, done.1);
    Success(Parsed(k, done.1, done.0.warnings))
  }

  // ---------------------------------------------------------------------------
  // Canonical markup and the round trip
  // ---------------------------------------------------------------------------

  /** A record whose markup the assembler reads back: its key is well-formed and its codes
      can be written as entity literals. */
  predicate WellFormedKanji(k: KanjiEntry) {
    IsKey(k.kanji) && AllEntityNames(k.info)
  }

  /** The children of a `k_ele`, in schema order. */
  function KanjiBody(k: KanjiEntry): seq<Event> {
    Leaf("keb", [], k.kanji, Some(k.kanji)) + (EntityLeaves("ke_inf", k.info) + TextLeaves("ke_pri", k.priority))
  }

  /** A `k_ele` after its start tag: the children and the closing tag. */
  function KanjiEvents(k: KanjiEntry): seq<Event> {
    KanjiBody(k) + [End("k_ele")]
  }

  lemma FeedKeb(st: KanjiState, t: string, pos: nat)
    ensures Feed("k_ele", KanjiStep, st, Leaf("keb", [], t, Some(t)), pos) == Continue(st.(leaf := None, kanji := t))
  {
    var s1 := st.(leaf := Some(Keb));
    var s2 := s1.(kanji := t);
    FeedThree("k_ele", KanjiStep, st, Start("keb", []), Text(t, Some(t)), End("keb"), pos, s1, s2, s2.(leaf := None));
  }

  /** One `<ke_inf>` leaf holding an entity reference: open, append the name, close. */
  lemma InfoLeafSteps(st: KanjiState, n: string, pos: nat)
    requires st.leaf.None? && IsEntityName(n)
    ensures Dispatch("k_ele", KanjiStep, st, Start("ke_inf", []), pos) == Continue(st.(leaf := Some(KeInf)))
    ensures Dispatch("k_ele", KanjiStep, st.(leaf := Some(KeInf)), Text(EntityLiteral(n), None), pos + 1) ==
      Continue(st.(leaf := Some(KeInf), info := st.info + [n]))
    ensures Dispatch("k_ele", KanjiStep, st.(leaf := Some(KeInf), info := st.info + [n]), End("ke_inf"), pos + 2) ==
      Continue(st.(leaf := None, info := st.info + [n]))
  {
    DecodeEntityLiteral(n, pos + 1);
  }

  /** Each `<ke_inf>` leaf appends its entity name to the information codes. */
  lemma {:induction false} FeedInfo(st: KanjiState, xs: seq<string>, pos: nat)
    requires st.leaf.None? && AllEntityNames(xs)
    ensures Feed("k_ele", KanjiStep, st, EntityLeaves("ke_inf", xs), pos) == Continue(st.(info := st.info + xs))
    decreases |xs|
  {
    if |xs| == 0 {
      assert st.info + xs == st.info;
    } else {
      var s3 := st.(info := st.info + [xs[0]]);
      AppendCons(st.info, xs);
      FeedInfo(s3, xs[1..], pos + 3);
      InfoCons(st, xs, pos, st.(info := st.info + xs));
    }
  }

  /** The first `<ke_inf>` leaf appends its value, and the rest carry on from there. */
  lemma InfoCons(st: KanjiState, xs: seq<string>, pos: nat, fin: KanjiState)
    requires st.leaf.None? && |xs| > 0 && IsEntityName(xs[0])
    requires Feed("k_ele", KanjiStep, st.(info := st.info + [xs[0]]), EntityLeaves("ke_inf", xs[1..]), pos + 3) == Continue(fin)
    ensures Feed("k_ele", KanjiStep, st, EntityLeaves("ke_inf", xs), pos) == Continue(fin)
  {
    var x := xs[0];
    InfoLeafSteps(st, x, pos);
    FeedLeafThen("k_ele", KanjiStep, st, Start("ke_inf", []), Text(EntityLiteral(x), None), End("ke_inf"), EntityLeaves("ke_inf", xs[1..]), pos,
      st.(leaf := Some(KeInf)), st.(leaf := Some(KeInf), info := st.info + [x]), st.(leaf := None, info := st.info + [x]), fin);
  }

  /** Each `<ke_pri>` leaf appends its text to the priority markers. */
  lemma {:induction false} FeedPriority(st: KanjiState, xs: seq<string>, pos: nat)
    requires st.leaf.None?
    ensures Feed("k_ele", KanjiStep, st, TextLeaves("ke_pri", xs), pos) == Continue(st.(priority := st.priority + xs))
    decreases |xs|
  {
    if |xs| == 0 {
      assert st.priority + xs == st.priority;
    } else {
      var s3 := st.(priority := st.priority + [xs[0]]);
      AppendCons(st.priority, xs);
      FeedPriority(s3, xs[1..], pos + 3);
      PriorityCons(st, xs, pos, st.(priority := st.priority + xs));
    }
  }

  /** The first `<ke_pri>` leaf appends its value, and the rest carry on from there. */
  lemma PriorityCons(st: KanjiState, xs: seq<string>, pos: nat, fin: KanjiState)
    requires st.leaf.None? && |xs| > 0
    requires Feed("k_ele", KanjiStep, st.(priority := st.priority + [xs[0]]), TextLeaves("ke_pri", xs[1..]), pos + 3) == Continue(fin)
    ensures Feed("k_ele", KanjiStep, st, TextLeaves("ke_pri", xs), pos) == Continue(fin)
  {
    var x := xs[0];
    FeedLeafThen("k_ele", KanjiStep, st, Start("ke_pri", []), Text(x, Some(x)), End("ke_pri"), TextLeaves("ke_pri", xs[1..]), pos,
      st.(leaf := Some(KePri)), st.(leaf := Some(KePri), priority := st.priority + [x]), st.(leaf := None, priority := st.priority + [x]), fin);
  }

  /** The children of a `k_ele` set its key and append its codes and markers. */
  lemma FeedKanjiBody(st: KanjiState, k: KanjiEntry, pos: nat)
    requires st.leaf.None? && AllEntityNames(k.info)
    ensures Feed("k_ele", KanjiStep, st, KanjiBody(k), pos) ==
      Continue(st.(kanji := k.kanji, info := st.info + k.info, priority := st.priority + k.priority))
  {
    hide Feed, KanjiStep, EntityLeaves, TextLeaves, AllEntityNames;
    var keb := Leaf("keb", [], k.kanji, Some(k.kanji));
    var infos := EntityLeaves("ke_inf", k.info);
    var pris := TextLeaves("ke_pri", k.priority);
    var s1 := st.(leaf := None, kanji := k.kanji);
    var s2 := s1.(info := st.info + k.info);
    var s3 := s2.(priority := st.priority + k.priority);
    FeedKeb(st, k.kanji, pos);
    FeedInfo(s1, k.info, pos + |keb|);
    FeedPriority(s2, k.priority, pos + |keb| + |infos|);
    FeedThen3("k_ele", KanjiStep, st, keb, infos, pris, pos, s1, s2, s3);
  }

  /** From a fresh state, the read loop ends at `</k_ele>` holding exactly the record's fields. */
  lemma RunKanjiEvents(evs: seq<Event>, i: nat, k: KanjiEntry)
    requires At(evs, i, KanjiEvents(k)) && AllEntityNames(k.info)
    ensures Run("k_ele", KanjiStep, evs, i, Fresh) == Success((KanjiState(None, k.kanji, k.info, k.priority, []), i + |KanjiEvents(k)|))
  {
    ParseKanjiAfter(evs, i, Fresh, k);
    assert Fresh.(kanji := k.kanji, info := [] + k.info, priority := [] + k.priority) == KanjiState(None, k.kanji, k.info, k.priority, []);
  }

  /** The assembler reads the canonical markup of a record as that record, with no warnings,
      exactly when its key is well-formed; otherwise it fails with the key's error. */
  lemma ParseKanjiEvents(evs: seq<Event>, i: nat, k: KanjiEntry)
    requires At(evs, i, KanjiEvents(k)) && AllEntityNames(k.info)
    ensures var next := i + |KanjiEvents(k)|;
      ParseKanji(evs, i) ==
        if IsKey(k.kanji) then Success(Parsed(k, next, []))
        else if |k.kanji| == 0 then Failure(EmptyKanjiKey(next))
        else Failure(Panic(UntrimmedKanjiKey))
  {
    RunKanjiEvents(evs, i, k);
    ParseKanjiClose(evs, i, KanjiState(None, k.kanji, k.info, k.priority, []), i + |KanjiEvents(k)|);
  }

  /** Once the read loop has reached `</k_ele>`, the close-time checks decide. */
  lemma ParseKanjiClose(evs: seq<Event>, i: nat, fin: KanjiState, next: nat)
    requires Run("k_ele", KanjiStep, evs, i, Fresh) == Success((fin, next))
    ensures ParseKanji(evs, i) ==
      if IsKey(fin.kanji) then Success(Parsed(KanjiEntry(fin.kanji, fin.info, fin.priority), next, fin.warnings))
      else if |fin.kanji| == 0 then Failure(EmptyKanjiKey(next))
      else Failure(Panic(UntrimmedKanjiKey))
  {
  }

  /** Reading the canonical markup from any state between leaves. */
  lemma ParseKanjiAfter(evs: seq<Event>, i: nat, st: KanjiState, k: KanjiEntry)
    requires At(evs, i, KanjiEvents(k)) && AllEntityNames(k.info) && st.leaf.None?
    ensures Run("k_ele", KanjiStep, evs, i, st) ==
      Success((st.(kanji := k.kanji, info := st.info + k.info, priority := st.priority + k.priority), i + |KanjiEvents(k)|))
  {
    FeedKanjiBody(st, k, i + 1);
    RunClosesAfter("k_ele", KanjiStep, evs, i, st, KanjiBody(k), st.(kanji := k.kanji, info := st.info + k.info, priority := st.priority + k.priority));
  }

  /** The round trip: a well-formed record survives being written out and read back. */
  lemma ParseKanjiRoundTrip(evs: seq<Event>, i: nat, k: KanjiEntry)
    requires At(evs, i, KanjiEvents(k)) && WellFormedKanji(k)
    ensures ParseKanji(evs, i) == Success(Parsed(k, i + |KanjiEvents(k)|, []))
  {
    ParseKanjiEvents(evs, i, k);
  }

  /** Skipping an unknown child records one warning and then reads the record's markup. */
  lemma RunPastUnknownChild(evs: seq<Event>, i: nat, k: KanjiEntry, tag: string, attrs: seq<Attribute>)
    requires !IsKanjiChild(tag) && tag != "k_ele" && AllEntityNames(k.info)
    requires At(evs, i, [Start(tag, attrs), End(tag)] + KanjiEvents(k))
    ensures Run("k_ele", KanjiStep, evs, i, Fresh) ==
      Success((KanjiState(None, k.kanji, k.info, k.priority, [UnknownTag("k_ele", tag, i + 1)]), i + 2 + |KanjiEvents(k)|))
  {
    var w := UnknownTag("k_ele", tag, i + 1);
    var warned := Fresh.(warnings := [w]);
    var junk := [Start(tag, attrs), End(tag)];
    var body := KanjiBody(k);
    var fin := KanjiState(None, k.kanji, k.info, k.priority, [w]);
    assert Fresh.warnings + [w] == [w];
    FeedTwo("k_ele", KanjiStep, Fresh, Start(tag, attrs), End(tag), i + 1, warned, warned);
    FeedKanjiBody(warned, k, i + |junk| + 1);
    assert warned.(kanji := k.kanji, info := [] + k.info, priority := [] + k.priority) == fin;
    RunClosesAfterTwo("k_ele", KanjiStep, evs, i, Fresh, junk, body, warned, fin);
  }

  /** An unknown child element adds exactly one warning and leaves the record as it was. */
  lemma UnknownChildWarnsOnce(evs: seq<Event>, i: nat, k: KanjiEntry, tag: string, attrs: seq<Attribute>)
    requires !IsKanjiChild(tag) && tag != "k_ele" && WellFormedKanji(k)
    requires At(evs, i, [Start(tag, attrs), End(tag)] + KanjiEvents(k))
    ensures ParseKanji(evs, i) == Success(Parsed(k, i + 2 + |KanjiEvents(k)|, [UnknownTag("k_ele", tag, i + 1)]))
  {
    RunPastUnknownChild(evs, i, k, tag, attrs);
    ParseKanjiClose(evs, i, KanjiState(None, k.kanji, k.info, k.priority, [UnknownTag("k_ele", tag, i + 1)]), i + 2 + |KanjiEvents(k)|);
  }

  /** Skipping stray text records one warning and then reads the record's markup. */
  lemma RunPastStrayText(evs: seq<Event>, i: nat, k: KanjiEntry, raw: string, decoded: Option<string>)
    requires AllEntityNames(k.info)
    requires At(evs, i, [Text(raw, decoded)] + KanjiEvents(k))
    ensures Run("k_ele", KanjiStep, evs, i, Fresh) ==
      Success((KanjiState(None, k.kanji, k.info, k.priority, [UnexpectedText("k_ele", decoded, i + 1)]), i + 1 + |KanjiEvents(k)|))
  {
    var w := UnexpectedText("k_ele", decoded, i + 1);
    var warned := Fresh.(warnings := [w]);
    var junk := [Text(raw, decoded)];
    var body := KanjiBody(k);
    var fin := KanjiState(None, k.kanji, k.info, k.priority, [w]);
    assert Fresh.warnings + [w] == [w];
    FeedOne("k_ele", KanjiStep, Fresh, Text(raw, decoded), i + 1, warned);
    FeedKanjiBody(warned, k, i + |junk| + 1);
    assert warned.(kanji := k.kanji, info := [] + k.info, priority := [] + k.priority) == fin;
    RunClosesAfterTwo("k_ele", KanjiStep, evs, i, Fresh, junk, body, warned, fin);
  }

  /** Text outside any leaf adds exactly one warning and leaves the record as it was. */
  lemma StrayTextWarnsOnce(evs: seq<Event>, i: nat, k: KanjiEntry, raw: string, decoded: Option<string>)
    requires WellFormedKanji(k)
    requires At(evs, i, [Text(raw, decoded)] + KanjiEvents(k))
    ensures ParseKanji(evs, i) == Success(Parsed(k, i + 1 + |KanjiEvents(k)|, [UnexpectedText("k_ele", decoded, i + 1)]))
  {
    RunPastStrayText(evs, i, k, raw, decoded);
    ParseKanjiClose(evs, i, KanjiState(None, k.kanji, k.info, k.priority, [UnexpectedText("k_ele", decoded, i + 1)]), i + 1 + |KanjiEvents(k)|);
  }
}

=== FILE: reading.dfy ===
/** The `r_ele` assembler: one reading of an entry.  Unlike `k_ele`, a text the reader
    cannot decode is unwrapped here, so it panics instead of returning an error. */
module ReadingElement {
  import opened Wrappers
  import opened Text
  import opened Events
  import opened Entity
  import opened Records

  /** The leaf element whose text is being read.  `re_nokanji` is not a leaf: it has no
      text and only raises the flag. */
  datatype ReadingLeaf = Reb | ReRestr | ReInf | RePri

  datatype ReadingState = ReadingState(
    leaf: Option<ReadingLeaf>,
    kana: string,
    noKanji: bool,
    relatedKanji: seq<string>,
    info: seq<string>,
    priority: seq<string>,
    warnings: seq<Warning>)

  const Fresh: ReadingState := ReadingState(None, "", false, [], [], [], [])

  /** The child elements `r_ele` knows. */
  predicate IsReadingChild(name: string) {
    name == "reb" || name == "re_nokanji" || name == "re_restr" || name == "re_inf" || name == "re_pri"
  }

  /** The recorded fields, leaving out the open leaf and the warnings. */
  function Fields(st: ReadingState): (r: (string, bool, seq<string>, seq<string>, seq<string>)) {
    (st.kana, st.noKanji, st.relatedKanji, st.info, st.priority)
  }

  /** The transition table of `r_ele`.  Lists only grow at their ends, warnings are only
      appended and the no-kanji flag is never lowered; an unknown child tag, or text outside
      any leaf, adds exactly one warning and changes no field; any end tag other than
      `</r_ele>` closes the open leaf. */
  function ReadingStep(st: ReadingState, ev: Event, pos: nat): (r: Result<ReadingState, ParseError>)
    ensures r.Success? ==>
      && st.relatedKanji <= r.value.relatedKanji && st.info <= r.value.info && st.priority <= r.value.priority
      && st.warnings <= r.value.warnings && (st.noKanji ==> r.value.noKanji)
    ensures r.Success? && ev.End? ==> r.value.leaf.None? && Fields(r.value) == Fields(st)
    ensures ev.Start? && !IsReadingChild(ev.name) ==>
      r.Success? && Fields(r.value) == Fields(st) && r.value.leaf == st.leaf && |r.value.warnings| == |st.warnings| + 1
    ensures ev.Text? && st.leaf.None? ==>
      r.Success? && Fields(r.value) == Fields(st) && r.value.leaf == st.leaf && |r.value.warnings| == |st.warnings| + 1
    ensures ev.Text? && ev.decoded.None? && st.leaf.Some? && st.leaf != Some(ReInf) ==> r == Failure(Panic(UndecodableText))
    ensures ev.Start? && ev.name == "re_nokanji" ==> r == Success(st.(noKanji := true))
    ensures ev.Start? && IsReadingChild(ev.name) && ev.name != "re_nokanji" ==>
      r.Success? && r.value.leaf.Some? && Fields(r.value) == Fields(st) && r.value.warnings == st.warnings
    // Decodable text inside a leaf goes to that leaf's field alone: `reb` replaces the key,
    // the others append; the open leaf and the warnings stay as they were.
    ensures ev.Text? && ev.decoded.Some? && st.leaf == Some(Reb) ==> r == Success(st.(kana := ev.decoded.value))
    ensures ev.Text? && ev.decoded.Some? && st.leaf == Some(ReRestr) ==>
      r == Success(st.(relatedKanji := st.relatedKanji + [ev.decoded.value]))
    ensures ev.Text? && st.leaf == Some(ReInf) ==>
      && (r.Success? <==> DecodeEntity(ev.raw, pos).Success?)
      && (r.Success? ==> r.value == st.(info := st.info + [DecodeEntity(ev.raw, pos).value]))
      && (r.Failure? ==> r.error == MalformedEntity(pos))
    ensures ev.Text? && ev.decoded.Some? && st.leaf == Some(RePri) ==>
      r == Success(st.(priority := st.priority + [ev.decoded.value]))
  {
    match ev
    case Start(name, _) =>
      if name == "reb" then Success(st.(leaf := Some(Reb)))
      else if name == "re_nokanji" then Success(st.(noKanji := true))
      else if name == "re_restr" then Success(st.(leaf := Some(ReRestr)))
      else if name == "re_inf" then Success(st.(leaf := Some(ReInf)))
      else if name == "re_pri" then Success(st.(leaf := Some(RePri)))
      else Success(st.(warnings := st.warnings + [UnknownTag("r_ele", name, pos)]))
    case End(_) => Success(st.(leaf := None))
    case Text(raw, decoded) =>
      (match st.leaf
       case Some(Reb) =>
         if decoded.None? then Failure(Panic(UndecodableText)) else Success(st.(kana := decoded.value))
       case Some(ReRestr) =>
         if decoded.None? then Failure(Panic(UndecodableText))
         else Success(st.(relatedKanji := st.relatedKanji + [decoded.value]))
       case Some(ReInf) =>
         var name :- DecodeEntity(raw, pos);
         Success(st.(info := st.info + [name]))
       case Some(RePri) =>
         if decoded.None? then Failure(Panic(UndecodableText)) else Success(st.(priority := st.priority + [decoded.value]))
       case None => Success(st.(warnings := st.warnings + [UnexpectedText("r_ele", decoded, pos)])))
    case _ => Success(st)
  }

  /** The checks at `</r_ele>`: a key with whitespace at either end fails the `assert!` (a
      panic); an empty key is an error at the position of the closing tag. */
  function CloseReading(st: ReadingState, pos: nat): (r: Result<ReadingEntry, ParseError>)
    ensures r.Success? <==> IsKey(st.kana)
    ensures r.Success? ==> r.value == ReadingEntry(st.kana, st.noKanji, st.relatedKanji, st.info, st.priority)
    ensures r.Failure? ==> r.error == (if |st.kana| == 0 then EmptyKanaKey(pos) else Panic(UntrimmedKanaKey))
  {
    TrimFixedIff(st.kana);
    if Trim(st.kana) != st.kana then Failure(Panic(UntrimmedKanaKey))
    else if |st.kana| == 0 then Failure(EmptyKanaKey(pos))
    else Success(ReadingEntry(st.kana, st.noKanji, st.relatedKanji, st.info, st.priority))
  }

  /** Assembles an `r_ele` whose start tag was the event before index `i`. */
  function ParseReading(evs: seq<Event>, i: nat): (r: Result<Parsed<ReadingEntry>, ParseError>)
    ensures r.Success? ==> i < r.value.next <= |evs| && evs[r.value.next - 1] == End("r_ele")
    ensures r.Success? ==> IsKey(r.value.value.kana)
  {
    var done :- Run("r_ele", ReadingStep, evs, i, Fresh);
    var e :- CloseReading(done.0, done.1);
    Success(Parsed(e, done.1, done.0.warnings))
  }

  /** Once the read loop has reached `</r_ele>`, the close-time checks decide. */
  lemma ParseReadingClose(evs: seq<Event>, i: nat, fin: ReadingState, next: nat)
    requires Run("r_ele", ReadingStep, evs, i, Fresh) == Success((fin, next))
    ensures ParseReading(evs, i) ==
      if IsKey(fin.kana) then Success(Parsed(ReadingEntry(fin.kana, fin.noKanji, fin.relatedKanji, fin.info, fin.priority), next, fin.warnings))
      else if |fin.kana| == 0 then Failure(EmptyKanaKey(next))
      else Failure(Panic(UntrimmedKanaKey))
  {
  }

  // ---------------------------------------------------------------------------
  // Canonical markup and the round trip
  // ---------------------------------------------------------------------------

  /** A record whose markup the assembler reads back: its key is well-formed and its codes
      can be written as entity literals. */
  predicate WellFormedReading(e: ReadingEntry) {
    IsKey(e.kana) && AllEntityNames(e.info)
  }

  /** The empty `<re_nokanji/>` marker when the flag is up. */
  function NoKanjiMarker(flag: bool): seq<Event> {
    if flag then [Start("re_nokanji", []), End("re_nokanji")] else []
  }

  /** The children of an `r_ele`, in schema order. */
  function ReadingBody(e: ReadingEntry): seq<Event> {
    Leaf("reb", [], e.kana, Some(e.kana)) + (NoKanjiMarker(e.noKanji) + ReadingLists(e))
  }

  /** An `r_ele` after its start tag: the children and the closing tag. */
  function ReadingEvents(e: ReadingEntry): seq<Event> {
    ReadingBody(e) + [End("r_ele")]
  }

  lemma FeedReb(st: ReadingState, t: string, pos: nat)
    ensures Feed("r_ele", ReadingStep, st, Leaf("reb", [], t, Some(t)), pos) == Continue(st.(leaf := None, kana := t))
  {
    var s1 := st.(leaf := Some(Reb));
    var s2 := s1.(kana := t);
    FeedThree("r_ele", ReadingStep, st, Start("reb", []), Text(t, Some(t)), End("reb"), pos, s1, s2, s2.(leaf := None));
  }

  /** The marker raises the flag and leaves no leaf open. */
  lemma FeedNoKanji(st: ReadingState, flag: bool, pos: nat)
    requires st.leaf.None?
    ensures Feed("r_ele", ReadingStep, st, NoKanjiMarker(flag), pos) == Continue(st.(noKanji := st.noKanji || flag))
  {
    if flag {
      var s1 := st.(noKanji := true);
      FeedTwo("r_ele", ReadingStep, st, Start("re_nokanji", []), End("re_nokanji"), pos, s1, s1);
    } else {
      assert st.(noKanji := st.noKanji || flag) == st;
    }
  }

  /** Each `<re_restr>` leaf appends its text to the related spellings. */
  lemma {:induction false} FeedRestrictions(st: ReadingState, xs: seq<string>, pos: nat)
    requires st.leaf.None?
    ensures Feed("r_ele", ReadingStep, st, TextLeaves("re_restr", xs), pos) == Continue(st.(relatedKanji := st.relatedKanji + xs))
    decreases |xs|
  {
    if |xs| == 0 {
      assert st.relatedKanji + xs == st.relatedKanji;
    } else {
      var s3 := st.(relatedKanji := st.relatedKanji + [xs[0]]);
      AppendCons(st.relatedKanji, xs);
      FeedRestrictions(s3, xs[1..], pos + 3);
      RestrictionsCons(st, xs, pos, st.(relatedKanji := st.relatedKanji + xs));
    }
  }

  /** The first `<re_restr>` leaf appends its value, and the rest carry on from there. */
  lemma RestrictionsCons(st: ReadingState, xs: seq<string>, pos: nat, fin: ReadingState)
    requires st.leaf.None? && |xs| > 0
    requires Feed("r_ele", ReadingStep, st.(relatedKanji := st.relatedKanji + [xs[0]]), TextLeaves("re_restr", xs[1..]), pos + 3) == Continue(fin)
    ensures Feed("r_ele", ReadingStep, st, TextLeaves("re_restr", xs), pos) == Continue(fin)
  {
    var x := xs[0];
    FeedLeafThen("r_ele", ReadingStep, st, Start("re_restr", []), Text(x, Some(x)), End("re_restr"), TextLeaves("re_restr", xs[1..]), pos,
      st.(leaf := Some(ReRestr)), st.(leaf := Some(ReRestr), relatedKanji := st.relatedKanji + [x]), st.(leaf := None, relatedKanji := st.relatedKanji + [x]), fin);
  }

  /** One `<re_inf>` leaf holding an entity reference: open, append the name, close. */
  lemma InfoLeafSteps(st: ReadingState, n: string, pos: nat)
    requires st.leaf.None? && IsEntityName(n)
    ensures Dispatch("r_ele", ReadingStep, st, Start("re_inf", []), pos) == Continue(st.(leaf := Some(ReInf)))
    ensures Dispatch("r_ele", ReadingStep, st.(leaf := Some(ReInf)), Text(EntityLiteral(n), None), pos + 1) ==
      Continue(st.(leaf := Some(ReInf), info := st.info + [n]))
    ensures Dispatch("r_ele", ReadingStep, st.(leaf := Some(ReInf), info := st.info + [n]), End("re_inf"), pos + 2) ==
      Continue(st.(leaf := None, info := st.info + [n]))
  {
    DecodeEntityLiteral(n, pos + 1);
  }

  /** Each `<re_inf>` leaf appends its entity name to the information codes. */
  lemma {:induction false} FeedInfo(st: ReadingState, xs: seq<string>, pos: nat)
    requires st.leaf.None? && AllEntityNames(xs)
    ensures Feed("r_ele", ReadingStep, st, EntityLeaves("re_inf", xs), pos) == Continue(st.(info := st.info + xs))
    decreases |xs|
  {
    if |xs| == 0 {
      assert st.info + xs == st.info;
    } else {
      var s3 := st.(info := st.info + [xs[0]]);
      AppendCons(st.info, xs);
      FeedInfo(s3, xs[1..], pos + 3);
      InfoCons(st, xs, pos, st.(info := st.info + xs));
    }
  }

  /** The first `<re_inf>` leaf appends its value, and the rest carry on from there. */
  lemma InfoCons(st: ReadingState, xs: seq<string>, pos: nat, fin: ReadingState)
    requires st.leaf.None? && |xs| > 0 && IsEntityName(xs[0])
    requires Feed("r_ele", ReadingStep, st.(info := st.info + [xs[0]]), EntityLeaves("re_inf", xs[1..]), pos + 3) == Continue(fin)
    ensures Feed("r_ele", ReadingStep, st, EntityLeaves("re_inf", xs), pos) == Continue(fin)
  {
    var x := xs[0];
    InfoLeafSteps(st, x, pos);
    FeedLeafThen("r_ele", ReadingStep, st, Start("re_inf", []), Text(EntityLiteral(x), None), End("re_inf"), EntityLeaves("re_inf", xs[1..]), pos,
      st.(leaf := Some(ReInf)), st.(leaf := Some(ReInf), info := st.info + [x]), st.(leaf := None, info := st.info + [x]), fin);
  }

  /** Each `<re_pri>` leaf appends its text to the priority markers. */
  lemma {:induction false} FeedPriority(st: ReadingState, xs: seq<string>, pos: nat)
    requires st.leaf.None?
    ensures Feed("r_ele", ReadingStep, st, TextLeaves("re_pri", xs), pos) == Continue(st.(priority := st.priority + xs))
    decreases |xs|
  {
    if |xs| == 0 {
      assert st.priority + xs == st.priority;
    } else {
      var s3 := st.(priority := st.priority + [xs[0]]);
      AppendCons(st.priority, xs);
      FeedPriority(s3, xs[1..], pos + 3);
      PriorityCons(st, xs, pos, st.(priority := st.priority + xs));
    }
  }

  /** The first `<re_pri>` leaf appends its value, and the rest carry on from there. */
  lemma PriorityCons(st: ReadingState, xs: seq<string>, pos: nat, fin: ReadingState)
    requires st.leaf.None? && |xs| > 0
    requires Feed("r_ele", ReadingStep, st.(priority := st.priority + [xs[0]]), TextLeaves("re_pri", xs[1..]), pos + 3) == Continue(fin)
    ensures Feed("r_ele", ReadingStep, st, TextLeaves("re_pri", xs), pos) == Continue(fin)
  {
    var x := xs[0];
    FeedLeafThen("r_ele", ReadingStep, st, Start("re_pri", []), Text(x, Some(x)), End("re_pri"), TextLeaves("re_pri", xs[1..]), pos,
      st.(leaf := Some(RePri)), st.(leaf := Some(RePri), priority := st.priority + [x]), st.(leaf := None, priority := st.priority + [x]), fin);
  }

  /** The state the canonical children of `e` lead to from `st`. */
  function AfterBody(st: ReadingState, e: ReadingEntry): ReadingState {
    st.(leaf := None, kana := e.kana, noKanji := st.noKanji || e.noKanji,
        relatedKanji := st.relatedKanji + e.relatedKanji, info := st.info + e.info, priority := st.priority + e.priority)
  }

  /** The list leaves of an `r_ele`, in schema order. */
  function ReadingLists(e: ReadingEntry): seq<Event> {
    TextLeaves("re_restr", e.relatedKanji) + (EntityLeaves("re_inf", e.info) + TextLeaves("re_pri", e.priority))
  }

  lemma FeedReadingLists(st: ReadingState, e: ReadingEntry, pos: nat)
    requires st.leaf.None? && AllEntityNames(e.info)
    ensures Feed("r_ele", ReadingStep, st, ReadingLists(e), pos) ==
      Continue(st.(relatedKanji := st.relatedKanji + e.relatedKanji, info := st.info + e.info, priority := st.priority + e.priority))
  {
    var restr := TextLeaves("re_restr", e.relatedKanji);
    var infos := EntityLeaves("re_inf", e.info);
    var pris := TextLeaves("re_pri", e.priority);
    var s1 := st.(relatedKanji := st.relatedKanji + e.relatedKanji);
    var s2 := s1.(info := st.info + e.info);
    var s3 := s2.(priority := st.priority + e.priority);
    FeedRestrictions(st, e.relatedKanji, pos);
    FeedInfo(s1, e.info, pos + |restr|);
    FeedPriority(s2, e.priority, pos + |restr| + |infos|);
    FeedThen3("r_ele", ReadingStep, st, restr, infos, pris, pos, s1, s2, s3);
  }

  /** The children of an `r_ele` set its key and flag and append its lists. */
  lemma FeedReadingBody(st: ReadingState, e: ReadingEntry, pos: nat)
    requires st.leaf.None? && AllEntityNames(e.info)
    ensures Feed("r_ele", ReadingStep, st, ReadingBody(e), pos) == Continue(AfterBody(st, e))
  {
    var reb := Leaf("reb", [], e.kana, Some(e.kana));
    var mark := NoKanjiMarker(e.noKanji);
    var lists := ReadingLists(e);
    var s1 := st.(leaf := None, kana := e.kana);
    var s2 := s1.(noKanji := st.noKanji || e.noKanji);
    var s3 := s2.(relatedKanji := s2.relatedKanji + e.relatedKanji, info := s2.info + e.info, priority := s2.priority + e.priority);
    FeedReb(st, e.kana, pos);
    FeedNoKanji(s1, e.noKanji, pos + |reb|);
    FeedReadingLists(s2, e, pos + |reb| + |mark|);
    FeedThen3("r_ele", ReadingStep, st, reb, mark, lists, pos, s1, s2, s3);
    assert s3 == AfterBody(st, e);
  }

  /** Reading the canonical markup from any state between leaves. */
  lemma ParseReadingAfter(evs: seq<Event>, i: nat, st: ReadingState, e: ReadingEntry)
    requires At(evs, i, ReadingEvents(e)) && AllEntityNames(e.info) && st.leaf.None?
    ensures Run("r_ele", ReadingStep, evs, i, st) == Success((AfterBody(st, e), i + |ReadingEvents(e)|))
  {
    FeedReadingBody(st, e, i + 1);
    RunClosesAfter("r_ele", ReadingStep, evs, i, st, ReadingBody(e), AfterBody(st, e));
  }

  /** From a fresh state, the read loop ends at `</r_ele>` holding exactly the record's fields. */
  lemma RunReadingEvents(evs: seq<Event>, i: nat, e: ReadingEntry)
    requires At(evs, i, ReadingEvents(e)) && AllEntityNames(e.info)
    ensures Run("r_ele", ReadingStep, evs, i, Fresh) ==
      Success((ReadingState(None, e.kana, e.noKanji, e.relatedKanji, e.info, e.priority, []), i + |ReadingEvents(e)|))
  {
    ParseReadingAfter(evs, i, Fresh, e);
    assert AfterBody(Fresh, e) == ReadingState(None, e.kana, e.noKanji, e.relatedKanji, e.info, e.priority, []);
  }

  /** The assembler reads the canonical markup of a record as that record, with no warnings,
      exactly when its key is well-formed; otherwise it fails with the key's error. */
  lemma ParseReadingEvents(evs: seq<Event>, i: nat, e: ReadingEntry)
    requires At(evs, i, ReadingEvents(e)) && AllEntityNames(e.info)
    ensures var next := i + |ReadingEvents(e)|;
      ParseReading(evs, i) ==
        if IsKey(e.kana) then Success(Parsed(e, next, []))
        else if |e.kana| == 0 then Failure(EmptyKanaKey(next))
        else Failure(Panic(UntrimmedKanaKey))
  {
    var next := i + |ReadingEvents(e)|;
    var fin := ReadingState(None, e.kana, e.noKanji, e.relatedKanji, e.info, e.priority, []);
    RunReadingEvents(evs, i, e);
    ParseReadingClose(evs, i, fin, next);
    if IsKey(e.kana) {
      assert ReadingEntry(fin.kana, fin.noKanji, fin.relatedKanji, fin.info, fin.priority) == e;
    }
  }

  /** The round trip: a well-formed record survives being written out and read back. */
  lemma ParseReadingRoundTrip(evs: seq<Event>, i: nat, e: ReadingEntry)
    requires At(evs, i, ReadingEvents(e)) && WellFormedReading(e)
    ensures ParseReading(evs, i) == Success(Parsed(e, i + |ReadingEvents(e)|, []))
  {
    ParseReadingEvents(evs, i, e);
  }

  /** Skipping an unknown child records one warning and then reads the record's markup. */
  lemma RunPastUnknownChild(evs: seq<Event>, i: nat, e: ReadingEntry, tag: string, attrs: seq<Attribute>)
    requires !IsReadingChild(tag) && tag != "r_ele" && AllEntityNames(e.info)
    requires At(evs, i, [Start(tag, attrs), End(tag)] + ReadingEvents(e))
    ensures Run("r_ele", ReadingStep, evs, i, Fresh) ==
      Success((ReadingState(None, e.kana, e.noKanji, e.relatedKanji, e.info, e.priority, [UnknownTag("r_ele", tag, i + 1)]),
               i + 2 + |ReadingEvents(e)|))
  {
    var warned := Fresh.(warnings := [UnknownTag("r_ele", tag, i + 1)]);
    SkipUnknownChild(tag, attrs, i + 1);
    FeedBodyWarned(e, warned, i + 3);
    RunClosesAfterTwo("r_ele", ReadingStep, evs, i, Fresh, [Start(tag, attrs), End(tag)], ReadingBody(e), warned,
      ReadingState(None, e.kana, e.noKanji, e.relatedKanji, e.info, e.priority, warned.warnings));
  }

  lemma FeedBodyWarned(e: ReadingEntry, warned: ReadingState, pos: nat)
    requires AllEntityNames(e.info) && warned.leaf.None? && warned.kana == [] && !warned.noKanji
    requires warned.relatedKanji == [] && warned.info == [] && warned.priority == []
    ensures Feed("r_ele", ReadingStep, warned, ReadingBody(e), pos) ==
      Continue(ReadingState(None, e.kana, e.noKanji, e.relatedKanji, e.info, e.priority, warned.warnings))
  {
    FeedReadingBody(warned, e, pos);
    assert AfterBody(warned, e) == ReadingState(None, e.kana, e.noKanji, e.relatedKanji, e.info, e.priority, warned.warnings);
  }

  /** An empty unknown child, seen first, leaves only its warning behind. */
  lemma SkipUnknownChild(tag: string, attrs: seq<Attribute>, pos: nat)
    requires !IsReadingChild(tag) && tag != "r_ele"
    ensures Feed("r_ele", ReadingStep, Fresh, [Start(tag, attrs), End(tag)], pos) == Continue(Fresh.(warnings := [UnknownTag("r_ele", tag, pos)]))
  {
    var warned := Fresh.(warnings := [UnknownTag("r_ele", tag, pos)]);
    assert Fresh.warnings + [UnknownTag("r_ele", tag, pos)] == warned.warnings;
    FeedTwo("r_ele", ReadingStep, Fresh, Start(tag, attrs), End(tag), pos, warned, warned);
  }

  /** An unknown child element adds exactly one warning and leaves the record as it was. */
  lemma UnknownChildWarnsOnce(evs: seq<Event>, i: nat, e: ReadingEntry, tag: string, attrs: seq<Attribute>)
    requires !IsReadingChild(tag) && tag != "r_ele" && WellFormedReading(e)
    requires At(evs, i, [Start(tag, attrs), End(tag)] + ReadingEvents(e))
    ensures ParseReading(evs, i) == Success(Parsed(e, i + 2 + |ReadingEvents(e)|, [UnknownTag("r_ele", tag, i + 1)]))
  {
    var fin := ReadingState(None, e.kana, e.noKanji, e.relatedKanji, e.info, e.priority, [UnknownTag("r_ele", tag, i + 1)]);
    RunPastUnknownChild(evs, i, e, tag, attrs);
    ParseReadingClose(evs, i, fin, i + 2 + |ReadingEvents(e)|);
  }
}

=== FILE: records.dfy ===
/** The records one JMdict entry is parsed into (the `entry` element and its children). */
module Records {
  import opened Wrappers
  import opened Text

  /** `xref`: a pointer to a headword or reading of another entry, optionally narrowed to
      one of its readings and to one of its senses (1-based). */
  datatype CrossReference = CrossReference(kanjiOrReading: string, reading: Option<string>, senseIndex: Option<u8>)

  /** `k_ele`: one written form (`keb`) with its `ke_inf` codes and `ke_pri` markers. */
  datatype KanjiEntry = KanjiEntry(kanji: string, info: seq<string>, priority: seq<string>)

  /** `r_ele`: one reading (`reb`); `noKanji` is `re_nokanji`, `relatedKanji` the
      `re_restr` headwords it is confined to. */
  datatype ReadingEntry = ReadingEntry(kana: string, noKanji: bool, relatedKanji: seq<string>, info: seq<string>, priority: seq<string>)

  /** `sense`: restrictions (`stagk`, `stagr`), parts of speech (`pos`), cross-references
      (`xref`) and glosses; `lang` is the `xml:lang` shared by its glosses. */
  datatype Sense = Sense(
    onlyKanji: seq<string>,
    onlyReadings: seq<string>,
    partOfSpeech: seq<string>,
    crossRefs: seq<CrossReference>,
    glosses: seq<string>,
    lang: Option<string>)

  /** `entry`: the `ent_seq` number and the children in document order. */
  datatype Entry = Entry(id: u32, kanjiEntries: seq<KanjiEntry>, readingEntries: seq<ReadingEntry>, senses: seq<Sense>)
}

=== FILE: sense.dfy ===
/** The `sense` assembler: one meaning of an entry.  Unknown children and stray text are
    ignored without a warning, and every text the reader cannot decode is unwrapped (a
    panic). */
module SenseElement {
  import opened Wrappers
  import opened Text
  import opened Events
  import opened Entity
  import opened CrossRef
  import opened Records

  /** The leaf element whose text is being read. */
  datatype SenseLeaf = Stagk | Stagr | PartOfSpeech | Xref | Gloss

  datatype SenseState = SenseState(
    leaf: Option<SenseLeaf>,
    onlyKanji: seq<string>,
    onlyReadings: seq<string>,
    partOfSpeech: seq<string>,
    crossRefs: seq<CrossReference>,
    glosses: seq<string>,
    lang: Option<string>)

  const Fresh: SenseState := SenseState(None, [], [], [], [], [], None)

  /** The child elements `sense` knows. */
  predicate IsSenseChild(name: string) {
    name == "stagk" || name == "stagr" || name == "pos" || name == "xref" || name == "gloss"
  }

  // ---------------------------------------------------------------------------
  // The gloss language
  // ---------------------------------------------------------------------------

  /** The values of the `xml:lang` attributes among `attrs`, in order (`None` for a value
      that is not UTF-8). */
  function LangAttributes(attrs: seq<Attribute>): (r: seq<Option<string>>)
    ensures |r| <= |attrs|
  {
    if |attrs| == 0 then []
    else
      (if attrs[0].Attribute? && attrs[0].key == "xml:lang" then [attrs[0].value] else [])
      + LangAttributes(attrs[1..])
  }

  /** The language a sense holds after seeing `values`: the one it had, else the first. */
  function Adopt(lang: Option<string>, values: seq<Option<string>>): (r: Option<string>)
    ensures lang.Some? ==> r == lang
  {
    if lang.Some? || |values| == 0 then lang else values[0]
  }

  /** The language check of one `gloss` start tag: the first `xml:lang` a sense sees sets
      its language and every later one must repeat it; a value that is not UTF-8 is an
      error. */
  function GlossLanguage(attrs: seq<Attribute>, lang: Option<string>): (r: Result<Option<string>, ParseError>)
    ensures r.Success? ==> r.value == Adopt(lang, LangAttributes(attrs))
    ensures r.Failure? ==> r.error == AttributeNotUtf8 || r.error == InconsistentGlossLanguage
    decreases |attrs|
  {
    if |attrs| == 0 then Success(lang)
    else
      var rest := attrs[1..];
      match attrs[0]
      case MalformedAttribute => GlossLanguage(rest, lang)
      case Attribute(key, value) =>
        if key != "xml:lang" then GlossLanguage(rest, lang)
        else if value.None? then Failure(AttributeNotUtf8)
        else
          match lang
          case Some(current) =>
            if current == value.value then GlossLanguage(rest, lang)
            else Failure(InconsistentGlossLanguage)
          case None => GlossLanguage(rest, value)
  }

  /** Every value is present and equal to `v`. */
  predicate AllAre(vs: seq<Option<string>>, v: Option<string>) {
    forall k :: 0 <= k < |vs| ==> vs[k].Some? && vs[k] == v
  }

  /** Prepending a value equal to `v` neither makes nor breaks `AllAre`. */
  lemma AllAreCons(v: Option<string>, tail: seq<Option<string>>)
    requires v.Some?
    ensures AllAre([v] + tail, v) <==> AllAre(tail, v)
  {
    var vs := [v] + tail;
    assert forall k :: 0 <= k < |tail| ==> tail[k] == vs[k + 1];
    if AllAre(tail, v) {
      forall k | 0 <= k < |vs|
        ensures vs[k].Some? && vs[k] == v
      {
        if k > 0 {
          assert vs[k] == tail[k - 1];
        }
      }
    }
  }

  /** An attribute other than `xml:lang` is passed over by both the check and the
      collection of values. */
  lemma SkipOtherAttribute(attrs: seq<Attribute>, lang: Option<string>)
    requires |attrs| > 0 && !(attrs[0].Attribute? && attrs[0].key == "xml:lang")
    ensures GlossLanguage(attrs, lang) == GlossLanguage(attrs[1..], lang)
    ensures LangAttributes(attrs) == LangAttributes(attrs[1..])
  {
    assert [] + LangAttributes(attrs[1..]) == LangAttributes(attrs[1..]);
  }

  /** The check passes exactly when every `xml:lang` value is UTF-8 and equal to the
      language adopted. */
  lemma {:induction false} GlossLanguageAccepts(attrs: seq<Attribute>, lang: Option<string>)
    ensures var vs := LangAttributes(attrs); GlossLanguage(attrs, lang).Success? <==> AllAre(vs, Adopt(lang, vs))
    decreases |attrs|
  {
    if |attrs| > 0 {
      var rest := attrs[1..];
      if !(attrs[0].Attribute? && attrs[0].key == "xml:lang") {
        SkipOtherAttribute(attrs, lang);
        GlossLanguageAccepts(rest, lang);
      } else {
        var value, tail := attrs[0].value, LangAttributes(rest);
        assert LangAttributes(attrs) == [value] + tail;
        if value.None? || (lang.Some? && lang != value) {
          assert !AllAre([value] + tail, Adopt(lang, [value] + tail)) by {
            assert ([value] + tail)[0] == value;
          }
        } else {
          var next := Adopt(lang, [value] + tail);
          assert next == value;
          GlossLanguageAccepts(rest, next);
          AllAreCons(next, tail);
        }
      }
    }
  }

  // ---------------------------------------------------------------------------
  // The transition table
  // ---------------------------------------------------------------------------

  /** The cross-references are all ones the decoder can produce. */
  predicate AllWellFormedRefs(xs: seq<CrossReference>) {
    forall k :: 0 <= k < |xs| ==> WellFormedRef(xs[k])
  }

  /** A child start tag opens its leaf, and a `gloss` also checks its language; any other
      start tag changes nothing. */
  function SenseStart(st: SenseState, name: string, attrs: seq<Attribute>): (r: Result<SenseState, ParseError>)
    ensures r.Success? ==> r.value == st.(leaf := r.value.leaf, lang := r.value.lang)
    ensures r.Success? && st.lang.Some? ==> r.value.lang == st.lang
    ensures !IsSenseChild(name) ==> r == Success(st)
  {
    if name == "stagk" then Success(st.(leaf := Some(Stagk)))
    else if name == "stagr" then Success(st.(leaf := Some(Stagr)))
    else if name == "pos" then Success(st.(leaf := Some(PartOfSpeech)))
    else if name == "xref" then Success(st.(leaf := Some(Xref)))
    else if name == "gloss" then
      var lang :- GlossLanguage(attrs, st.lang);
      Success(st.(leaf := Some(Gloss), lang := lang))
    else Success(st)
  }

  /** The text of the open leaf joins its list; text outside any leaf changes nothing. */
  function SenseText(st: SenseState, raw: string, decoded: Option<string>, pos: nat): (r: Result<SenseState, ParseError>)
    ensures r.Success? ==> r.value.leaf == st.leaf && r.value.lang == st.lang
    ensures r.Success? ==>
      && st.onlyKanji <= r.value.onlyKanji && st.onlyReadings <= r.value.onlyReadings
      && st.partOfSpeech <= r.value.partOfSpeech && st.crossRefs <= r.value.crossRefs && st.glosses <= r.value.glosses
    ensures r.Success? && AllWellFormedRefs(st.crossRefs) ==> AllWellFormedRefs(r.value.crossRefs)
    ensures st.leaf.None? ==> r == Success(st)
    // The text goes to the open leaf's list alone.  `stagk`, `stagr` and `gloss` take the
    // decoded text and panic when there is none; `pos` takes the entity's name or fails
    // with the entity error; `xref` panics on undecodable text and otherwise takes the
    // decoded cross-reference or passes its error on.
    ensures st.leaf == Some(Stagk) ==>
      r == if decoded.None? then Failure(Panic(UndecodableText)) else Success(st.(onlyKanji := st.onlyKanji + [decoded.value]))
    ensures st.leaf == Some(Stagr) ==>
      r == if decoded.None? then Failure(Panic(UndecodableText)) else Success(st.(onlyReadings := st.onlyReadings + [decoded.value]))
    ensures st.leaf == Some(Gloss) ==>
      r == if decoded.None? then Failure(Panic(UndecodableText)) else Success(st.(glosses := st.glosses + [decoded.value]))
    ensures st.leaf == Some(PartOfSpeech) ==>
      && (r.Success? <==> DecodeEntity(raw, pos).Success?)
      && (r.Success? ==> r.value == st.(partOfSpeech := st.partOfSpeech + [DecodeEntity(raw, pos).value]))
      && (r.Failure? ==> r.error == MalformedEntity(pos))
    ensures st.leaf == Some(Xref) && decoded.None? ==> r == Failure(Panic(UndecodableText))
    ensures st.leaf == Some(Xref) && decoded.Some? ==>
      && (r.Success? <==> DecodeCrossRef(decoded.value, pos).Success?)
      && (r.Success? ==> r.value == st.(crossRefs := st.crossRefs + [DecodeCrossRef(decoded.value, pos).value]))
      && (r.Failure? ==> r.error == DecodeCrossRef(decoded.value, pos).error)
  {
    match st.leaf
    case Some(Stagk) =>
      if decoded.None? then Failure(Panic(UndecodableText))
      else Success(st.(onlyKanji := st.onlyKanji + [decoded.value]))
    case Some(Stagr) =>
      if decoded.None? then Failure(Panic(UndecodableText))
      else Success(st.(onlyReadings := st.onlyReadings + [decoded.value]))
    case Some(PartOfSpeech) =>
      var name :- DecodeEntity(raw, pos);
      Success(st.(partOfSpeech := st.partOfSpeech + [name]))
    case Some(Xref) =>
      if decoded.None? then Failure(Panic(UndecodableText))
      else
        var x :- DecodeCrossRef(decoded.value, pos);
        Success(st.(crossRefs := st.crossRefs + [x]))
    case Some(Gloss) =>
      if decoded.None? then Failure(Panic(UndecodableText))
      else Success(st.(glosses := st.glosses + [decoded.value]))
    case None => Success(st)
  }

  /** The transition table of `sense`.  Lists only grow at their ends; once the language is
      set it never changes; an unknown child tag or text outside any leaf changes nothing;
      any end tag other than `</sense>` closes the open leaf; every cross-reference taken in
      is well-formed. */
  function SenseStep(st: SenseState, ev: Event, pos: nat): (r: Result<SenseState, ParseError>)
    ensures r.Success? ==>
      && st.onlyKanji <= r.value.onlyKanji && st.onlyReadings <= r.value.onlyReadings
      && st.partOfSpeech <= r.value.partOfSpeech && st.crossRefs <= r.value.crossRefs && st.glosses <= r.value.glosses
      && (st.lang.Some? ==> r.value.lang == st.lang)
    ensures r.Success? && AllWellFormedRefs(st.crossRefs) ==> AllWellFormedRefs(r.value.crossRefs)
    ensures r.Success? && ev.End? ==> r.value == st.(leaf := None)
    ensures ev.Start? && !IsSenseChild(ev.name) ==> r == Success(st)
    ensures ev.Text? && st.leaf.None? ==> r == Success(st)
    ensures ev.Text? ==> r == SenseText(st, ev.raw, ev.decoded, pos)
  {
    match ev
    case Start(name, attrs) => SenseStart(st, name, attrs)
    case End(_) => Success(st.(leaf := None))
    case Text(raw, decoded) => SenseText(st, raw, decoded, pos)
    case _ => Success(st)
  }

  function SenseOf(st: SenseState): (r: Sense) {
    Sense(st.onlyKanji, st.onlyReadings, st.partOfSpeech, st.crossRefs, st.glosses, st.lang)
  }

  /** Assembles a `sense` whose start tag was the event before index `i`.  A sense raises no
      warnings, and its cross-references are all well-formed. */
  function ParseSense(evs: seq<Event>, i: nat): (r: Result<Parsed<Sense>, ParseError>)
    ensures r.Success? ==> i < r.value.next <= |evs| && evs[r.value.next - 1] == End("sense")
    ensures r.Success? ==> r.value.warnings == [] && AllWellFormedRefs(r.value.value.crossRefs)
  {
    var done :- Run("sense", SenseStep, evs, i, Fresh);
    RunKeepsRefsWellFormed(evs, i, Fresh);
    Success(Parsed(SenseOf(done.0), done.1, []))
  }

  /** The read loop only ever takes in well-formed cross-references. */
  lemma {:induction false} RunKeepsRefsWellFormed(evs: seq<Event>, i: nat, st: SenseState)
    requires AllWellFormedRefs(st.crossRefs)
    ensures Run("sense", SenseStep, evs, i, st).Success? ==> AllWellFormedRefs(Run("sense", SenseStep, evs, i, st).value.0.crossRefs)
    decreases |evs| - i
  {
    if i < |evs| {
      match Dispatch("sense", SenseStep, st, evs[i], i + 1)
      case Continue(s) => RunKeepsRefsWellFormed(evs, i + 1, s);
      case _ =>
    }
  }

  // ---------------------------------------------------------------------------
  // Canonical markup and the round trip
  // ---------------------------------------------------------------------------

  /** The `xml:lang` attribute a gloss carries, if any. */
  function LangAttribute(lang: Option<string>): seq<Attribute> {
    if lang.Some? then [Attribute("xml:lang", lang)] else []
  }

  /** One `<gloss xml:lang="...">text</gloss>` per gloss; `langs[k]` is the language
      written on gloss `k`, if any. */
  function TaggedGlossLeaves(glosses: seq<string>, langs: seq<Option<string>>): (r: seq<Event>)
    requires |glosses| == |langs|
    ensures |r| == 3 * |glosses|
  {
    if |glosses| == 0 then []
    else Leaf("gloss", LangAttribute(langs[0]), glosses[0], Some(glosses[0])) + TaggedGlossLeaves(glosses[1..], langs[1..])
  }

  /** One `<xref>` leaf per cross-reference. */
  function XrefLeaves(xs: seq<CrossReference>): (r: seq<Event>)
    ensures |r| == 3 * |xs|
  {
    if |xs| == 0 then []
    else Leaf("xref", [], Render(xs[0]), Some(Render(xs[0]))) + XrefLeaves(xs[1..])
  }

  /** The language of a run of glosses: the one held before, else the first one written. */
  function FirstLang(lang: Option<string>, langs: seq<Option<string>>): (r: Option<string>)
    ensures lang.Some? ==> r == lang
    decreases |langs|
  {
    if lang.Some? || |langs| == 0 then lang else FirstLang(langs[0], langs[1..])
  }

  /** The run of languages passes the check one gloss at a time: each language written is
      the one the sense holds by then, if it holds one. */
  predicate Agrees(lang: Option<string>, langs: seq<Option<string>>)
    decreases |langs|
  {
    |langs| == 0 || (!(langs[0].Some? && lang.Some? && lang != langs[0]) && Agrees(Adopt(lang, langs), langs[1..]))
  }

  function Repeat(lang: Option<string>, n: nat): (r: seq<Option<string>>)
    ensures |r| == n && forall k :: 0 <= k < n ==> r[k] == lang
  {
    if n == 0 then [] else [lang] + Repeat(lang, n - 1)
  }

  /** A record whose markup the assembler reads back: codes that can be written as entity
      literals, well-formed cross-references, and a language only when some gloss carries
      it. */
  predicate WellFormedSense(s: Sense) {
    AllEntityNames(s.partOfSpeech) && AllWellFormedRefs(s.crossRefs) && (s.lang.Some? ==> |s.glosses| > 0)
  }

  function SenseLists(s: Sense): seq<Event> {
    TextLeaves("stagk", s.onlyKanji) + (TextLeaves("stagr", s.onlyReadings) + (EntityLeaves("pos", s.partOfSpeech) + XrefLeaves(s.crossRefs)))
  }

  /** The children of a `sense`, in schema order, each gloss tagged with the language. */
  function SenseBody(s: Sense): seq<Event> {
    SenseLists(s) + TaggedGlossLeaves(s.glosses, Repeat(s.lang, |s.glosses|))
  }

  /** A `sense` after its start tag: the children and the closing tag. */
  function SenseEvents(s: Sense): seq<Event> {
    SenseBody(s) + [End("sense")]
  }

  /** Each `<stagk>` leaf appends its text to the spellings the sense is restricted to. */
  lemma {:induction false} FeedOnlyKanji(st: SenseState, xs: seq<string>, pos: nat)
    requires st.leaf.None?
    ensures Feed("sense", SenseStep, st, TextLeaves("stagk", xs), pos) == Continue(st.(onlyKanji := st.onlyKanji + xs))
    decreases |xs|
  {
    if |xs| == 0 {
      assert st.onlyKanji + xs == st.onlyKanji;
    } else {
      var s3 := st.(onlyKanji := st.onlyKanji + [xs[0]]);
      AppendCons(st.onlyKanji, xs);
      FeedOnlyKanji(s3, xs[1..], pos + 3);
      OnlyKanjiCons(st, xs, pos, st.(onlyKanji := st.onlyKanji + xs));
    }
  }

  /** The first `<stagk>` leaf appends its value, and the rest carry on from there. */
  lemma OnlyKanjiCons(st: SenseState, xs: seq<string>, pos: nat, fin: SenseState)
    requires st.leaf.None? && |xs| > 0
    requires Feed("sense", SenseStep, st.(onlyKanji := st.onlyKanji + [xs[0]]), TextLeaves("stagk", xs[1..]), pos + 3) == Continue(fin)
    ensures Feed("sense", SenseStep, st, TextLeaves("stagk", xs), pos) == Continue(fin)
  {
    var x := xs[0];
    FeedLeafThen("sense", SenseStep, st, Start("stagk", []), Text(x, Some(x)), End("stagk"), TextLeaves("stagk", xs[1..]), pos,
      st.(leaf := Some(Stagk)), st.(leaf := Some(Stagk), onlyKanji := st.onlyKanji + [x]), st.(leaf := None, onlyKanji := st.onlyKanji + [x]), fin);
  }

  /** Each `<stagr>` leaf appends its text to the readings the sense is restricted to. */
  lemma {:induction false} FeedOnlyReadings(st: SenseState, xs: seq<string>, pos: nat)
    requires st.leaf.None?
    ensures Feed("sense", SenseStep, st, TextLeaves("stagr", xs), pos) == Continue(st.(onlyReadings := st.onlyReadings + xs))
    decreases |xs|
  {
    if |xs| == 0 {
      assert st.onlyReadings + xs == st.onlyReadings;
    } else {
      var s3 := st.(onlyReadings := st.onlyReadings + [xs[0]]);
      AppendCons(st.onlyReadings, xs);
      FeedOnlyReadings(s3, xs[1..], pos + 3);
      OnlyReadingsCons(st, xs, pos, st.(onlyReadings := st.onlyReadings + xs));
    }
  }

  /** The first `<stagr>` leaf appends its value, and the rest carry on from there. */
  lemma OnlyReadingsCons(st: SenseState, xs: seq<string>, pos: nat, fin: SenseState)
    requires st.leaf.None? && |xs| > 0
    requires Feed("sense", SenseStep, st.(onlyReadings := st.onlyReadings + [xs[0]]), TextLeaves("stagr", xs[1..]), pos + 3) == Continue(fin)
    ensures Feed("sense", SenseStep, st, TextLeaves("stagr", xs), pos) == Continue(fin)
  {
    var x := xs[0];
    FeedLeafThen("sense", SenseStep, st, Start("stagr", []), Text(x, Some(x)), End("stagr"), TextLeaves("stagr", xs[1..]), pos,
      st.(leaf := Some(Stagr)), st.(leaf := Some(Stagr), onlyReadings := st.onlyReadings + [x]), st.(leaf := None, onlyReadings := st.onlyReadings + [x]), fin);
  }

  /** One `<pos>` leaf holding an entity reference: open, append the name, close. */
  lemma PartOfSpeechLeafSteps(st: SenseState, n: string, pos: nat)
    requires st.leaf.None? && IsEntityName(n)
    ensures Dispatch("sense", SenseStep, st, Start("pos", []), pos) == Continue(st.(leaf := Some(PartOfSpeech)))
    ensures Dispatch("sense", SenseStep, st.(leaf := Some(PartOfSpeech)), Text(EntityLiteral(n), None), pos + 1) ==
      Continue(st.(leaf := Some(PartOfSpeech), partOfSpeech := st.partOfSpeech + [n]))
    ensures Dispatch("sense", SenseStep, st.(leaf := Some(PartOfSpeech), partOfSpeech := st.partOfSpeech + [n]), End("pos"), pos + 2) ==
      Continue(st.(leaf := None, partOfSpeech := st.partOfSpeech + [n]))
  {
    DecodeEntityLiteral(n, pos + 1);
  }

  /** Each `<pos>` leaf appends its entity name to the parts of speech. */
  lemma {:induction false} FeedPartsOfSpeech(st: SenseState, xs: seq<string>, pos: nat)
    requires st.leaf.None? && AllEntityNames(xs)
    ensures Feed("sense", SenseStep, st, EntityLeaves("pos", xs), pos) == Continue(st.(partOfSpeech := st.partOfSpeech + xs))
    decreases |xs|
  {
    if |xs| == 0 {
      assert st.partOfSpeech + xs == st.partOfSpeech;
    } else {
      var s3 := st.(partOfSpeech := st.partOfSpeech + [xs[0]]);
      AppendCons(st.partOfSpeech, xs);
      FeedPartsOfSpeech(s3, xs[1..], pos + 3);
      PartsOfSpeechCons(st, xs, pos, st.(partOfSpeech := st.partOfSpeech + xs));
    }
  }

  /** The first `<pos>` leaf appends its value, and the rest carry on from there. */
  lemma PartsOfSpeechCons(st: SenseState, xs: seq<string>, pos: nat, fin: SenseState)
    requires st.leaf.None? && |xs| > 0 && IsEntityName(xs[0])
    requires Feed("sense", SenseStep, st.(partOfSpeech := st.partOfSpeech + [xs[0]]), EntityLeaves("pos", xs[1..]), pos + 3) == Continue(fin)
    ensures Feed("sense", SenseStep, st, EntityLeaves("pos", xs), pos) == Continue(fin)
  {
    var x := xs[0];
    PartOfSpeechLeafSteps(st, x, pos);
    FeedLeafThen("sense", SenseStep, st, Start("pos", []), Text(EntityLiteral(x), None), End("pos"), EntityLeaves("pos", xs[1..]), pos,
      st.(leaf := Some(PartOfSpeech)), st.(leaf := Some(PartOfSpeech), partOfSpeech := st.partOfSpeech + [x]), st.(leaf := None, partOfSpeech := st.partOfSpeech + [x]), fin);
  }

  /** One `<xref>` leaf holding a rendered cross-reference: open, append it, close. */
  lemma XrefLeafSteps(st: SenseState, x: CrossReference, pos: nat)
    requires st.leaf.None? && WellFormedRef(x)
    ensures Dispatch("sense", SenseStep, st, Start("xref", []), pos) == Continue(st.(leaf := Some(Xref)))
    ensures Dispatch("sense", SenseStep, st.(leaf := Some(Xref)), Text(Render(x), Some(Render(x))), pos + 1) ==
      Continue(st.(leaf := Some(Xref), crossRefs := st.crossRefs + [x]))
    ensures Dispatch("sense", SenseStep, st.(leaf := Some(Xref), crossRefs := st.crossRefs + [x]), End("xref"), pos + 2) ==
      Continue(st.(leaf := None, crossRefs := st.crossRefs + [x]))
  {
    DecodeRender(x, pos + 1);
  }

  /** Each `<xref>` leaf appends the cross-reference it renders. */
  lemma {:induction false} FeedCrossRefs(st: SenseState, xs: seq<CrossReference>, pos: nat)
    requires st.leaf.None? && AllWellFormedRefs(xs)
    ensures Feed("sense", SenseStep, st, XrefLeaves(xs), pos) == Continue(st.(crossRefs := st.crossRefs + xs))
    decreases |xs|
  {
    if |xs| == 0 {
      assert st.crossRefs + xs == st.crossRefs;
    } else {
      var s3 := st.(crossRefs := st.crossRefs + [xs[0]]);
      AppendCons(st.crossRefs, xs);
      FeedCrossRefs(s3, xs[1..], pos + 3);
      CrossRefsCons(st, xs, pos, st.(crossRefs := st.crossRefs + xs));
    }
  }

  /** The first `<xref>` leaf appends its value, and the rest carry on from there. */
  lemma CrossRefsCons(st: SenseState, xs: seq<CrossReference>, pos: nat, fin: SenseState)
    requires st.leaf.None? && |xs| > 0 && WellFormedRef(xs[0])
    requires Feed("sense", SenseStep, st.(crossRefs := st.crossRefs + [xs[0]]), XrefLeaves(xs[1..]), pos + 3) == Continue(fin)
    ensures Feed("sense", SenseStep, st, XrefLeaves(xs), pos) == Continue(fin)
  {
    var x := xs[0];
    XrefLeafSteps(st, x, pos);
    FeedLeafThen("sense", SenseStep, st, Start("xref", []), Text(Render(x), Some(Render(x))), End("xref"), XrefLeaves(xs[1..]), pos,
      st.(leaf := Some(Xref)), st.(leaf := Some(Xref), crossRefs := st.crossRefs + [x]), st.(leaf := None, crossRefs := st.crossRefs + [x]), fin);
  }

  /** The language check of a gloss carrying at most one `xml:lang`. */
  lemma GlossLanguageOfTag(lang: Option<string>, tag: Option<string>)
    ensures GlossLanguage(LangAttribute(tag), lang) ==
      if tag.Some? && lang.Some? && lang != tag then Failure(InconsistentGlossLanguage)
      else Success(Adopt(lang, [tag]))
  {
    if tag.Some? {
      var attrs := LangAttribute(tag);
      assert attrs[1..] == [];
    }
  }

  /** Peeling the first gloss off a run keeps the run's language. */
  lemma FirstLangCons(lang: Option<string>, langs: seq<Option<string>>)
    requires |langs| > 0
    ensures FirstLang(lang, langs) == FirstLang(Adopt(lang, langs), langs[1..])
  {
    if lang.Some? {
      assert FirstLang(lang, langs[1..]) == lang;
    }
  }

  /** The check passes exactly when every language written on a gloss is the language of
      the run. */
  lemma {:induction false} AgreesIff(lang: Option<string>, langs: seq<Option<string>>)
    ensures Agrees(lang, langs) <==> forall k :: 0 <= k < |langs| && langs[k].Some? ==> langs[k] == FirstLang(lang, langs)
    decreases |langs|
  {
    if |langs| > 0 {
      var next, rest := Adopt(lang, langs), langs[1..];
      AgreesIff(next, rest);
      FirstLangCons(lang, langs);
      assert next.Some? ==> FirstLang(next, rest) == next;
      assert forall k :: 0 <= k < |rest| ==> rest[k] == langs[k + 1];
      if langs[0].Some? && lang.Some? && lang != langs[0] {
        assert langs[0] != FirstLang(lang, langs);
      } else if forall k :: 0 <= k < |rest| && rest[k].Some? ==> rest[k] == FirstLang(next, rest) {
        forall k | 0 <= k < |langs| && langs[k].Some?
          ensures langs[k] == FirstLang(lang, langs)
        {
          if k > 0 {
            assert rest[k - 1] == langs[k];
          }
        }
      } else {
        var k :| 0 <= k < |rest| && rest[k].Some? && rest[k] != FirstLang(next, rest);
        assert langs[k + 1] == rest[k];
      }
    }
  }

  /** A first gloss whose language the sense accepts is taken in, and the rest follow. */
  lemma GlossCons(st: SenseState, glosses: seq<string>, langs: seq<Option<string>>, pos: nat)
    requires st.leaf.None? && |glosses| == |langs| > 0 && !(langs[0].Some? && st.lang.Some? && st.lang != langs[0])
    ensures Feed("sense", SenseStep, st, TaggedGlossLeaves(glosses, langs), pos) ==
      Feed("sense", SenseStep, st.(glosses := st.glosses + [glosses[0]], lang := Adopt(st.lang, langs)),
           TaggedGlossLeaves(glosses[1..], langs[1..]), pos + 3)
  {
    var g, lang := glosses[0], Adopt(st.lang, langs);
    GlossLanguageOfTag(st.lang, langs[0]);
    FeedLeafAny("sense", SenseStep, st, Start("gloss", LangAttribute(langs[0])), Text(g, Some(g)), End("gloss"),
      TaggedGlossLeaves(glosses[1..], langs[1..]), pos,
      st.(leaf := Some(Gloss), lang := lang), st.(leaf := Some(Gloss), lang := lang, glosses := st.glosses + [g]),
      st.(leaf := None, lang := lang, glosses := st.glosses + [g]));
  }

  /** A first gloss in a language other than the sense's is rejected on its start tag. */
  lemma GlossClash(st: SenseState, glosses: seq<string>, langs: seq<Option<string>>, pos: nat)
    requires st.leaf.None? && |glosses| == |langs| > 0 && langs[0].Some? && st.lang.Some? && st.lang != langs[0]
    ensures !Agrees(st.lang, langs)
    ensures Feed("sense", SenseStep, st, TaggedGlossLeaves(glosses, langs), pos) == Abort(InconsistentGlossLanguage)
  {
    GlossLanguageOfTag(st.lang, langs[0]);
    FeedAbortsLeaf("sense", SenseStep, st, Start("gloss", LangAttribute(langs[0])), Text(glosses[0], Some(glosses[0])), End("gloss"),
      TaggedGlossLeaves(glosses[1..], langs[1..]), pos, InconsistentGlossLanguage);
  }

  /** A run of glosses: the first language written sets the sense's language (unless it has
      one already), glosses without one leave it alone, and a different language written
      later is an error. */
  lemma {:induction false} FeedGlosses(st: SenseState, glosses: seq<string>, langs: seq<Option<string>>, pos: nat)
    requires st.leaf.None? && |glosses| == |langs|
    ensures Feed("sense", SenseStep, st, TaggedGlossLeaves(glosses, langs), pos) ==
      if Agrees(st.lang, langs) then Continue(st.(glosses := st.glosses + glosses, lang := FirstLang(st.lang, langs)))
      else Abort(InconsistentGlossLanguage)
    decreases |glosses|
  {
    hide SenseStep, GlossLanguage;
    if |glosses| == 0 {
      assert st.glosses + glosses == st.glosses;
    } else if langs[0].Some? && st.lang.Some? && st.lang != langs[0] {
      GlossClash(st, glosses, langs, pos);
    } else {
      var s3 := st.(glosses := st.glosses + [glosses[0]], lang := Adopt(st.lang, langs));
      GlossCons(st, glosses, langs, pos);
      FeedGlosses(s3, glosses[1..], langs[1..], pos + 3);
      FirstLangCons(st.lang, langs);
      assert s3.glosses + glosses[1..] == st.glosses + glosses;
    }
  }

  /** Glosses all tagged alike agree, and the run's language is theirs. */
  lemma {:induction false} UniformAgrees(cur: Option<string>, lang: Option<string>, n: nat)
    requires cur.None? || cur == lang
    ensures Agrees(cur, Repeat(lang, n))
    ensures FirstLang(cur, Repeat(lang, n)) == if n == 0 then cur else lang
    decreases n
  {
    if n > 0 {
      var langs := Repeat(lang, n);
      assert langs[0] == lang && langs[1..] == Repeat(lang, n - 1);
      UniformAgrees(Adopt(cur, langs), lang, n - 1);
    }
  }

  /** A sense's glosses, all tagged with its language, leave that language in place. */
  lemma FeedUniformGlosses(st: SenseState, s: Sense, pos: nat)
    requires st.leaf.None? && st.lang.None? && (s.lang.Some? ==> |s.glosses| > 0)
    ensures Feed("sense", SenseStep, st, TaggedGlossLeaves(s.glosses, Repeat(s.lang, |s.glosses|)), pos) ==
      Continue(st.(glosses := st.glosses + s.glosses, lang := s.lang))
  {
    FeedGlosses(st, s.glosses, Repeat(s.lang, |s.glosses|), pos);
    UniformAgrees(None, s.lang, |s.glosses|);
  }

  /** The part-of-speech codes and the cross-references, in that order. */
  lemma FeedCodesAndRefs(st: SenseState, s: Sense, pos: nat)
    requires st.leaf.None? && AllEntityNames(s.partOfSpeech) && AllWellFormedRefs(s.crossRefs)
    ensures Feed("sense", SenseStep, st, EntityLeaves("pos", s.partOfSpeech) + XrefLeaves(s.crossRefs), pos) ==
      Continue(st.(partOfSpeech := st.partOfSpeech + s.partOfSpeech, crossRefs := st.crossRefs + s.crossRefs))
  {
    hide *;
    var c := EntityLeaves("pos", s.partOfSpeech);
    var s1 := st.(partOfSpeech := st.partOfSpeech + s.partOfSpeech);
    FeedPartsOfSpeech(st, s.partOfSpeech, pos);
    FeedCrossRefs(s1, s.crossRefs, pos + |c|);
    assert s1.(crossRefs := s1.crossRefs + s.crossRefs) == st.(partOfSpeech := st.partOfSpeech + s.partOfSpeech, crossRefs := st.crossRefs + s.crossRefs);
    FeedThen("sense", SenseStep, st, c, XrefLeaves(s.crossRefs), pos, s1, s1.(crossRefs := s1.crossRefs + s.crossRefs));
  }

  /** The reading restrictions, then the codes and the cross-references. */
  lemma FeedReadingsCodesAndRefs(st: SenseState, s: Sense, pos: nat)
    requires st.leaf.None? && AllEntityNames(s.partOfSpeech) && AllWellFormedRefs(s.crossRefs)
    ensures Feed("sense", SenseStep, st, TextLeaves("stagr", s.onlyReadings) + (EntityLeaves("pos", s.partOfSpeech) + XrefLeaves(s.crossRefs)), pos) ==
      Continue(st.(onlyReadings := st.onlyReadings + s.onlyReadings,
                   partOfSpeech := st.partOfSpeech + s.partOfSpeech, crossRefs := st.crossRefs + s.crossRefs))
  {
    hide *;
    var b := TextLeaves("stagr", s.onlyReadings);
    var s1 := st.(onlyReadings := st.onlyReadings + s.onlyReadings);
    var s2 := s1.(partOfSpeech := s1.partOfSpeech + s.partOfSpeech, crossRefs := s1.crossRefs + s.crossRefs);
    assert s2 == st.(onlyReadings := st.onlyReadings + s.onlyReadings,
                     partOfSpeech := st.partOfSpeech + s.partOfSpeech, crossRefs := st.crossRefs + s.crossRefs);
    FeedOnlyReadings(st, s.onlyReadings, pos);
    FeedCodesAndRefs(s1, s, pos + |b|);
    FeedThen("sense", SenseStep, st, b, EntityLeaves("pos", s.partOfSpeech) + XrefLeaves(s.crossRefs), pos, s1, s2);
  }

  /** The restrictions, the codes and the cross-references, in schema order. */
  lemma FeedSenseLists(st: SenseState, s: Sense, pos: nat)
    requires st.leaf.None? && AllEntityNames(s.partOfSpeech) && AllWellFormedRefs(s.crossRefs)
    ensures Feed("sense", SenseStep, st, SenseLists(s), pos) ==
      Continue(st.(onlyKanji := st.onlyKanji + s.onlyKanji, onlyReadings := st.onlyReadings + s.onlyReadings,
                   partOfSpeech := st.partOfSpeech + s.partOfSpeech, crossRefs := st.crossRefs + s.crossRefs))
  {
    var a := TextLeaves("stagk", s.onlyKanji);
    var rest := TextLeaves("stagr", s.onlyReadings) + (EntityLeaves("pos", s.partOfSpeech) + XrefLeaves(s.crossRefs));
    var s1 := st.(onlyKanji := st.onlyKanji + s.onlyKanji);
    var s2 := s1.(onlyReadings := s1.onlyReadings + s.onlyReadings,
                  partOfSpeech := s1.partOfSpeech + s.partOfSpeech, crossRefs := s1.crossRefs + s.crossRefs);
    assert s2 == st.(onlyKanji := st.onlyKanji + s.onlyKanji, onlyReadings := st.onlyReadings + s.onlyReadings,
                     partOfSpeech := st.partOfSpeech + s.partOfSpeech, crossRefs := st.crossRefs + s.crossRefs);
    FeedOnlyKanji(st, s.onlyKanji, pos);
    FeedReadingsCodesAndRefs(s1, s, pos + |a|);
    FeedThen("sense", SenseStep, st, a, rest, pos, s1, s2);
  }

  /** The lists of a sense, from the fresh state: exactly the record's lists. */
  lemma FeedFreshLists(s: Sense, pos: nat)
    requires AllEntityNames(s.partOfSpeech) && AllWellFormedRefs(s.crossRefs)
    ensures Feed("sense", SenseStep, Fresh, SenseLists(s), pos) ==
      Continue(SenseState(None, s.onlyKanji, s.onlyReadings, s.partOfSpeech, s.crossRefs, [], None))
  {
    FeedSenseLists(Fresh, s, pos);
    assert [] + s.onlyKanji == s.onlyKanji && [] + s.onlyReadings == s.onlyReadings;
    assert [] + s.partOfSpeech == s.partOfSpeech && [] + s.crossRefs == s.crossRefs;
  }

  /** The glosses of a sense, after its lists. */
  lemma FeedGlossesAfterLists(s: Sense, pos: nat)
    requires s.lang.Some? ==> |s.glosses| > 0
    ensures Feed("sense", SenseStep, SenseState(None, s.onlyKanji, s.onlyReadings, s.partOfSpeech, s.crossRefs, [], None),
                 TaggedGlossLeaves(s.glosses, Repeat(s.lang, |s.glosses|)), pos) ==
      Continue(SenseState(None, s.onlyKanji, s.onlyReadings, s.partOfSpeech, s.crossRefs, s.glosses, s.lang))
  {
    FeedUniformGlosses(SenseState(None, s.onlyKanji, s.onlyReadings, s.partOfSpeech, s.crossRefs, [], None), s, pos);
    assert [] + s.glosses == s.glosses;
  }

  /** All children of a sense, from the fresh state: exactly the record's fields. */
  lemma FeedSenseBody(s: Sense, pos: nat)
    requires WellFormedSense(s)
    ensures Feed("sense", SenseStep, Fresh, SenseBody(s), pos) ==
      Continue(SenseState(None, s.onlyKanji, s.onlyReadings, s.partOfSpeech, s.crossRefs, s.glosses, s.lang))
  {
    hide Feed, SenseStep, SenseLists, TaggedGlossLeaves;
    var lists := SenseLists(s);
    FeedFreshLists(s, pos);
    FeedGlossesAfterLists(s, pos + |lists|);
    FeedThen("sense", SenseStep, Fresh, lists, TaggedGlossLeaves(s.glosses, Repeat(s.lang, |s.glosses|)), pos,
      SenseState(None, s.onlyKanji, s.onlyReadings, s.partOfSpeech, s.crossRefs, [], None),
      SenseState(None, s.onlyKanji, s.onlyReadings, s.partOfSpeech, s.crossRefs, s.glosses, s.lang));
  }

  /** Reading the canonical markup of `s` from the fresh state. */
  lemma ParseSenseBody(evs: seq<Event>, i: nat, s: Sense)
    requires At(evs, i, SenseEvents(s)) && WellFormedSense(s)
    ensures Run("sense", SenseStep, evs, i, Fresh) == Success((SenseState(None, s.onlyKanji, s.onlyReadings, s.partOfSpeech, s.crossRefs, s.glosses, s.lang), i + |SenseEvents(s)|))
  {
    FeedSenseBody(s, i + 1);
    RunClosesAfter("sense", SenseStep, evs, i, Fresh, SenseBody(s), SenseState(None, s.onlyKanji, s.onlyReadings, s.partOfSpeech, s.crossRefs, s.glosses, s.lang));
  }

  /** The round trip: a well-formed sense survives being written out and read back. */
  lemma ParseSenseRoundTrip(evs: seq<Event>, i: nat, s: Sense)
    requires At(evs, i, SenseEvents(s)) && WellFormedSense(s)
    ensures ParseSense(evs, i) == Success(Parsed(s, i + |SenseEvents(s)|, []))
  {
    ParseSenseBody(evs, i, s);
  }

  /** Glosses alone that agree on their language, from the fresh state. */
  lemma FeedAgreeingGlosses(glosses: seq<string>, langs: seq<Option<string>>, pos: nat)
    requires |glosses| == |langs| && Agrees(None, langs)
    ensures Feed("sense", SenseStep, Fresh, TaggedGlossLeaves(glosses, langs), pos) ==
      Continue(SenseState(None, [], [], [], [], glosses, FirstLang(None, langs)))
  {
    FeedGlosses(Fresh, glosses, langs, pos);
    assert Fresh.glosses + glosses == glosses;
  }

  /** A sense of glosses alone that agree on their language is read with that language. */
  lemma ParseAgreeingGlosses(evs: seq<Event>, i: nat, glosses: seq<string>, langs: seq<Option<string>>)
    requires |glosses| == |langs| && Agrees(None, langs)
    requires At(evs, i, TaggedGlossLeaves(glosses, langs) + [End("sense")])
    ensures ParseSense(evs, i) ==
      Success(Parsed(Sense([], [], [], [], glosses, FirstLang(None, langs)), i + |TaggedGlossLeaves(glosses, langs)| + 1, []))
  {
    var fin := SenseState(None, [], [], [], [], glosses, FirstLang(None, langs));
    FeedAgreeingGlosses(glosses, langs, i + 1);
    RunClosesAfter("sense", SenseStep, evs, i, Fresh, TaggedGlossLeaves(glosses, langs), fin);
  }

  /** A sense of glosses alone that disagree on their language is rejected. */
  lemma ParseClashingGlosses(evs: seq<Event>, i: nat, glosses: seq<string>, langs: seq<Option<string>>)
    requires |glosses| == |langs| && !Agrees(None, langs)
    requires At(evs, i, TaggedGlossLeaves(glosses, langs) + [End("sense")])
    ensures ParseSense(evs, i) == Failure(InconsistentGlossLanguage)
  {
    FeedGlosses(Fresh, glosses, langs, i + 1);
    RunAbortsIn("sense", SenseStep, evs, i, Fresh, TaggedGlossLeaves(glosses, langs), [End("sense")], InconsistentGlossLanguage);
  }

  /** A sense of glosses alone: it is read with the language of the first tagged gloss, or
      rejected when two tagged glosses disagree. */
  lemma ParseGlossLanguages(evs: seq<Event>, i: nat, glosses: seq<string>, langs: seq<Option<string>>)
    requires |glosses| == |langs|
    requires At(evs, i, TaggedGlossLeaves(glosses, langs) + [End("sense")])
    ensures ParseSense(evs, i) ==
      if Agrees(None, langs) then Success(Parsed(Sense([], [], [], [], glosses, FirstLang(None, langs)), i + |TaggedGlossLeaves(glosses, langs)| + 1, []))
      else Failure(InconsistentGlossLanguage)
  {
    if Agrees(None, langs) {
      ParseAgreeingGlosses(evs, i, glosses, langs);
    } else {
      ParseClashingGlosses(evs, i, glosses, langs);
    }
  }

  /** Two glosses tagged `eng` give a sense in `eng`; `eng` then `fre` is rejected. */
  lemma GlossLanguageExamples(evs: seq<Event>, i: nat)
    ensures var same := TaggedGlossLeaves(["to eat", "to consume"], [Some("eng"), Some("eng")]) + [End("sense")];
      At(evs, i, same) ==> ParseSense(evs, i) == Success(Parsed(Sense([], [], [], [], ["to eat", "to consume"], Some("eng")), i + 7, []))
    ensures var mixed := TaggedGlossLeaves(["to eat", "manger"], [Some("eng"), Some("fre")]) + [End("sense")];
      At(evs, i, mixed) ==> ParseSense(evs, i) == Failure(InconsistentGlossLanguage)
  {
    var same := [Some("eng"), Some("eng")];
    var mixed := [Some("eng"), Some("fre")];
    assert FirstLang(None, same) == Some("eng");
    assert FirstLang(None, mixed) == Some("eng");
    assert same[1..] == [Some("eng")] && mixed[1..] == [Some("fre")];
    assert Agrees(None, same);
    assert !Agrees(None, mixed);
    if At(evs, i, TaggedGlossLeaves(["to eat", "to consume"], same) + [End("sense")]) {
      ParseGlossLanguages(evs, i, ["to eat", "to consume"], same);
    }
    if At(evs, i, TaggedGlossLeaves(["to eat", "manger"], mixed) + [End("sense")]) {
      ParseGlossLanguages(evs, i, ["to eat", "manger"], mixed);
    }
  }

  /** Skipping an unknown child with text in it leaves the fresh state as it was. */
  lemma RunPastUnknownChild(evs: seq<Event>, i: nat, s: Sense, tag: string, attrs: seq<Attribute>, raw: string, decoded: Option<string>)
    requires !IsSenseChild(tag) && tag != "sense" && WellFormedSense(s)
    requires At(evs, i, [Start(tag, attrs), Text(raw, decoded), End(tag)] + SenseEvents(s))
    ensures Run("sense", SenseStep, evs, i, Fresh) ==
      Success((SenseState(None, s.onlyKanji, s.onlyReadings, s.partOfSpeech, s.crossRefs, s.glosses, s.lang), i + 3 + |SenseEvents(s)|))
  {
    hide Feed, Run, SenseText, SenseStart;
    var junk := [Start(tag, attrs), Text(raw, decoded), End(tag)];
    FeedThree("sense", SenseStep, Fresh, Start(tag, attrs), Text(raw, decoded), End(tag), i + 1, Fresh, Fresh, Fresh);
    FeedSenseBody(s, i + |junk| + 1);
    RunClosesAfterTwo("sense", SenseStep, evs, i, Fresh, junk, SenseBody(s), Fresh,
      SenseState(None, s.onlyKanji, s.onlyReadings, s.partOfSpeech, s.crossRefs, s.glosses, s.lang));
  }

  /** Unknown children and stray text inside a sense are ignored without a warning. */
  lemma UnknownChildIgnored(evs: seq<Event>, i: nat, s: Sense, tag: string, attrs: seq<Attribute>, raw: string, decoded: Option<string>)
    requires !IsSenseChild(tag) && tag != "sense" && WellFormedSense(s)
    requires At(evs, i, [Start(tag, attrs), Text(raw, decoded), End(tag)] + SenseEvents(s))
    ensures ParseSense(evs, i) == Success(Parsed(s, i + 3 + |SenseEvents(s)|, []))
  {
    RunPastUnknownChild(evs, i, s, tag, attrs, raw, decoded);
  }

  // ---------------------------------------------------------------------------
  // Errors inside a sense, for every input
  // ---------------------------------------------------------------------------

  /** A child's text that the open leaf cannot take in fails the whole sense.  `pre` is
      whatever the sense held before that child, as long as it leaves the sense open (in
      state `st`); what follows the text does not matter. */
  lemma LeafTextFails(evs: seq<Event>, i: nat, pre: seq<Event>, st: SenseState, tag: string, attrs: seq<Attribute>, raw: string, decoded: Option<string>)
    requires At(evs, i, pre + [Start(tag, attrs), Text(raw, decoded)])
    requires Feed("sense", SenseStep, Fresh, pre, i + 1) == Continue(st)
    requires SenseStart(st, tag, attrs).Success?
    requires SenseText(SenseStart(st, tag, attrs).value, raw, decoded, i + |pre| + 2).Failure?
    ensures ParseSense(evs, i) == Failure(SenseText(SenseStart(st, tag, attrs).value, raw, decoded, i + |pre| + 2).error)
  {
    hide SenseStart, SenseText;
    var pos := i + |pre| + 1;
    var child := [Start(tag, attrs), Text(raw, decoded)];
    var open := SenseStart(st, tag, attrs).value;
    var e := SenseText(open, raw, decoded, pos + 1).error;
    assert Dispatch("sense", SenseStep, st, child[0], pos) == Continue(open);
    assert Dispatch("sense", SenseStep, open, child[1], pos + 1) == Abort(e);
    assert Feed("sense", SenseStep, st, child, pos) == Abort(e) by {
      assert child[1..] == [Text(raw, decoded)];
    }
    FeedAppend("sense", SenseStep, Fresh, pre, child, i + 1);
    assert pre + child == (pre + child) + [];
    RunAbortsIn("sense", SenseStep, evs, i, Fresh, pre + child, [], e);
  }

  /** A `gloss` start tag whose language check fails fails the whole sense with that
      error, whatever came before it and whatever follows. */
  lemma GlossStartFails(evs: seq<Event>, i: nat, pre: seq<Event>, st: SenseState, attrs: seq<Attribute>)
    requires At(evs, i, pre + [Start("gloss", attrs)])
    requires Feed("sense", SenseStep, Fresh, pre, i + 1) == Continue(st)
    requires GlossLanguage(attrs, st.lang).Failure?
    ensures ParseSense(evs, i) == Failure(GlossLanguage(attrs, st.lang).error)
  {
    var e := GlossLanguage(attrs, st.lang).error;
    assert Feed("sense", SenseStep, st, [Start("gloss", attrs)], i + |pre| + 1) == Abort(e);
    FeedAppend("sense", SenseStep, Fresh, pre, [Start("gloss", attrs)], i + 1);
    assert pre + [Start("gloss", attrs)] == (pre + [Start("gloss", attrs)]) + [];
    RunAbortsIn("sense", SenseStep, evs, i, Fresh, pre + [Start("gloss", attrs)], [], e);
  }

  /** Text the reader cannot decode inside `stagk`, `stagr`, `xref` or `gloss` is
      unwrapped: the sense panics. */
  lemma UndecodableLeafPanics(evs: seq<Event>, i: nat, pre: seq<Event>, st: SenseState, tag: string, raw: string)
    requires tag == "stagk" || tag == "stagr" || tag == "xref" || tag == "gloss"
    requires At(evs, i, pre + [Start(tag, []), Text(raw, None)])
    requires Feed("sense", SenseStep, Fresh, pre, i + 1) == Continue(st)
    ensures ParseSense(evs, i) == Failure(Panic(UndecodableText))
  {
    LeafTextFails(evs, i, pre, st, tag, [], raw, None);
  }

  /** Text inside `pos` that is not an entity code fails the sense with the entity error
      at the text's position. */
  lemma PartOfSpeechEntityFails(evs: seq<Event>, i: nat, pre: seq<Event>, st: SenseState, attrs: seq<Attribute>, raw: string, decoded: Option<string>)
    requires At(evs, i, pre + [Start("pos", attrs), Text(raw, decoded)])
    requires Feed("sense", SenseStep, Fresh, pre, i + 1) == Continue(st)
    requires DecodeEntity(raw, i + |pre| + 2).Failure?
    ensures ParseSense(evs, i) == Failure(MalformedEntity(i + |pre| + 2))
  {
    LeafTextFails(evs, i, pre, st, "pos", attrs, raw, decoded);
  }

  /** Decoded text inside `xref` that the cross-reference decoder refuses fails the sense
      with the decoder's error or panic. */
  lemma CrossRefFails(evs: seq<Event>, i: nat, pre: seq<Event>, st: SenseState, attrs: seq<Attribute>, raw: string, t: string)
    requires At(evs, i, pre + [Start("xref", attrs), Text(raw, Some(t))])
    requires Feed("sense", SenseStep, Fresh, pre, i + 1) == Continue(st)
    requires DecodeCrossRef(t, i + |pre| + 2).Failure?
    ensures ParseSense(evs, i) == Failure(DecodeCrossRef(t, i + |pre| + 2).error)
  {
    LeafTextFails(evs, i, pre, st, "xref", attrs, raw, Some(t));
  }

  // ---------------------------------------------------------------------------
  // The unit test of src/main.rs
  // ---------------------------------------------------------------------------

  /** Indentation text between children: outside any leaf, so it changes nothing. */
  lemma FeedBlank(st: SenseState, t: string, pos: nat)
    requires st.leaf.None?
    ensures Feed("sense", SenseStep, st, [Text(t, Some(t))], pos) == Continue(st)
  {
    FeedOne("sense", SenseStep, st, Text(t, Some(t)), pos, st);
  }

  /** One `<stagk>` leaf appends its text. */
  lemma FeedStagk(st: SenseState, t: string, pos: nat)
    requires st.leaf.None?
    ensures Feed("sense", SenseStep, st, Leaf("stagk", [], t, Some(t)), pos) == Continue(st.(onlyKanji := st.onlyKanji + [t]))
  {
    FeedOnlyKanji(st, [t], pos);
    assert [t][1..] == [];
    assert TextLeaves("stagk", [t]) == Leaf("stagk", [], t, Some(t)) + TextLeaves("stagk", []);
    assert Leaf("stagk", [], t, Some(t)) + [] == Leaf("stagk", [], t, Some(t));
  }

  /** One `<gloss>` leaf without a language appends its text and leaves the language
      unset. */
  lemma FeedGloss(st: SenseState, t: string, pos: nat)
    requires st.leaf.None? && st.lang.None?
    ensures Feed("sense", SenseStep, st, Leaf("gloss", [], t, Some(t)), pos) == Continue(st.(glosses := st.glosses + [t]))
  {
    var none: seq<Option<string>> := [None];
    FeedGlosses(st, [t], none, pos);
    assert [t][1..] == [] && none[1..] == [];
    assert TaggedGlossLeaves([t], none) == Leaf("gloss", [], t, Some(t)) + TaggedGlossLeaves([], []);
    assert Leaf("gloss", [], t, Some(t)) + [] == Leaf("gloss", [], t, Some(t));
    assert Agrees(None, none) && FirstLang(None, none) == None;
  }

  const Indent: string := "\n                 "

  /** The children of the test's `sense`, each line indented. */
  function TestSenseBody(): (r: seq<Event>)
    ensures |r| == 17
  {
    var w := [Text(Indent, Some(Indent))];
    w + Leaf("stagk", [], "延べる", Some("延べる")) + w + Leaf("stagk", [], "伸べる", Some("伸べる"))
      + w + Leaf("gloss", [], "to postpone", Some("to postpone"))
      + w + Leaf("gloss", [], "to extend", Some("to extend")) + w
  }

  /** The unit test's document: two `<stagk>` spellings and two glosses without a language,
      read back in order, with no language and nothing else. */
  lemma TestParseSense()
    ensures ParseSense(TestSenseBody() + [End("sense")], 0) ==
      Success(Parsed(Sense(["延べる", "伸べる"], [], [], [], ["to postpone", "to extend"], None), 18, []))
  {
    hide Feed, SenseStep, Run, At;
    var w := [Text(Indent, Some(Indent))];
    var l1 := Leaf("stagk", [], "延べる", Some("延べる"));
    var l2 := Leaf("stagk", [], "伸べる", Some("伸べる"));
    var g1 := Leaf("gloss", [], "to postpone", Some("to postpone"));
    var g2 := Leaf("gloss", [], "to extend", Some("to extend"));
    var a := Fresh.(onlyKanji := ["延べる"]);
    var b := Fresh.(onlyKanji := ["延べる", "伸べる"]);
    var c := b.(glosses := ["to postpone"]);
    var d := b.(glosses := ["to postpone", "to extend"]);
    FeedBlank(Fresh, Indent, 1);
    FeedStagk(Fresh, "延べる", 2);
    assert Fresh.(onlyKanji := Fresh.onlyKanji + ["延べる"]) == a;
    FeedThen("sense", SenseStep, Fresh, w, l1, 1, Fresh, a);
    FeedBlank(a, Indent, 5);
    FeedThen("sense", SenseStep, Fresh, w + l1, w, 1, a, a);
    FeedStagk(a, "伸べる", 6);
    assert a.(onlyKanji := a.onlyKanji + ["伸べる"]) == b;
    FeedThen("sense", SenseStep, Fresh, w + l1 + w, l2, 1, a, b);
    FeedBlank(b, Indent, 9);
    FeedThen("sense", SenseStep, Fresh, w + l1 + w + l2, w, 1, b, b);
    FeedGloss(b, "to postpone", 10);
    assert b.(glosses := b.glosses + ["to postpone"]) == c;
    FeedThen("sense", SenseStep, Fresh, w + l1 + w + l2 + w, g1, 1, b, c);
    FeedBlank(c, Indent, 13);
    FeedThen("sense", SenseStep, Fresh, w + l1 + w + l2 + w + g1, w, 1, c, c);
    FeedGloss(c, "to extend", 14);
    assert c.(glosses := c.glosses + ["to extend"]) == d;
    FeedThen("sense", SenseStep, Fresh, w + l1 + w + l2 + w + g1 + w, g2, 1, c, d);
    FeedBlank(d, Indent, 17);
    FeedThen("sense", SenseStep, Fresh, w + l1 + w + l2 + w + g1 + w + g2, w, 1, d, d);
    var evs := TestSenseBody() + [End("sense")];
    AtWithin([], evs, []);
    assert [] + evs + [] == evs;
    RunClosesAfter("sense", SenseStep, evs, 0, Fresh, TestSenseBody(), d);
  }
}

=== FILE: text.dfy ===
/** String helpers the parser relies on: Rust's `str::trim`, `u32::from_str` and
    decimal digits. */
module Text {
  import opened Wrappers

  type u8 = x: int | 0 <= x < 0x100
  type u32 = x: int | 0 <= x < 0x1_0000_0000

  // ---------------------------------------------------------------------------
  // Whitespace and trimming
  // ---------------------------------------------------------------------------

  /** Rust's `char::is_whitespace`: the Unicode White_Space property. */
  predicate IsWhitespace(c: char) {
    ('\U{9}' <= c <= '\U{D}') || c == ' ' || c == '\U{85}' || c == '\U{A0}' || c == '\U{1680}'
    || ('\U{2000}' <= c <= '\U{200A}') || c == '\U{2028}' || c == '\U{2029}'
    || c == '\U{202F}' || c == '\U{205F}' || c == '\U{3000}'
  }

  function TrimStart(s: string): (r: string)
    ensures |r| <= |s|
    ensures r == s[|s| - |r|..]
    ensures |r| > 0 ==> !IsWhitespace(r[0])
    ensures |s| > 0 && IsWhitespace(s[0]) ==> |r| < |s|
  {
    if |s| > 0 && IsWhitespace(s[0]) then TrimStart(s[1..]) else s
  }

  function TrimEnd(s: string): (r: string)
    ensures |r| <= |s|
    ensures r == s[..|r|]
    ensures |r| > 0 ==> !IsWhitespace(r[|r| - 1])
    ensures |s| > 0 && IsWhitespace(s[|s| - 1]) ==> |r| < |s|
  {
    if |s| > 0 && IsWhitespace(s[|s| - 1]) then TrimEnd(s[..|s| - 1]) else s
  }

  /** Rust's `str::trim`: drops leading and trailing whitespace. */
  function Trim(s: string): (r: string)
    ensures |r| <= |s| && (|r| > 0 ==> IsKey(r))
  {
    TrimEnd(TrimStart(s))
  }

  /** A headword or reading text a record accepts: non-empty, no whitespace at either end. */
  predicate IsKey(s: string) {
    |s| > 0 && !IsWhitespace(s[0]) && !IsWhitespace(s[|s| - 1])
  }

  /** A key survives `trim()` unchanged exactly when it is empty or neither of its ends is
      whitespace. */
  lemma TrimFixedIff(s: string)
    ensures Trim(s) == s <==> (|s| == 0 || (!IsWhitespace(s[0]) && !IsWhitespace(s[|s| - 1])))
  {
    if |s| > 0 && !IsWhitespace(s[0]) && !IsWhitespace(s[|s| - 1]) {
      assert TrimStart(s) == s;
    }
  }

  // ---------------------------------------------------------------------------
  // Decimal digits
  // ---------------------------------------------------------------------------

  predicate IsAsciiDigit(c: char) {
    '0' <= c <= '9'
  }

  predicate AllAsciiDigits(s: string) {
    forall k :: 0 <= k < |s| ==> IsAsciiDigit(s[k])
  }

  function DigitValue(c: char): nat
    requires IsAsciiDigit(c)
  {
    (c as int) - ('0' as int)
  }

  function DigitChar(d: nat): (c: char)
    requires d < 10
    ensures IsAsciiDigit(c) && DigitValue(c) == d
  {
    ('0' as int + d) as char
  }

  /** The number a run of ASCII digits denotes in base 10 (leading zeros allowed). */
  function DecimalValue(s: string): nat
    requires AllAsciiDigits(s)
  {
    if |s| == 0 then 0 else DecimalValue(s[..|s| - 1]) * 10 + DigitValue(s[|s| - 1])
  }

  /** The canonical base-10 rendering of `n`: Rust's `n.to_string()` for an unsigned integer. */
  function DecimalString(n: nat): (r: string)
    ensures |r| > 0 && AllAsciiDigits(r)
    ensures DecimalValue(r) == n
    ensures r[0] == '0' ==> r == "0"
  {
    if n < 10 then [DigitChar(n)]
    else
      var prefix := DecimalString(n / 10);
      var r := prefix + [DigitChar(n % 10)];
      assert r[..|r| - 1] == prefix;
      r
  }

  /** `u32::from_str`: an optional `+`, then one or more ASCII digits whose value fits in 32
      bits. */
  function ParseU32(s: string): (r: Option<u32>)
    ensures r.Some? <==> exists digits :: UnsignedForm(s, digits) && DecimalValue(digits) < 0x1_0000_0000
    ensures r.Some? ==> exists digits :: UnsignedForm(s, digits) && DecimalValue(digits) == r.value
  {
    var digits := if |s| > 0 && s[0] == '+' then s[1..] else s;
    assert digits == s ==> !UnsignedForm(s, "+" + digits);
    if |digits| > 0 && AllAsciiDigits(digits) && DecimalValue(digits) < 0x1_0000_0000 then
      assert UnsignedForm(s, digits);
      Some(DecimalValue(digits))
    else
      assert forall d :: UnsignedForm(s, d) ==> d == digits;
      None
  }

  /** `s` spells the digit run `digits`, optionally preceded by a plus sign. */
  predicate UnsignedForm(s: string, digits: string) {
    |digits| > 0 && AllAsciiDigits(digits) && (s == digits || s == "+" + digits)
  }

  /** Rendering a 32-bit value and parsing it back gives the value again. */
  lemma ParseU32OfDecimal(n: u32)
    ensures ParseU32(DecimalString(n)) == Some(n)
  {
    assert UnsignedForm(DecimalString(n), DecimalString(n));
  }

  /** A number that does not fit in 32 bits, written in decimal, is refused. */
  lemma ParseU32TooLarge(n: nat)
    requires n >= 0x1_0000_0000
    ensures ParseU32(DecimalString(n)) == None
  {
    var s := DecimalString(n);
    assert IsAsciiDigit(s[0]);
    assert forall d :: UnsignedForm(s, d) ==> d == s;
  }

  // ---------------------------------------------------------------------------
  // Searching
  // ---------------------------------------------------------------------------

  /** The index of the first occurrence of `c` in `s`, if any. */
  function IndexOf(s: string, c: char): (r: Option<nat>)
    ensures r.None? <==> c !in s
    ensures r.Some? ==> r.value < |s| && s[r.value] == c && c !in s[..r.value]
  {
    if |s| == 0 then None
    else if s[0] == c then Some(0)
    else
      match IndexOf(s[1..], c)
      case None => None
      case Some(k) =>
        assert s[..k + 1] == [s[0]] + s[1..][..k];
        Some(k + 1)
  }

  /** The first occurrence of `c` in `a + [c] + b` is right after `a` when `a` has none. */
  lemma IndexOfJoin(a: string, c: char, b: string)
    requires c !in a
    ensures IndexOf(a + [c] + b, c) == Some(|a|)
  {
    var s := a + [c] + b;
    assert s[|a|] == c;
    assert c in s;
    var k := IndexOf(s, c).value;
    assert forall j :: 0 <= j < |a| ==> s[j] == a[j];
    assert forall j :: |a| < j <= |s| ==> s[..j][|a|] == c;
  }
}

=== FILE: wrappers.dfy ===
/** Failure-compatible Option and Result types, used with `:-` throughout the model. */
module Wrappers {

  datatype Option<+T> = None | Some(value: T) {
    predicate IsFailure() {
      None?
    }

    function PropagateFailure<U>(): Option<U>
      requires None?
    {
      None
    }

    function Extract(): T
      requires Some?
    {
      value
    }
  }

  /** The outcome of a fallible operation: `Failure` stands for Rust's `Err` (and, in this
      model, for a panic, which carries a `Panic` error value). */
  datatype Result<+R, +E> = Success(value: R) | Failure(error: E) {
    predicate IsFailure() {
      Failure?
    }

    function PropagateFailure<U>(): Result<U, E>
      requires Failure?
    {
      Failure(error)
    }

    function Extract(): R
      requires Success?
    {
      value
    }
  }
}
